=== FILE: README.md ===
# Global Shorts — a Dafny model of the player and page logic

Global Shorts is a short-drama streaming front end. This project models its
deterministic core in Dafny:

- the playback engine of the custom video player: its state record, the
  native-event update table, the commands, and the publish/subscribe registry;
- the offline-download queue;
- the audio-only mode and the control bar's decisions;
- the single-page router and the application shell's route guard;
- the token holder;
- the checkout page;
- the two player pages: the routed page and the stand-alone component;
- the paged feeds of the home and discover pages.

Every operation is a pure function over immutable records. Anything the
browser or the server decides is an input of the function:

- a media element's reported values;
- a storage estimate;
- a fetch outcome;
- a `Math.random()` payment outcome;
- whether an element is fullscreen.

One module per source file, plus shared modules:

- `Base`: JavaScript semantics that several files rely on: the whitespace set
  `trim` removes, `parseInt`, `String.replace` with a string pattern
  (first occurrence), and number-to-text.
- `QueryString`: `URLSearchParams` serialisation and parsing, including UTF-8
  and percent-encoding.
- `Clock`: the `h:mm:ss` arithmetic and template that the three time
  formatters share. JavaScript's sign-of-dividend `%` is written out.
- `Paging`: the page counter and loading flags that the home and discover
  pages share.
- `WatchHistory`: the 30-second throttle that both player pages install.

Some behaviours differ from what a reader of the code would expect, and the
model keeps them:

- `trigger` calls the handlers with no fault isolation. A throwing handler
  starves every later one.
- `setQuality` does not restore the playback position, and it does not
  serialise overlapping reloads.
- `waiting` shows the spinner but does not set `isLoading`.
- `disable` in audio mode does not restore the play/pause state: the video
  stays paused.
- Within VideoPlayer.js, `toggleFullscreen` sets `isFullscreen` itself and
  nothing in the player listens for the document leaving fullscreen, so after
  Esc the engine's flag stays set. The stand-alone component Player.js adds a
  `fullscreenchange` listener that puts it right; the routed page
  pages/player.js does not.
- The router routes the current URL from its constructor, while router.js is
  still being imported, before app.js installs its guard. So a logged-out user
  who opens `/profile` or `/payment` directly is shown that page; only later
  visits are redirected to the login page.
- Event, icon and category tables are plain object literals, so a name they
  inherit from `Object.prototype` (`constructor`, `toString`, …) finds a
  function: `on`, `off` and `trigger` throw on such a name, and the icon and
  category lookups return that function instead of their fallback.

- The discover page's search goes to `/search`. That is not a route, so it
  lands on the not-found page. That page is loaded under the name `404`, which
  has no title entry, so the title is the plain fallback.
- The router marks only the first nav item of the page. The shell's
  after-hook marks all of them, and then the router's pass runs last.
- `auth.js` never sets a user, so `isVIP()` is always false.

## Model

| member | source | states |
|---|---|---|
| EventBus.On | src/components/player/VideoPlayer.js:624-629 | the handler is appended at the end of that event's list, which is created on first use, and no other event's handlers change; the call throws exactly when the name is not registered but is inherited from `Object.prototype` |
| EventBus.Off | src/components/player/VideoPlayer.js:636-640 | every registration of the handler for that event is gone and every other handler of that event stays; other events are untouched, and removing an unregistered handler changes nothing; an unregistered inherited name throws |
| EventBus.OnThenOff | src/components/player/VideoPlayer.js:624-640 | registering a fresh handler and removing it again leaves every event's handler list as it was, and the registration throws exactly on an unregistered inherited name |
| EventBus.OffTwice | src/components/player/VideoPlayer.js:636-640 | removing a handler twice is removing it once |
| EventBus.OwnListNeverThrows | src/components/player/VideoPlayer.js:624-651 | once a registration succeeded, later `on`, `off` and `trigger` calls for that name never throw, even for an inherited name |
| EventBus.Deliver | src/components/player/VideoPlayer.js:649 | the handlers reached form a prefix of the list in registration order; the call escapes exactly when some handler throws, and then the last handler reached is the first that throws |
| EventBus.Trigger | src/components/player/VideoPlayer.js:647-651 | an unregistered inherited name throws before any handler runs; otherwise, when no handler throws, every handler of the event is called in registration order, and an unknown event calls none; the list is the one held when the trigger starts |
| EventBus.ThrowStopsLaterHandlers | src/components/player/VideoPlayer.js:647-651 | for a registered event, a throwing handler at position i means at most i+1 handlers run and the exception escapes (no fault isolation) |
| EventBus.DestroyForgetsAll | src/components/player/VideoPlayer.js:668 | after the registry is reset, no event reaches any handler, and only an inherited name still throws |
| VideoPlayer.HandleEvent | src/components/player/VideoPlayer.js:342-392 | per event: loadedmetadata takes the duration and ends loading; timeupdate takes the position; progress takes the last buffered end only when a range exists; play/pause set isPlaying; volumechange and ratechange copy the element; waiting/canplay/playing only toggle the spinner; any other name changes nothing; every name is re-emitted with the state as payload |
| VideoPlayer.ErrorMessage | src/components/player/VideoPlayer.js:405-421 | the message differs from the default exactly when there is an error whose code is 1 to 4 |
| VideoPlayer.ErrorMessagesDistinct | src/components/player/VideoPlayer.js:407-420 | the four native error codes get four different messages |
| VideoPlayer.HandleError | src/components/player/VideoPlayer.js:397-427 | the element's error (possibly none) is recorded, loading stops, nothing else in the state changes, the error box shows the message, and `error` is emitted with the error and the message |
| VideoPlayer.PlayCommand | src/components/player/VideoPlayer.js:462-470 | play only asks the element; isPlaying changes through the element's own event (see PlayPauseReachState) |
| VideoPlayer.PlayRejected | src/components/player/VideoPlayer.js:465-468 | a rejected play runs the error path with the element's error |
| VideoPlayer.PauseCommand | src/components/player/VideoPlayer.js:475-477 | pause only asks the element (see PlayPauseReachState) |
| VideoPlayer.TogglePlay | src/components/player/VideoPlayer.js:482-488 | the element's paused flag, not the state, decides between play and pause (see PlayPauseReachState and TogglePlayTwice) |
| VideoPlayer.Seek | src/components/player/VideoPlayer.js:494-496 | the target is clamped to [0, duration]: in-range targets are kept, negative ones give 0 and later ones give the duration |
| VideoPlayer.SeekBeforeMetadata | src/components/player/VideoPlayer.js:494-496 | the constructor's duration is 0, so every seek before loadedmetadata lands at 0 |
| VideoPlayer.SetVolumeCommand | src/components/player/VideoPlayer.js:502-504 | the element's volume is set to the value clamped to [0, 1] |
| VideoPlayer.ToggleMute | src/components/player/VideoPlayer.js:509-511 | only the element's muted flag flips |
| VideoPlayer.SetPlaybackRate | src/components/player/VideoPlayer.js:517-519 | the rate is assigned as given, with no range check (see SetPlaybackRateThenRateChange) |
| VideoPlayer.FindSource | src/components/player/VideoPlayer.js:556 | the source found has the requested quality, and none is found exactly when no source has it |
| VideoPlayer.SetQuality | src/components/player/VideoPlayer.js:555-569 | an unknown quality changes nothing and emits nothing; a known one switches the source, reloads, replays only if playing, emits qualitychange, and never sets a position |
| VideoPlayer.ToggleFullscreen | src/components/player/VideoPlayer.js:524-532 | whether an element is already fullscreen decides between request and exit, and the flag is set to the opposite, whatever the platform then does (see FullscreenFollowsLastToggle) |
| VideoPlayer.TogglePictureInPicture | src/components/player/VideoPlayer.js:537-550 | the flag flips only when the platform request succeeds (see PictureInPictureRoundTrip) |
| VideoPlayer.Destroy | src/components/player/VideoPlayer.js:656-668 | the element is paused and every event's handler list is empty |
| VideoPlayer.SeekThenTimeUpdate | src/components/player/VideoPlayer.js:494-496 | a seek followed by the element's timeupdate leaves the clamped target in the state |
| VideoPlayer.SetVolumeThenVolumeChange | src/components/player/VideoPlayer.js:502-504 | setVolume followed by volumechange stores the clamped volume |
| VideoPlayer.ToggleMuteTwice | src/components/player/VideoPlayer.js:509-511 | two mute toggles give the element back its muted flag |
| VideoPlayer.SetPlaybackRateThenRateChange | src/components/player/VideoPlayer.js:517-519 | setPlaybackRate followed by ratechange stores exactly the rate asked for |
| VideoPlayer.PlayPauseReachState | src/components/player/VideoPlayer.js:462-488 | when state and element agree, the element's play or pause event after a command leaves isPlaying true after play, false after pause and flipped after togglePlay, with state and element agreeing again |
| VideoPlayer.TogglePlayTwice | src/components/player/VideoPlayer.js:482-488 | the first toggle flips the element's paused flag and the second gives the element back exactly as it was |
| VideoPlayer.PictureInPictureRoundTrip | src/components/player/VideoPlayer.js:537-550 | two successful toggles restore the flag; a failed toggle followed by a success is that success alone |
| VideoPlayer.QualitySwitchLosesPosition | src/components/player/VideoPlayer.js:555-569 | after a successful quality switch the next timeupdate reports position 0 |
| VideoPlayer.PlayingFollowsLastPlayPause | src/components/player/VideoPlayer.js:368-378 | over any run of element events, isPlaying is what the last play or pause event said |
| VideoPlayer.LoadingUntilMetadata | src/components/player/VideoPlayer.js:344-347 | no event forwarded to handleEvent other than loadedmetadata changes isLoading |
| VideoPlayer.LoadingClearedOnlyBy | src/components/player/VideoPlayer.js:342-400 | over any run of engine operations the player is still loading exactly when it started loading and no metadata event, element error or rejected play occurred |
| VideoPlayer.AudioModeFlagNeverSet | src/components/player/VideoPlayer.js:57-72 | isAudioMode starts false and no engine operation ever sets it |
| VideoPlayer.FullscreenFollowsLastToggle | src/components/player/VideoPlayer.js:524-532 | over any run of the engine's own operations, isFullscreen is what the last toggleFullscreen set, since nothing in VideoPlayer.js listens for fullscreen changes |
| VideoPlayer.EscLeavesFullscreenFlag | src/components/player/VideoPlayer.js:524-532 | after entering fullscreen, the engine's flag stays set through any engine operations other than a toggle, so the engine alone does not see Esc and its next toggle requests fullscreen again |
| Download.CheckStorage | src/components/player/Download.js:141-153 | admission passes when the estimate API is absent, and otherwise exactly when quota minus usage exceeds 500 MiB |
| Download.ExactlyMinimumRefused | src/components/player/Download.js:147-149 | exactly 500 MiB free is refused and one byte more is admitted |
| Download.DownloadEpisode | src/components/player/Download.js:10-36 | without room nothing happens; a rejected link request queues nothing; otherwise a pending item at 0 progress is appended at the tail, the earlier items and the database are kept, and the downloader is busy (draining is started only when it was idle) |
| Download.NoSpaceQueuesNothing | src/components/player/Download.js:12-15 | a refused admission leaves the queue as it was |
| Download.AfterChunks | src/components/player/Download.js:53-68 | reading at least one chunk leaves the item downloading with its identity unchanged |
| Download.ReceiveChunks | src/components/player/Download.js:53-68 | the received total is the sum of the chunk lengths; there is one progress update per chunk; progress never decreases; the last update is 100 when the total equals Content-Length; a missing length gives a non-finite progress |
| Download.Settle | src/components/player/Download.js:74-89 | the head item always ends terminal, and completed exactly when the fetch, the read and the save all succeed |
| Download.ProcessQueue | src/components/player/Download.js:38-90 | a stalled downloader does nothing; an empty queue stops the downloader; a fully read item on a database without the store leaves the head in place as the read loop left it and stalls the downloader busy for good; otherwise only the head is settled and moved to the finished items, the rest of the queue is kept, and the saved entries change exactly on success |
| Download.FreshValid | src/components/player/Download.js:4-8 | the constructor's downloader satisfies the invariant that it is busy exactly when something is queued, stalls only on a database without the store, and every queued item but a stalled head is pending |
| Download.DownloadEpisodeKeepsValid | src/components/player/Download.js:29-33 | queuing preserves that invariant |
| Download.ProcessQueueKeepsValid | src/components/player/Download.js:38-90 | a step of draining preserves that invariant |
| Download.FailureDoesNotHalt | src/components/player/Download.js:84-89 | a failed head (one whose save does not hang) is marked failed and the next item becomes the head with the downloader still busy |
| Download.DrainSettlesInOrder | src/components/player/Download.js:38-90 | on a database that is not store-less, draining N queued items gives N terminal items in FIFO order, each completed exactly when its outcome succeeded, and leaves the downloader idle and unstalled with an empty queue |
| Download.DrainEmpty | src/components/player/Download.js:39-42 | draining an empty, unstalled queue only clears the busy flag |
| Download.SaveToIndexedDB | src/components/player/Download.js:92-113 | the save never settles exactly on a database without the store; otherwise the database ends with the store, the promise resolves exactly when the transaction commits, and only a resolved save adds the entry |
| Download.StalledStaysStalled | src/components/player/Download.js:75 | a stalled downloader stays exactly as it is whatever outcomes follow |
| Download.GetOfflineVideo | src/components/player/Download.js:115-139 | on a database with the store, the saved blob for a stored id and null exactly when the id is absent; on any other database the promise never settles and the database is left without the store |
| Download.CompletedIsOffline | src/components/player/Download.js:75-79 | a completed download on a usable database can be read back under its episode id with exactly the chunks received |
| Download.FailedStoresNothing | src/components/player/Download.js:84-89 | a failed download leaves the saved entries, and the answer of every lookup, as they were |
| Download.LookupFirstStallsQueue | src/components/player/Download.js:115-122 | a lookup before any save leaves the database without the store and never answers; the next fully read download then stalls, with the downloader busy, nothing finished and its item at the head, whatever comes later |
| Download.GetOfflineVideoFixed | src/components/player/Download.js:115-139 | with an upgrade handler, a lookup on any database that is not store-less settles, ends with the store, and finds exactly the saved entries |
| Download.FixedLookupKeepsQueueMoving | src/components/player/Download.js:115-139 | with the fixed lookup, any lookups before the first download leave the database usable: the download settles, the downloader goes idle, and a completed download is found |
| AudioMode.Enable | src/components/player/AudioMode.js:10-55 | a no-op when active; otherwise the audio copies the sources and the player's position and plays, the video is hidden and paused, two more play/pause mirror handlers are registered, and the mode is active |
| AudioMode.Disable | src/components/player/AudioMode.js:57-73 | a no-op when inactive; otherwise the video is shown and takes the audio's position, the audio is dropped, and the video is not resumed |
| AudioMode.EnableKeepsValid | src/components/player/AudioMode.js:36-37 | enabling keeps the invariant that the mode is active exactly when an audio element is held |
| AudioMode.DisableKeepsValid | src/components/player/AudioMode.js:66-72 | disabling keeps that invariant and drops the audio element |
| AudioMode.EnableIdempotent | src/components/player/AudioMode.js:11 | enabling twice is enabling once |
| AudioMode.DisableIdempotent | src/components/player/AudioMode.js:58 | disabling twice is disabling once |
| AudioMode.EnableAndSettle | src/components/player/AudioMode.js:27-51 | a player that was playing answers `pause()` with a pause event that reaches the freshly registered mirror, so the audio ends paused; a paused player fires nothing and enable stands as it is |
| AudioMode.HandOffRoundTrip | src/components/player/AudioMode.js:27-67 | enabling, letting dt seconds pass and disabling leaves the mode inactive and the player shown and paused; it is dt seconds past where it was when it was paused before, and back at its own position when it was playing, because its pause event stopped the audio |
| AudioMode.OnPlayerPlay | src/components/player/AudioMode.js:41-45 | the mirrored play handlers reach the audio only while active |
| AudioMode.OnPlayerPause | src/components/player/AudioMode.js:47-51 | the mirrored pause handlers reach the audio only while active |
| AudioMode.MirrorsIdleAfterDisable | src/components/player/AudioMode.js:41-51 | after disabling, the handlers left registered on the player do nothing |
| AudioMode.EffectiveOffset | src/components/player/AudioMode.js:98 | an absent or zero seek offset means 10 seconds |
| AudioMode.SeekBackward | src/components/player/AudioMode.js:96-101 | the target is the position less the offset, never below 0 |
| AudioMode.SeekForward | src/components/player/AudioMode.js:103-108 | the target is the position plus the offset, never past the duration |
| AudioMode.SeekBackThenForward | src/components/player/AudioMode.js:96-108 | seeking back then forward by the same offset returns to the start when neither seek is clamped |
| AudioMode.SeekForwardThenBack | src/components/player/AudioMode.js:96-108 | seeking forward then back returns to the start when neither seek is clamped |
| AudioMode.MediaSessionAction | src/components/player/AudioMode.js:87-108 | a media-session action throws exactly when no audio element is held, and otherwise keeps the mode and the sources |
| Controls.FormatTime | src/components/player/PlayerControls.js:264-276 | NaN prints as 00:00 and every other number goes through the shared clock rendering with padded minutes |
| Controls.FormatTimeRoundTrip | src/components/player/PlayerControls.js:267-275 | a non-negative time reads back as its whole seconds; the output has three fields from the first hour on and two before, and its minutes and seconds fields are two digits wide |
| Controls.FormatTimeInfinite | src/components/player/PlayerControls.js:265-269 | infinities pass the NaN guard and print as NaN fields |
| Controls.FormatTimeUnderAMinute | src/components/player/PlayerControls.js:273-274 | 59.5 seconds prints as 00:59 |
| Controls.FormatTimeOneHour | src/components/player/PlayerControls.js:271-272 | one hour prints as 1:00:00 |
| Controls.ProgressTimeInverse | src/components/player/PlayerControls.js:145-149 | the time chosen by dragging to a percent shows that same percent |
| Controls.ProgressSeekIsExact | src/components/player/PlayerControls.js:145-148 | dragging within 0 to 100 seeks to exactly percent/100 of the duration, without clamping |
| Controls.PlayProgress | src/components/player/PlayerControls.js:210-213 | the play bar moves only when the duration is positive, to the position as a percent of the duration |
| Controls.UpdateBuffered | src/components/player/PlayerControls.js:220-223 | the buffered bar moves only when the duration is positive, to the buffered end as a percent of the duration |
| Controls.BarsStillBeforeMetadata | src/components/player/PlayerControls.js:210-223 | before loadedmetadata neither bar moves, whatever the position |
| Controls.UpdateVolume | src/components/player/PlayerControls.js:231-244 | the slider shows 0 when muted and the volume otherwise; the bar width is the slider times 100; the muted icon shows exactly when muted or at volume 0 |
| Controls.VolumeSliderFollowsSetVolume | src/components/player/PlayerControls.js:235-236 | on an unmuted element, setVolume followed by volumechange shows the clamped volume |
| Controls.HdBadge | src/components/player/PlayerControls.js:255-262 | the hd badge shows exactly for 1080p |
| Controls.BadgeFollowsQualityChange | src/components/player/PlayerControls.js:257-261 | a quality switch shows the badge exactly when it switched to 1080p |
| Controls.AudioButton | src/components/player/PlayerControls.js:168-174 | the button disables audio mode exactly when the engine state says audio mode is on |
| Controls.AudioButtonNeverDisables | src/components/player/PlayerControls.js:168-174 | as written, no click ever disables audio mode, whatever the engine did before |
| Controls.AudioToggle | src/components/player/PlayerControls.js:168-174 | the corrected button flips the component's own active flag, disabling when active and enabling otherwise |
| Controls.AudioToggleTwice | src/components/player/PlayerControls.js:168-174 | with the corrected button, two clicks switch audio mode on and off again and hand the position back |
| Clock.RemNonNegative | src/components/player/PlayerControls.js:268-269 | for a non-negative time, the remainder of `%` is in [0, divisor) |
| Clock.FormatRoundTrip | src/components/player/Player.js:461-469 | the shared arithmetic reads back as the whole seconds for any non-negative time, with three fields exactly from the first hour on |
| QueryString.Encode | src/scripts/core/router.js:261-262 | an encoded name or value never contains the separators `&`, `=` or `?` |
| QueryString.Utf8RoundTrip | src/scripts/core/router.js:261-262 | UTF-8 decoding undoes encoding for every string |
| QueryString.ComponentRoundTrip | src/scripts/core/router.js:261-262 | decoding a name or value undoes its encoding |
| QueryString.Serialize | src/scripts/core/router.js:260-262 | the serialised query is empty exactly when there are no pairs |
| QueryString.RoundTrip | src/scripts/core/router.js:261-262 | parsing a serialised query gives back the same pairs in the same order |
| QueryString.RoundTripSearch | src/scripts/core/router.js:75 | the same holds with the leading `?` a location's search carries |
| Router.Lookup | src/scripts/core/router.js:8-17 | a path has a page exactly when it is in the routes table, and that page name is non-empty |
| Router.Normalize | src/scripts/core/router.js:82-84 | `/` and `/index.html` both become `/`, and every other path is unchanged |
| Router.IndexIsHome | src/scripts/core/router.js:82-84 | both root spellings route to home |
| Router.Set | src/scripts/core/router.js:113 | assigning a parameter makes it read back as the new value, leaves other names as they were, and appends a new name at the end |
| Router.FromPairs | src/scripts/core/router.js:76-79 | each name in the params object holds the value of the last pair with that name |
| Router.FromDistinctPairs | src/scripts/core/router.js:76-79 | with distinct names, the params object holds exactly the parsed pairs in order |
| Router.Segments | src/scripts/core/router.js:108 | the segments are non-empty and contain no `/` |
| Router.MatchRoute | src/scripts/core/router.js:101-119 | an exact entry wins with the params untouched; otherwise a path of two or more segments whose first segment is routed gives that page with `id` set to the second segment; no match leaves the params alone |
| Router.DynamicRoute | src/scripts/core/router.js:108-116 | `/route/id` for a routed first segment gives that route's page and makes `id` read back as the id |
| Router.PlayerWithId | src/scripts/core/router.js:108-116 | `/player/123` gives the player page with id 123 |
| Router.BuildUrl | src/scripts/core/router.js:257-263 | the URL is the bare path without params and `path?query` with them |
| Router.LocationOf | src/scripts/core/router.js:71-74 | a URL free of `?` and `#` is all path with an empty search |
| Router.FragmentIgnored | src/scripts/core/router.js:71-74 | a fragment never reaches the router: `url#frag` has the location of `url` |
| Router.BuildUrlRoundTrip | src/scripts/core/router.js:255-270 | navigating to a path free of `?` and `#` lands on that path, and reading its query gives back the params |
| Router.HashInPathDropsParams | src/scripts/core/router.js:255-270 | navigating to a path with a fragment puts the params inside the fragment, so the router reads no query at all |
| Router.HandleRoute | src/scripts/core/router.js:70-94 | the request uses the normalised path, parses the query into params, and names the matched page or `404` |
| Router.Title | src/scripts/core/router.js:220-232 | each of the seven pages of the table gets its own title and any other page gets the plain fallback |
| Router.UnmatchedGetsPlainTitle | src/scripts/core/router.js:89-93 | an unmatched path loads `404`, whose title is the plain fallback |
| Router.LoadPage | src/scripts/core/router.js:126-214 | a veto by the before-hook only stores the params; a failed HTML fetch keeps the page and title and shows the error; a throwing `destroy()` of the old page sets the title, keeps the page and shows the error; otherwise, even with a missing or failing page script, the title is set and the page becomes current |
| Router.LoadPageComposes | src/scripts/core/router.js:126-167 | a vetoed load followed by an allowed one is the allowed one alone; reloading the current page successfully changes nothing; a throwing old-page `destroy()` differs from success only in keeping the page and showing the error |
| Router.Navigate | src/scripts/core/router.js:255-270 | the built URL is pushed onto history and routed |
| Router.Replace | src/scripts/core/router.js:277-286 | the built URL overwrites the last history entry, or becomes the first, and is routed |
| Router.NavigateReplaceAgree | src/scripts/core/router.js:255-286 | navigate and replace reach the same location and request and differ only in history |
| Router.ShouldRoute | src/scripts/core/router.js:53-57 | a link is routed exactly when its href is non-empty and starts with neither `http` nor `#` (see LinkClasses) |
| Router.LinkFilterExamples | src/scripts/core/router.js:57 | external links, anchors and empty hrefs are skipped, and a local path is routed |
| Router.LinkClasses | src/scripts/core/router.js:57 | every `http…` href (a relative `httpdocs/…` too) and every anchor is left to the browser, and so is a link without an href; local paths, `//host/…`, `mailto:`, `javascript:` and upper-case `HTTP…` hrefs are all routed in the app |
| Router.ActiveNav | src/scripts/core/router.js:237-248 | only the first nav item whose page equals the current page is marked |
| App.Guard | src/scripts/core/app.js:45-57 | the hook redirects exactly for a logged-out visit to profile or payment |
| App.Visit | src/scripts/core/app.js:45-57 | a visit the hook allows loads exactly as the router alone would load it |
| App.LoginRequest | src/scripts/core/app.js:51 | the redirect lands on the login page, with the page to return to as the `redirect` parameter |
| App.RedirectLoadsLogin | src/scripts/core/app.js:49-53 | the login page passes the hook, so the nested load goes ahead |
| App.LoggedOutVisitEndsOnLogin | src/scripts/core/app.js:47-53 | once the hooks are installed, a logged-out visit to an account page pushes one history entry, the login URL; the location and params carry the page to return to; a successful load shows the login page with its title |
| App.StartUp | src/scripts/core/router.js:20-41 | the first route runs with no hook: it lands on the URL it was given, pushes nothing, and a successful load shows the routed page |
| App.ProfileRoute | src/scripts/core/router.js:12 | `/profile` routes to the profile page |
| App.LoggedOutStartLoadsAccountPage | src/scripts/core/router.js:20-41 | a logged-out start at an account page loads that page, where a later visit to the same URL would end on the login page; opening `/profile` is one such start |
| App.StartUpFixed | src/scripts/core/app.js:44-57 | with the hook installed before the first route, a start the hook allows loads exactly as the unguarded start-up does |
| App.FixedStartUpEndsOnLogin | src/scripts/core/app.js:44-57 | with the hook installed before the first route, a logged-out start at an account page ends on `/login` with the page to return to, and a successful load shows the login page |
| App.OthersPass | src/scripts/core/app.js:56 | other pages, and every page for a logged-in user, load exactly as without the hook |
| App.ActiveNavAll | src/scripts/core/app.js:65-72 | every nav item for the page is marked, and no other |
| App.NavPassesAgree | src/scripts/core/app.js:65-72 | with distinct nav items, the shell's pass and the router's first-match pass mark the same items |
| App.LanguageSupported | src/scripts/core/app.js:82-85 | without a saved choice the language is supported: the browser's primary subtag if supported, else `en` |
| App.SavedLanguageWins | src/scripts/core/app.js:84-85 | a non-empty saved language wins |
| App.LanguageOfRegion | src/scripts/core/app.js:82-85 | a region-qualified browser language picks its primary subtag |
| Auth.FromStorage | src/scripts/core/auth.js:2-5 | the token is read from storage and there is no user |
| Auth.SetToken | src/scripts/core/auth.js:15-18 | the token is kept in memory and in storage |
| Auth.Logout | src/scripts/core/auth.js:20-25 | the token and the user are forgotten, here and in storage |
| Auth.SetTokenLogsIn | src/scripts/core/auth.js:7-18 | a token logs in exactly when it is non-empty, and the VIP flag does not change |
| Auth.LogoutClears | src/scripts/core/auth.js:7-25 | after logout the session is neither logged in nor VIP |
| Auth.RestoredSession | src/scripts/core/app.js:74-79 | a restored session is logged in exactly when storage held a non-empty token, and re-setting that token changes nothing |
| Auth.NeverVIP | src/scripts/core/auth.js:11-13 | no sequence of operations ever sets a user, so isVIP stays false |
| Auth.LoggedInFollowsLastOp | src/scripts/core/auth.js:7-25 | after a run of operations the session is logged in exactly as the last setToken or logout left it |
| Payment.CardIsGroupedDigits | src/scripts/pages/payment.js:732-736 | the formatted card number is the first sixteen digits of the input in groups of four |
| Payment.CardShape | src/scripts/pages/payment.js:732-736 | the field holds at most 19 characters, only digits and single spaces, with a space exactly at every fifth position and nothing trailing |
| Payment.CardDigitsKept | src/scripts/pages/payment.js:732-736 | the digits of the field are exactly the first sixteen digits typed |
| Payment.CardIdempotent | src/scripts/pages/payment.js:732-736 | formatting a formatted number changes nothing |
| Payment.ExpiryShape | src/scripts/pages/payment.js:741-747 | fewer than two digits are kept as typed; otherwise the field is two digits, `/` and up to two more, at most five characters; its digits are the first four typed |
| Payment.ExpiryIdempotent | src/scripts/pages/payment.js:741-747 | formatting a formatted expiry changes nothing |
| Payment.ApplyPromoCode | src/scripts/pages/payment.js:561-592 | a blank code is rejected as empty; a known code (after trimming and upper-casing) sets its discount; anything else keeps the discount |
| Payment.PromoIgnoresCaseAndPadding | src/scripts/pages/payment.js:563 | a code is recognised whatever the case of its letters and whatever white space surrounds it |
| Payment.BlankCodeKeepsDiscount | src/scripts/pages/payment.js:565-568 | an all-space input keeps the discount and reports an empty code |
| Payment.LowerCaseWelcome | src/scripts/pages/payment.js:571-579 | ` welcome10 ` gives a 10 percent discount |
| Payment.ApplyDiscount | src/scripts/pages/payment.js:540-545 | no positive discount keeps the price; otherwise the price is reduced by that percentage |
| Payment.PromoDiscountLowers | src/scripts/pages/payment.js:540-545 | every promo discount lowers a positive price without making it free, and, over exact reals, the original price can be recovered |
| Payment.Receipt | src/scripts/pages/payment.js:633-646 | the transaction carries the discounted amount and success, and is a purchase exactly for a coin package |
| Payment.ResetPaymentForm | src/scripts/pages/payment.js:715-727 | the package and the discount are cleared and nothing else changes |
| Payment.ProcessPayment | src/scripts/pages/payment.js:597-685 | no package, an incomplete form and a failed payment each leave the page with its own error message |
| Payment.PaymentEffect | src/scripts/pages/payment.js:631-664 | a payment goes through exactly when a package is selected, the form is complete and the payment succeeds; then one transaction is recorded first, coins plus bonus are credited for coins, and the form is reset |
| Payment.BlankFieldRejected | src/scripts/pages/payment.js:604-616 | an empty field, a missing field or a card number of white space records no transaction |
| Payment.RedirectTimerAsWritten | src/scripts/pages/payment.js:667-671 | as written, the timer throws exactly when no package is selected |
| Payment.VipRedirectNeverFires | src/scripts/pages/payment.js:664-671 | as written, the timer throws after every successful payment, so the VIP redirect never happens |
| Payment.RedirectTimerFor | src/scripts/pages/payment.js:667-671 | the corrected timer redirects to the profile's VIP tab exactly for a VIP plan, and never throws |
| Payment.ProcessPaymentFixed | src/scripts/pages/payment.js:664-671 | the corrected payment leaves the page exactly as the original does |
| Payment.FixedTimerRedirectsVip | src/scripts/pages/payment.js:664-671 | with the package captured before the reset, a paid VIP plan leads to the VIP tab and the timer never throws |
| Payment.StatusIcon | src/scripts/pages/payment.js:416-424 | known statuses get their icons; a name inherited from `Object.prototype` yields that inherited member, and exactly those names do; any other status gets `fa-circle` |
| Payment.IconIdentifiesStatus | src/scripts/pages/payment.js:416-424 | the icon of a known status belongs to no other status |
| WatchHistory.Tick | src/scripts/pages/player.js:544-549 | a position is saved exactly when it is at least 30 seconds past the last saved one, and only then does the mark move |
| WatchHistory.SavedSpaced | src/components/player/Player.js:421-427 | every saved position is one that occurred; the first is at least 30 seconds past the starting mark and each later one at least 30 past the one before; the last saved is the new mark |
| WatchHistory.NeverFarBehind | src/scripts/pages/player.js:544-549 | after any timeupdate, the last saved position is less than 30 seconds behind the current one |
| WatchHistory.SeekBackSavesNothing | src/components/player/Player.js:421-427 | while positions stay below the mark plus 30 seconds, such as after a seek back, nothing is saved |
| PlayerPage.QueryGet | src/scripts/pages/player.js:60-63 | a parameter read gives the value of a pair with that name, and nothing exactly when no pair has it |
| PlayerPage.QuerySet | src/scripts/pages/player.js:334-336 | setting a parameter makes it read back as the new value, leaves other names as they were, and appends a new name |
| PlayerPage.EpisodeIdOf | src/scripts/pages/player.js:13 | the episode number is never 0, and a missing parameter gives 1 |
| PlayerPage.DramaIdOf | src/scripts/pages/player.js:12 | a non-empty route id wins over the `drama` query parameter |
| PlayerPage.EpisodeIdRoundTrip | src/scripts/pages/player.js:13 | a non-zero number written as the episode parameter is read back as itself |
| PlayerPage.EpisodeIdDefaults | src/scripts/pages/player.js:13 | a query without an episode parameter, or with `episode=0`, asks for episode 1 |
| PlayerPage.EpisodeIdOfEmptySearch | src/scripts/pages/player.js:13 | an empty search asks for episode 1 |
| PlayerPage.FindNumber | src/scripts/pages/player.js:130-132 | the index found is the first episode with that number, and none exactly when no episode has it |
| PlayerPage.CurrentEpisode | src/scripts/pages/player.js:130-132 | the shown episode is the first with the requested number, else the first episode, and none only without episodes |
| PlayerPage.ShownEpisodeMatches | src/scripts/pages/player.js:130-132 | the shown episode has the requested number exactly when some episode does |
| PlayerPage.SwitchEpisode | src/scripts/pages/player.js:327-340 | the page stays exactly for the current number or a number no episode has, and otherwise reloads |
| PlayerPage.SwitchReloadsTarget | src/scripts/pages/player.js:333-339 | after the reload the page asks for the episode switched to, and every other query parameter is kept |
| PlayerPage.ClickEpisode | src/scripts/pages/player.js:312-318 | a click prompts for VIP exactly when the episode is VIP and the user is not |
| PlayerPage.NextEpisodePrompt | src/scripts/pages/player.js:496-503 | the prompt offers the episode at index episodeId exactly when it exists and is not locked for the user |
| PlayerPage.NextEpisodeIsFollowing | src/scripts/pages/player.js:270-274 | for episodes numbered 1, 2, … the prompt offers episode episodeId+1 and nothing after the last |
| PlayerPage.BuildSources | src/scripts/pages/player.js:189-212 | three mp4 sources, 1080p on the episode URL, then 720p and 480p |
| PlayerPage.SourcesServeQualities | src/scripts/pages/player.js:189-212 | 1080p, 720p and 480p each select their own source, while 360p and auto select none; a URL without `.mp4` is served unchanged at every quality |
| PlayerPage.SourcesOfPlainName | src/scripts/pages/player.js:200-206 | for a dot-free stem, the lower qualities are `stem_720p.mp4` and `stem_480p.mp4` |
| PlayerPage.FormatDurationRoundTrip | src/scripts/pages/player.js:580-590 | a non-negative duration reads back as its whole seconds, with an hours field exactly from the first hour on and a two-digit seconds field |
| PlayerPage.FormatDurationExample | src/scripts/pages/player.js:588 | 395 seconds prints as 6:35 |
| PlayerComponent.OnFullscreenChange | src/components/player/Player.js:505-507 | the listener sets the player's fullscreen flag to whether the document has a fullscreen element, and changes nothing else |
| PlayerComponent.EscResyncsFullscreenFlag | src/components/player/Player.js:504-507 | with the component hosting the player, the flag the engine left set after Esc is cleared by the document's change event, and the next toggle requests fullscreen and sets it again |
| PlayerComponent.ParseUrlParams | src/components/player/Player.js:44-48 | the drama defaults to `demo_001`; the episode is the parameter's text when non-empty, else the number 1 |
| PlayerComponent.DefaultParams | src/components/player/Player.js:46-47 | an empty query asks for episode 1 of `demo_001` |
| PlayerComponent.FindId | src/components/player/Player.js:60-62 | the index found is the first episode whose id is strictly equal, and none exactly when there is no such episode |
| PlayerComponent.CurrentEpisode | src/components/player/Player.js:60-62 | the shown episode is the first strictly matching one, else the first, and none only without episodes |
| PlayerComponent.TypeOr | src/components/player/Player.js:114 | a missing or empty type becomes `video/mp4` |
| PlayerComponent.SourcesOf | src/components/player/Player.js:110-116 | one source per video, in order |
| PlayerComponent.BuildSources | src/components/player/Player.js:105-127 | one source per video entry when the list is present, and otherwise a single 720p mp4 source on the episode URL; every type is non-empty |
| PlayerComponent.SourcesFollowVideos | src/components/player/Player.js:105-127 | switching to a quality picks the first video of that quality, and nothing when there is none |
| PlayerComponent.TrackOf | src/components/player/Player.js:134-139 | a track copies url, language and label, and is the default exactly when the subtitle says so |
| PlayerComponent.BuildSubtitles | src/components/player/Player.js:129-144 | one track per subtitle, and none without subtitles |
| PlayerComponent.TracksAppend | src/components/player/Player.js:129-144 | tracks keep the subtitles' order |
| PlayerComponent.TrackAt | src/components/player/Player.js:129-144 | track i is built from subtitle i and is the default exactly when that subtitle is |
| PlayerComponent.ExactlyOneActive | src/components/player/Player.js:305-311 | of distinct menu entries, exactly the one equal to the current value is active, and none when it is absent |
| PlayerComponent.QualityMenuMarksCurrent | src/components/player/Player.js:302-319 | the quality menu marks exactly the current quality, and nothing for a quality outside the menu |
| PlayerComponent.SpeedMenuMarksCurrent | src/components/player/Player.js:339-357 | the speed menu marks exactly the current rate, and nothing for a rate outside the menu |
| PlayerComponent.SwitchEpisode | src/components/player/Player.js:220-237 | the same id does nothing; an id with no episode throws; a locked episode prompts; otherwise the page reloads with the id written into the query |
| PlayerComponent.ReloadReadsText | src/components/player/Player.js:230-236 | after the reload the id is read back as its text |
| PlayerComponent.NumericIdSwitchShowsFirst | src/components/player/Player.js:60-62 | as written, with numeric ids, switching to episode 2 reloads the page, which then shows the first episode |
| PlayerComponent.FindIdText | src/components/player/Player.js:60-62 | the corrected lookup finds the first episode whose id text equals the text read, and nothing exactly when there is none |
| PlayerComponent.CurrentEpisodeFixed | src/components/player/Player.js:60-62 | the corrected current episode is the first whose id text matches, else the first |
| PlayerComponent.FixedSwitchShowsTarget | src/components/player/Player.js:220-237 | with the corrected lookup and ids of distinct texts, the reloaded page shows the episode switched to |
| PlayerComponent.FormatDurationIsFormatTime | src/components/player/Player.js:458-470 | the component's label agrees with the control bar's clock on every number, because the falsy guard only repeats what the clock gives for 0 and NaN |
| Paging.Load | src/scripts/pages/home.js:119-123 | a load starts exactly when nothing is loading and more pages exist; it requests the current page and sets the loading flag, and otherwise changes nothing |
| Paging.Finish | src/scripts/pages/home.js:137-148 | a finished load always clears the loading flag; a successful answer sets has-more to page < pages; a failure keeps it |
| Paging.Reset | src/scripts/pages/home.js:48-54 | a filter change goes back to page 1 with more to load, and requests page 1 exactly when no load is running |
| Paging.Scroll | src/scripts/pages/home.js:100-106 | the page counter moves on and that page is requested exactly when the trigger is visible, nothing is loading and more pages exist |
| Paging.RequestOnlyWhenIdle | src/scripts/pages/home.js:119-122 | every step that requests a page starts idle and leaves the feed loading |
| Paging.SingleFlight | src/scripts/pages/home.js:119-148 | over any run of events, the requests are at most the responses, plus one if the feed starts idle |
| Paging.NothingAfterLastPage | src/scripts/pages/home.js:100-106 | after the last page, scrolling requests nothing and changes nothing |
| Paging.FailedPageSkipped | src/scripts/pages/home.js:100-106 | a failed load leaves the counter moved on, so the next scroll asks for the page after it |
| Paging.FilterDuringLoad | src/scripts/pages/home.js:44-56 | a filter change during a load skips its own load, and the next scroll asks for page 2, so page 1 of the new filter is never requested |
| Paging.ScrollingPagesThrough | src/scripts/pages/home.js:100-148 | rounds of an answer with more pages followed by a visible trigger request the following pages in order, without gaps |
| Home.SelectCategory | src/scripts/pages/home.js:47-54 | the category is taken, the feed goes back to page 1 with more to load, and page 1 is requested unless a load is running |
| Home.Search | src/scripts/pages/home.js:68-78 | an unchanged trimmed query does nothing; any other query is stored and resets and reloads the feed |
| Home.PaddedQueryIsNoOp | src/scripts/pages/home.js:69-70 | typing only white space around the current query changes nothing |
| Home.RequestReadsBack | src/scripts/pages/home.js:126-132 | the server reads back the page number and the search, and an empty category exactly for `all` |
| Home.ProgressPercent | src/scripts/pages/home.js:177-178 | no watched episodes shows 0, and otherwise watched over total as a percentage |
| Home.ProgressBounds | src/scripts/pages/home.js:177-178 | between none and all watched the bar is within 0 to 100 and full exactly when everything was watched; watched episodes with a total of 0 give no finite width |
| Discover.SelectTab | src/scripts/pages/discover.js:50-56 | the tab is taken, the feed goes back to page 1 with more to load, and page 1 is requested unless a load is running |
| Discover.SelectCategory | src/scripts/pages/discover.js:76-82 | the category is taken, with the same reset and reload |
| Discover.RequestReadsBack | src/scripts/pages/discover.js:126-131 | the server reads back the page number and the tab, and an empty category exactly for `all` |
| Discover.CategoryName | src/scripts/pages/discover.js:225-236 | the seven known keys get their labels; a name inherited from `Object.prototype` yields that inherited member, and exactly those names do; any other key is shown as itself |
| Discover.CategoryNameIsLabel | src/scripts/pages/discover.js:225-236 | a category is shown as itself exactly when it is neither a known key nor an inherited name, and different known keys get different labels |
| Discover.Search | src/scripts/pages/discover.js:313-317 | the page navigates exactly when the trimmed query is non-empty, to `/search` with that query |
| Discover.TrendingTag | src/scripts/pages/discover.js:330-334 | a tag goes to `/search`, and text without `#` is searched as it is |
| Discover.TagWithoutHash | src/scripts/pages/discover.js:332-333 | a `#tag` searches for the tag without its `#` |
| Discover.SearchIsUnrouted | src/scripts/pages/discover.js:316 | the search the page navigates to loads the not-found page, with the query still in the params |

## Left out

- DOM construction, templates, class toggling, spinners and toasts. Only the decisions that drive them are modelled, as flags and strings.
- The network, `localStorage`, `navigator.storage.estimate`, `history` and `location.reload`. Their answers are inputs, and history is a list of URLs.
- IndexedDB is modelled only as far as the downloader depends on it: whether `VideoDB` exists, whether it holds the `videos` store, and that store as a map. Open errors, blocked opens and database versions other than 1 are not modelled.
- Timers and asynchronous interleaving: the 2-second payment delay, the 5-second prompt removal, and overlapping loads or reloads. Each operation is one atomic step; in the paged feeds, a response is an event of its own.
- `Math.random()` in the payment outcome: it is a boolean input.
- Fullscreen, Picture-in-Picture, `navigator.mediaSession` registration and `visibilitychange` are platform APIs. Their answers are inputs, and the media-session handlers are modelled as actions on the audio element.
- AudioMode talks to a host player API (`el()`, `currentTime()`) that VideoPlayer.js does not define. It is modelled against an abstract host, not against the VideoPlayer model.
- src/components/player/video.service.js: server-side transcoding and upload with external tools.
- src/components/player/index.js: re-exports only. The quality selector, subtitle manager and danmaku modules it names are not part of this model, so subtitle switching and danmaku are not modelled.
- The navbar, bottom navigation, language menu, i18n and profile page: UI glue and mock data.
- Locale-dependent number formatting (`toFixed`, `toLocaleString`, view and like counts, price labels).
- `selectCoinPackage` and `selectVipPlan` read a global `event`. This bug is not modelled.
- Player.js: the next-episode prompt, the overlay of `checkVIPAccess`, `markAsWatched`, and the click handlers of the speed and quality menus (which only call the modelled commands).
- Player.js: the previous and next handlers compute `episodeId - 1` and `episodeId + 1`. When the id is a string, `+ 1` concatenates ("2" + 1 is "21"). This string arithmetic is not modelled.
- Router.HandleRoute: relative URLs are not modelled; a URL is same-origin and absolute, and a fragment is dropped before the path and search are read. Percent-encoding of the pathname and property names inherited by plain objects (`constructor`, `toString`) are not modelled either; paths and names are plain strings.
- `getParams` returns a copy of the params. With value semantics every read is a copy, so there is nothing separate to state.
- Payment.ToUpper: `toUpperCase` is modelled for ASCII letters and for the two non-ASCII characters that upper-case into ASCII letters (dotless i, long s). That is enough for the ASCII promo codes; other scripts are left unchanged.
- Download.ReceiveChunks: a missing or zero Content-Length gives a non-finite progress. The model records it as `NonFinite` rather than as JavaScript's NaN or Infinity.
- PlayerPage.QueryParam: a query string with malformed escapes is read as having no parameters. A browser would replace the bad bytes instead.
- WatchHistory.Tick: the throttle is modelled once for both pages. Two differences are not modelled: pages/player.js installs it only when logged in at start-up, and Player.js installs it always, with saving then skipped when logged out.
- Download.GetOfflineVideoFixed: a database the unfixed lookup already left without the store stays that way, and the fixed lookup still hangs on it. Repairing such a database needs a version bump, which is not modelled.
- VideoPlayer.Seek: times and durations are finite reals. `seek(NaN)` (the assignment throws), a live stream's infinite duration (no upper clamp) and a NaN duration are not modelled.
- AudioMode.SeekForward: times and durations are finite reals. Before metadata the audio's duration is NaN, so the source assigns NaN and throws; this is not modelled.
- AudioMode.SeekBackward: the position and offset are finite reals; NaN and infinite values are not modelled.
- VideoPlayer.FullscreenFollowsLastToggle: holds for the engine's own operations only. A host's `fullscreenchange` listener, as in components/player/Player.js (`PlayerComponent.OnFullscreenChange`), overwrites the flag, and the property says nothing about such a host.
- VideoPlayer.EscLeavesFullscreenFlag: the stale flag is the engine's alone. The routed page pages/player.js keeps it, while Player.js re-syncs it on the document's change event (`PlayerComponent.EscResyncsFullscreenFlag`).
- App.LoggedOutVisitEndsOnLogin: holds for visits made once app.js has installed its hooks. The first route at start-up runs unguarded (`App.StartUp`, see Findings).
- Payment.PromoDiscountLowers: prices are exact reals. payment.js computes `price * (1 - discount / 100)` in double precision, where the read-back clause fails: 9.99 at 10 % gives 8.991, which reads back as 9.989999999999998 rather than 9.99.
- Payment.ApplyDiscount: the discounted price is the exact real product; the rounding of double arithmetic is not modelled.
- Clock.FormatRoundTrip: the round trip is stated for non-negative times only. Negative times render with JavaScript's signed remainder, which the model computes but states no read-back for.

## Findings

| source | as written | input that shows it | evidently intended | confidence | as-written member | corrected member |
|---|---|---|---|---|---|---|
| src/scripts/pages/payment.js:664-671 | the 3-second timer reads `this.selectedPackage.type` after `resetPaymentForm` has set `selectedPackage` to null, so it throws | any successful payment for a VIP plan | after a VIP purchase, navigate to the profile's VIP tab, deciding on the package that was paid for | not executed; high | Payment.VipRedirectNeverFires | Payment.FixedTimerRedirectsVip |
| src/components/player/PlayerControls.js:168-174 | the audio-mode button decides on `player.state.isAudioMode`, which no code sets after the constructor's false | a host that provides `el()` and `currentTime()`, audio mode enabled by a first click, then a second click: it calls enable again. With VideoPlayer.js as the host, which defines neither, the first click's `enable` already throws and audio mode never comes on | the button toggles: it disables audio mode when it is on | not executed; high | Controls.AudioButtonNeverDisables | Controls.AudioToggleTwice |
| src/components/player/Player.js:60-62 | the episode is looked up with `===` against the query text, so episodes with numeric ids never match after a reload | episodes with ids 1 and 2, switching from 1 to 2: the reloaded page reads "2" and shows episode 1 | ids compared by their text, so the page shows the episode switched to | not executed; low, because the API's id type is not visible | PlayerComponent.NumericIdSwitchShowsFirst | PlayerComponent.FixedSwitchShowsTarget |
| src/components/player/Download.js:115-122 | `getOfflineVideo` opens `VideoDB` at version 1 with no `onupgradeneeded` handler, so a first open creates the database without the `videos` store; its `transaction` call then throws inside `onsuccess`, and every later save does the same | a lookup of any episode before the first download has been saved, then a download: the lookup never answers and the download never settles, leaving the queue busy for good | the lookup creates the store on a first open, as `saveToIndexedDB` does, and answers null | not executed; high | Download.LookupFirstStallsQueue | Download.FixedLookupKeepsQueueMoving |
| src/scripts/core/router.js:20-41 | the router's constructor routes the current URL while the module is imported, with `beforeEach` still null, and `loadPage` tests the hook before its first `await`; app.js installs the guard only afterwards | logged out, open `/profile` directly: the profile page loads | a direct start at an account page is guarded like any later visit and ends on `/login?redirect=profile` | not executed; high | App.LoggedOutStartLoadsAccountPage | App.FixedStartUpEndsOnLogin |

=== FILE: App.dfy ===
/** The application shell of app.js: the router's before-hook that sends
    logged-out visitors of the account pages to the login page, the after-hook's
    navigation highlight, and the choice of the interface language. */
module App {
  import opened Base
  import QueryString
  import Router
  import Auth

  /** The pages that need a logged-in user. */
  const AuthPages: seq<string> := ["profile", "payment"]

  datatype Verdict = Allow | RedirectToLogin(page: string)

  /** The before-hook: a logged-out visit to an account page is redirected to
      `/login` with `redirect` naming the page (and the load is vetoed); every
      other visit passes. */
  function Guard(page: string, loggedIn: bool): (v: Verdict)
    ensures v.RedirectToLogin? <==> page in AuthPages && !loggedIn
    ensures v.RedirectToLogin? ==> v.page == page
  {
    if page in AuthPages && !loggedIn then RedirectToLogin(page) else Allow
  }

  /** The parameters of the redirect: `{ redirect: page }`. */
  function RedirectParams(page: string): QueryString.Pairs {
    [("redirect", page)]
  }

  /** Routing the current location with the hooks installed: the before-hook
      either lets `loadPage` run, or navigates to the login page itself and
      vetoes the original load. */
  function Visit(r: Router.Router, loc: Router.Location, a: Auth.Auth, outcome: Router.LoadOutcome): (r': Router.Router)
    ensures var req := Router.HandleRoute(loc);
            Guard(req.page, Auth.IsLoggedIn(a)).Allow? ==> r' == Router.LoadPage(r.(location := loc), req, true, outcome)
  {
    var req := Router.HandleRoute(loc);
    var v := Guard(req.page, Auth.IsLoggedIn(a));
    if v.Allow? then Router.LoadPage(r.(location := loc), req, true, outcome)
    else RedirectLoad(r.(location := loc, params := req.params), v.page, a, outcome)
  }

  /** The nested `navigate('/login', { redirect: page })` the hook performs, and
      the load it triggers, which the hook judges in turn. */
  function RedirectLoad(r: Router.Router, page: string, a: Auth.Auth, outcome: Router.LoadOutcome): Router.Router {
    var nav := Router.Navigate(r, "/login", RedirectParams(page));
    Router.LoadPage(nav.0, nav.1, Guard(nav.1.page, Auth.IsLoggedIn(a)).Allow?, outcome)
  }

  /** Where the redirect lands: the login page, with the page to return to as
      the only parameter, both in the location and in the request. */
  lemma LoginRequest(page: string)
    ensures var loc := Router.LocationOf(Router.BuildUrl("/login", RedirectParams(page)));
            && loc.pathname == "/login"
            && QueryString.Parse(loc.search) == Some(RedirectParams(page))
            && Router.HandleRoute(loc) == Router.Request("login", "/login", [("redirect", page)])
  {
    var ps := RedirectParams(page);
    assert FreeOf("/login", '?') && FreeOf("/login", '#');
    Router.BuildUrlRoundTrip("/login", ps);
    assert Router.FromPairs(ps) == [("redirect", page)] by {
      assert ps[..0] == [];
    }
    assert "/login" in Router.Routes;
  }

  /** The login page passes the hook, so the nested load goes ahead. */
  lemma RedirectLoadsLogin(r: Router.Router, page: string, a: Auth.Auth, outcome: Router.LoadOutcome)
    ensures var nav := Router.Navigate(r, "/login", RedirectParams(page));
            RedirectLoad(r, page, a, outcome) == Router.LoadPage(nav.0, nav.1, true, outcome)
            && nav.1 == Router.Request("login", "/login", [("redirect", page)])
  {
    LoginRequest(page);
  }

  /** A logged-out visit to an account page ends on the login page: one history
      entry `/login?redirect=<page>` is pushed, the location and the params carry
      the page to return to, and the login page is what gets loaded. */
  lemma LoggedOutVisitEndsOnLogin(r: Router.Router, loc: Router.Location, a: Auth.Auth, outcome: Router.LoadOutcome)
    requires Router.HandleRoute(loc).page in AuthPages && !Auth.IsLoggedIn(a)
    ensures var page := Router.HandleRoute(loc).page;
            var r' := Visit(r, loc, a, outcome);
            && r'.location.pathname == "/login"
            && QueryString.Parse(r'.location.search) == Some(RedirectParams(page))
            && r'.history == r.history + [Router.BuildUrl("/login", RedirectParams(page))]
            && Router.Get(r'.params, "redirect") == Some(page)
            && (outcome == Router.Loaded ==> r'.currentPage == Some("login") && r'.title == Router.Title("login"))
  {
    var req := Router.HandleRoute(loc);
    var r0 := r.(location := loc, params := req.params);
    assert Visit(r, loc, a, outcome) == RedirectLoad(r0, req.page, a, outcome);
    RedirectLoadsLogin(r0, req.page, a, outcome);
    LoginRequest(req.page);
  }

  /** Pages outside the account pages, and every page for a logged-in user, load
      as requested. */
  lemma OthersPass(r: Router.Router, loc: Router.Location, a: Auth.Auth, outcome: Router.LoadOutcome)
    requires Router.HandleRoute(loc).page !in AuthPages || Auth.IsLoggedIn(a)
    ensures Visit(r, loc, a, outcome) == Router.LoadPage(r.(location := loc), Router.HandleRoute(loc), true, outcome)
  {
  }

  // ---------------------------------------------------------------------------
  // Start-up

  /** The first route, taken while router.js is still being imported: the
      router's constructor routes the current location before app.js installs
      its hooks, and `loadPage` reads `beforeEach` before its first `await`, so
      this load runs with no hook, whoever is logged in. */
  function StartUp(r: Router.Router, loc: Router.Location, outcome: Router.LoadOutcome): (r': Router.Router)
    ensures r'.location == loc && r'.history == r.history
    ensures r'.params == Router.HandleRoute(loc).params
    ensures outcome == Router.Loaded ==> r'.currentPage == Some(Router.HandleRoute(loc).page)
  {
    Router.LoadPage(r.(location := loc), Router.HandleRoute(loc), true, outcome)
  }

  /** `/profile` routes to the profile page. */
  lemma ProfileRoute()
    ensures Router.HandleRoute(Router.Location("/profile", "")).page == "profile"
  {
    QueryString.ParseNothing();
    assert "/profile" in Router.Routes;
  }

  /** As written, a logged-out user who opens an account page directly is shown
      that page: the guard that redirects every later visit is not installed yet.
      Opening `/profile` is one such start. */
  lemma LoggedOutStartLoadsAccountPage(r: Router.Router, loc: Router.Location, a: Auth.Auth)
    requires Router.HandleRoute(loc).page in AuthPages && !Auth.IsLoggedIn(a)
    ensures StartUp(r, loc, Router.Loaded).currentPage == Some(Router.HandleRoute(loc).page)
    ensures StartUp(r, loc, Router.Loaded).history == r.history
    ensures Visit(r, loc, a, Router.Loaded).currentPage == Some("login")
    ensures StartUp(r, Router.Location("/profile", ""), Router.Loaded).currentPage == Some("profile")
  {
    LoggedOutVisitEndsOnLogin(r, loc, a, Router.Loaded);
    ProfileRoute();
  }

  /** The start-up with the hooks in place before the first route (for instance
      by routing the current location once more after `setBeforeEach`): the
      first load is judged like every later one, and a page the hook lets
      through loads exactly as the unguarded start-up would load it. */
  function StartUpFixed(r: Router.Router, loc: Router.Location, a: Auth.Auth, outcome: Router.LoadOutcome): (r': Router.Router)
    ensures Guard(Router.HandleRoute(loc).page, Auth.IsLoggedIn(a)).Allow? ==> r' == StartUp(r, loc, outcome)
  {
    Visit(r, loc, a, outcome)
  }

  /** With the corrected start-up, a logged-out user who opens an account page
      directly ends on the login page, with the page to return to in the URL. */
  lemma FixedStartUpEndsOnLogin(r: Router.Router, loc: Router.Location, a: Auth.Auth, outcome: Router.LoadOutcome)
    requires Router.HandleRoute(loc).page in AuthPages && !Auth.IsLoggedIn(a)
    ensures StartUpFixed(r, loc, a, outcome).location.pathname == "/login"
    ensures QueryString.Parse(StartUpFixed(r, loc, a, outcome).location.search) == Some(RedirectParams(Router.HandleRoute(loc).page))
    ensures outcome == Router.Loaded ==> StartUpFixed(r, loc, a, outcome).currentPage == Some("login")
  {
    LoggedOutVisitEndsOnLogin(r, loc, a, outcome);
  }

  /** The after-hook's `updateActiveNav(page)`: every item for the page is marked. */
  function ActiveNavAll(items: seq<string>, page: string): (r: seq<bool>)
    ensures |r| == |items|
    ensures forall i :: 0 <= i < |r| ==> (r[i] <==> items[i] == page)
  {
    seq(|items|, i requires 0 <= i < |items| => items[i] == page)
  }

  /** After a load, the router's own highlight pass runs after the hook and marks
      only the first matching item; when the items name distinct pages the two
      passes agree. */
  lemma NavPassesAgree(items: seq<string>, page: string)
    requires forall i, j :: 0 <= i < j < |items| ==> items[i] != items[j]
    ensures Router.ActiveNav(items, Some(page)) == ActiveNavAll(items, page)
  {
  }

  const SupportedLanguages: seq<string> := ["en", "zh", "es", "ja"]

  /** `initI18n`: a saved language (if non-empty) wins; otherwise the primary
      subtag of the browser's language if supported; otherwise English. */
  function ChooseLanguage(saved: Option<string>, navigatorLanguage: string): (lang: string)
  {
    var browser := Split(navigatorLanguage, '-')[0];
    if saved.Some? && saved.value != [] then saved.value
    else if browser in SupportedLanguages then browser
    else "en"
  }

  /** Without a saved choice the language is always a supported one, and it is
      the browser's exactly when the browser's primary subtag is supported. */
  lemma LanguageSupported(saved: Option<string>, navigatorLanguage: string)
    requires saved.None? || saved.value == []
    ensures ChooseLanguage(saved, navigatorLanguage) in SupportedLanguages
    ensures var browser := Split(navigatorLanguage, '-')[0];
            (ChooseLanguage(saved, navigatorLanguage) == browser <==> browser in SupportedLanguages)
  {
  }

  lemma SavedLanguageWins(saved: string, navigatorLanguage: string)
    requires saved != []
    ensures ChooseLanguage(Some(saved), navigatorLanguage) == saved
  {
  }

  /** A region-qualified browser language picks its primary subtag. */
  lemma LanguageOfRegion(primary: string, region: string)
    requires primary in SupportedLanguages && FreeOf(primary, '-')
    ensures ChooseLanguage(None, primary + "-" + region) == primary
  {
    SplitPrefix(primary, '-', region);
  }
}

=== FILE: AudioMode.dfy ===
/** The audio-only mode of AudioMode.js: a two-state toggle that hands the
    playback position from the video to a separate audio element and back,
    mirrors the player's play/pause onto that element while active, and serves
    the media-session seek actions. The player it drives is an abstract host
    (`el()`, `currentTime()`, `pause()`, `on()`), not the VideoPlayer engine. */
module AudioMode {
  import opened Base

  /** A `<source>` child: its `src` and `type`. */
  datatype SourceTag = SourceTag(src: string, mimeType: string)

  /** The host player as audio mode sees it. `hidden` stands for the video's
      `opacity: 0; position: absolute` styling; `mirrors` counts the `play` and
      `pause` handlers registered on it, two per `enable`. */
  datatype Host = Host(currentTime: real, paused: bool, sources: seq<SourceTag>, hidden: bool, mirrors: nat)

  /** The `new Audio()` element built by `enable`. */
  datatype Audio = Audio(sources: seq<SourceTag>, currentTime: real, paused: bool)

  datatype Mode = Mode(isActive: bool, audio: Option<Audio>)

  const Inactive: Mode := Mode(false, None)

  /** Active exactly when an audio element is held. */
  ghost predicate Valid(m: Mode) { m.isActive <==> m.audio.Some? }

  /** `enable()`: a no-op when active. Otherwise the audio element copies the
      video's sources in order, starts at the player's position and plays; the
      video is hidden and paused, and another play/pause mirroring pair is
      registered on the player. */
  function Enable(m: Mode, h: Host): (r: (Mode, Host))
    ensures m.isActive ==> r == (m, h)
    ensures !m.isActive ==>
              && r.0.isActive
              && r.0.audio == Some(Audio(h.sources, h.currentTime, false))
              && r.1 == h.(paused := true, hidden := true, mirrors := h.mirrors + 2)
  {
    if m.isActive then (m, h)
    else (Mode(true, Some(Audio(h.sources, h.currentTime, false))),
          h.(paused := true, hidden := true, mirrors := h.mirrors + 2))
  }

  /** `disable()`: a no-op when inactive. Otherwise the video is shown again, the
      player takes over the audio element's position, the element is paused and
      dropped. The video is not resumed. */
  function Disable(m: Mode, h: Host): (r: (Mode, Host))
    ensures !m.isActive ==> r == (m, h)
    ensures m.isActive ==> r.0 == Inactive && !r.1.hidden && r.1.paused == h.paused
    ensures m.isActive && m.audio.Some? ==> r.1.currentTime == m.audio.value.currentTime
    ensures m.isActive && m.audio.None? ==> r.1.currentTime == h.currentTime
    ensures r.1.mirrors == h.mirrors && r.1.sources == h.sources
  {
    if !m.isActive then (m, h)
    else
      var t := if m.audio.Some? then m.audio.value.currentTime else h.currentTime;
      (Inactive, h.(hidden := false, currentTime := t))
  }

  lemma EnableKeepsValid(m: Mode, h: Host)
    requires Valid(m)
    ensures Valid(Enable(m, h).0)
  {
  }

  lemma DisableKeepsValid(m: Mode, h: Host)
    requires Valid(m)
    ensures Valid(Disable(m, h).0) && Disable(m, h).0.audio.None?
  {
  }

  /** Enabling twice is enabling once; so is disabling. */
  lemma EnableIdempotent(m: Mode, h: Host)
    ensures var (m1, h1) := Enable(m, h); Enable(m1, h1) == (m1, h1)
  {
  }

  lemma DisableIdempotent(m: Mode, h: Host)
    ensures var (m1, h1) := Disable(m, h); Disable(m1, h1) == (m1, h1)
  {
  }

  /** The audio element playing on for `dt` seconds. */
  function Elapse(m: Mode, dt: real): (r: Mode)
    requires dt >= 0.0
    ensures r.isActive == m.isActive
    ensures m.audio.Some? && !m.audio.value.paused ==>
              r.audio == Some(m.audio.value.(currentTime := m.audio.value.currentTime + dt))
  {
    match m.audio
    case Some(a) => if a.paused then m else m.(audio := Some(a.(currentTime := a.currentTime + dt)))
    case None => m
  }

  /** `enable()` followed by the host's answer to its `pause()` call. A host that
      was playing fires `pause` from a queued task, after `enable` has registered
      its mirrors, so the mirrored `pause` handler stops the audio it just
      started; a paused host fires nothing. */
  function EnableAndSettle(m: Mode, h: Host): (r: (Mode, Host))
    ensures r.1 == Enable(m, h).1 && r.0.isActive
    ensures !m.isActive && !h.paused ==>
              r.0.audio == Some(Audio(h.sources, h.currentTime, true))
    ensures m.isActive || h.paused ==> r == Enable(m, h)
  {
    var (m1, h1) := Enable(m, h);
    if !m.isActive && !h.paused then (OnPlayerPause(m1, h1), h1) else (m1, h1)
  }

  /** Position hand-off both ways: enabling, letting `dt` seconds pass and
      disabling leaves the player shown, paused, and as far past its old position
      as the audio played: `dt` seconds when the player was paused, none when it
      was playing, since its own `pause` event stopped the audio. */
  lemma HandOffRoundTrip(h: Host, dt: real)
    requires dt >= 0.0
    ensures var (m1, h1) := EnableAndSettle(Inactive, h);
            var (m2, h2) := Disable(Elapse(m1, dt), h1);
            && m2 == Inactive && !h2.hidden && h2.paused
            && h2.currentTime == h.currentTime + (if h.paused then dt else 0.0)
  {
  }

  // ---------------------------------------------------------------------------
  // Mirroring and the media session

  /** The mirrored `play` handlers: they reach the audio element only while active. */
  function OnPlayerPlay(m: Mode, h: Host): (r: Mode)
    ensures !m.isActive || h.mirrors == 0 ==> r == m
    ensures m.isActive && h.mirrors > 0 && m.audio.Some? ==> r.audio == Some(m.audio.value.(paused := false))
    ensures r.isActive == m.isActive
  {
    if m.isActive && h.mirrors > 0 && m.audio.Some? then m.(audio := Some(m.audio.value.(paused := false))) else m
  }

  /** The mirrored `pause` handlers, likewise guarded. */
  function OnPlayerPause(m: Mode, h: Host): (r: Mode)
    ensures !m.isActive || h.mirrors == 0 ==> r == m
    ensures m.isActive && h.mirrors > 0 && m.audio.Some? ==> r.audio == Some(m.audio.value.(paused := true))
    ensures r.isActive == m.isActive
  {
    if m.isActive && h.mirrors > 0 && m.audio.Some? then m.(audio := Some(m.audio.value.(paused := true))) else m
  }

  /** After `disable`, the handlers left registered on the player do nothing. */
  lemma MirrorsIdleAfterDisable(m: Mode, h: Host)
    ensures var (m1, h1) := Disable(m, h);
            !m1.isActive ==> OnPlayerPlay(m1, h1) == m1 && OnPlayerPause(m1, h1) == m1
  {
  }

  /** `details.seekOffset || 10`: an absent or zero offset means 10 seconds. */
  function EffectiveOffset(offset: Option<real>): (o: real)
    ensures offset.None? || offset.value == 0.0 ==> o == 10.0
    ensures offset.Some? && offset.value != 0.0 ==> o == offset.value
  {
    if offset.None? || offset.value == 0.0 then 10.0 else offset.value
  }

  /** The `seekbackward` target: never below 0. */
  function SeekBackward(t: real, offset: Option<real>): (r: real)
    ensures r >= 0.0
    ensures t - EffectiveOffset(offset) >= 0.0 ==> r == t - EffectiveOffset(offset)
    ensures t - EffectiveOffset(offset) < 0.0 ==> r == 0.0
  {
    Max(t - EffectiveOffset(offset), 0.0)
  }

  /** The `seekforward` target: never past the element's duration. */
  function SeekForward(t: real, offset: Option<real>, duration: real): (r: real)
    ensures r <= duration
    ensures t + EffectiveOffset(offset) <= duration ==> r == t + EffectiveOffset(offset)
    ensures t + EffectiveOffset(offset) > duration ==> r == duration
  {
    Min(t + EffectiveOffset(offset), duration)
  }

  /** Back then forward by the same offset returns to the start whenever neither
      bound was hit, and forward then back likewise. */
  lemma SeekBackThenForward(t: real, offset: Option<real>, duration: real)
    requires EffectiveOffset(offset) <= t <= duration
    ensures SeekForward(SeekBackward(t, offset), offset, duration) == t
  {
  }

  lemma SeekForwardThenBack(t: real, offset: Option<real>, duration: real)
    requires EffectiveOffset(offset) >= 0.0 && 0.0 <= t && t + EffectiveOffset(offset) <= duration
    ensures SeekBackward(SeekForward(t, offset, duration), offset) == t
  {
  }

  /** The media-session action handlers. */
  datatype Action = PlayAction | PauseAction | SeekBackwardAction(offset: Option<real>)
                  | SeekForwardAction(offset: Option<real>, duration: real)

  /** One media-session action. The handlers read `this.audioElement` without a
      guard, so once audio mode has been disabled every action throws (None). */
  function MediaSessionAction(m: Mode, a: Action): (r: Option<Mode>)
    ensures m.audio.None? <==> r.None?
    ensures r.Some? ==> r.value.isActive == m.isActive && r.value.audio.Some?
    ensures r.Some? ==> r.value.audio.value.sources == m.audio.value.sources
  {
    match m.audio
    case None => None
    case Some(el) =>
      var el' := match a
        case PlayAction => el.(paused := false)
        case PauseAction => el.(paused := true)
        case SeekBackwardAction(o) => el.(currentTime := SeekBackward(el.currentTime, o))
        case SeekForwardAction(o, d) => el.(currentTime := SeekForward(el.currentTime, o, d));
      Some(m.(audio := Some(el')))
  }
}

=== FILE: Auth.dfy ===
/** The token holder of auth.js. The browser's storage is a field: the
    `token` entry it keeps. */
module Auth {
  import opened Base

  datatype User = User(isVip: bool)

  datatype Auth = Auth(token: Option<string>, user: Option<User>, stored: Option<string>)

  /** The constructor: the token is read from storage, and there is no user. */
  function FromStorage(stored: Option<string>): (a: Auth)
    ensures a.token == stored && a.user.None? && a.stored == stored
  {
    Auth(stored, None, stored)
  }

  /** `isLoggedIn()`: `!!this.token`, so an empty token does not count. */
  function IsLoggedIn(a: Auth): bool {
    a.token.Some? && a.token.value != []
  }

  /** `isVIP()`: `this.user?.isVip || false`. */
  function IsVIP(a: Auth): bool {
    a.user.Some? && a.user.value.isVip
  }

  /** `setToken(token)`: kept in memory and in storage. */
  function SetToken(a: Auth, token: string): (r: Auth)
    ensures r.token == Some(token) && r.stored == Some(token) && r.user == a.user
  {
    a.(token := Some(token), stored := Some(token))
  }

  /** `logout()`: forgets the token and the user, here and in storage. */
  function Logout(a: Auth): (r: Auth)
    ensures r.token.None? && r.user.None? && r.stored.None?
  {
    Auth(None, None, None)
  }

  /** A non-empty token logs in; the empty token does not. */
  lemma SetTokenLogsIn(a: Auth, token: string)
    ensures IsLoggedIn(SetToken(a, token)) <==> token != []
    ensures IsVIP(SetToken(a, token)) == IsVIP(a)
  {
  }

  lemma LogoutClears(a: Auth)
    ensures !IsLoggedIn(Logout(a)) && !IsVIP(Logout(a))
  {
  }

  /** A session restored from storage is logged in exactly when storage held a
      non-empty token, and the `initAuth` re-store of that token changes nothing. */
  lemma RestoredSession(stored: Option<string>)
    ensures IsLoggedIn(FromStorage(stored)) <==> stored.Some? && stored.value != []
    ensures stored.Some? && stored.value != [] ==> SetToken(FromStorage(stored), stored.value) == FromStorage(stored)
  {
  }

  datatype Op = SetTokenOp(token: string) | LogoutOp

  function Exec(a: Auth, ops: seq<Op>): Auth
    decreases |ops|
  {
    if ops == [] then a
    else
      var a' := match ops[0] case SetTokenOp(t) => SetToken(a, t) case LogoutOp => Logout(a);
      Exec(a', ops[1..])
  }

  /** Nothing in the module ever sets a user, so a session built from storage is
      never VIP, whatever tokens come and go. */
  lemma {:induction false} NeverVIP(a: Auth, ops: seq<Op>)
    requires a.user.None?
    ensures !IsVIP(Exec(a, ops)) && Exec(a, ops).user.None?
    decreases |ops|
  {
    if ops != [] {
      var a' := match ops[0] case SetTokenOp(t) => SetToken(a, t) case LogoutOp => Logout(a);
      NeverVIP(a', ops[1..]);
    }
  }

  /** The session is logged in after a run of operations exactly when the last
      one set a non-empty token (or, with none, when it started so). */
  lemma {:induction false} LoggedInFollowsLastOp(a: Auth, ops: seq<Op>)
    ensures IsLoggedIn(Exec(a, ops)) <==>
              if ops == [] then IsLoggedIn(a)
              else ops[|ops| - 1].SetTokenOp? && ops[|ops| - 1].token != []
    decreases |ops|
  {
    if ops != [] {
      var a' := match ops[0] case SetTokenOp(t) => SetToken(a, t) case LogoutOp => Logout(a);
      LoggedInFollowsLastOp(a', ops[1..]);
      if |ops| > 1 {
        assert ops[1..][|ops[1..]| - 1] == ops[|ops| - 1];
      }
    }
  }
}

=== FILE: Base.dfy ===
/** Shared vocabulary of the model: optional values, JavaScript numbers, and the
    handful of string operations (trim, digit filtering, decimal printing and
    parsing, padding, first-occurrence replace, split) that the scripts use. */
module Base {

  datatype Option<+T> = None | Some(value: T)

  /** A JavaScript number as the scripts see it: finite, NaN, or an infinity. */
  datatype Number = Finite(r: real) | NaN | Infinity(positive: bool)

  /** The value of `part / whole * 100` in JavaScript: finite unless `whole` is 0,
      where JavaScript yields Infinity or NaN. */
  datatype Ratio = Pct(value: real) | NonFinite

  function Percent(part: real, whole: real): (p: Ratio)
    ensures whole != 0.0 <==> p.Pct?
    ensures p.Pct? ==> p.value * whole == part * 100.0
  {
    if whole == 0.0 then NonFinite else Pct(part / whole * 100.0)
  }

  function Max(a: real, b: real): real { if a >= b then a else b }
  function Min(a: real, b: real): real { if a <= b then a else b }

  /** `Math.max(lo, Math.min(x, hi))`, the clamp the player uses everywhere. */
  function Clamp(x: real, lo: real, hi: real): (r: real)
    requires lo <= hi
    ensures lo <= r <= hi
    ensures lo <= x <= hi ==> r == x
    ensures x < lo ==> r == lo
    ensures x > hi ==> r == hi
  {
    Max(lo, Min(x, hi))
  }

  // ---------------------------------------------------------------------------
  // Property lookup on object literals

  /** The names every object literal inherits from `Object.prototype`: `obj[name]`
      finds a function (or, for `__proto__`, the prototype object) there whenever
      `obj` has no own property of that name. */
  const InheritedNames: set<string> := {
    "constructor", "toString", "toLocaleString", "valueOf", "hasOwnProperty",
    "isPrototypeOf", "propertyIsEnumerable", "__proto__", "__defineGetter__",
    "__defineSetter__", "__lookupGetter__", "__lookupSetter__"}

  /** What `table[key] || fallback` yields on an object literal of strings: a
      string, or the inherited member of that name (an object, hence truthy). */
  datatype PropValue = Text(s: string) | InheritedMember(name: string)

  /** `table[key] || fallback`: a non-empty own string, else an inherited member,
      else the fallback. */
  function LookupOr(table: map<string, string>, key: string, fallback: string): (r: PropValue)
    ensures key in table && table[key] != [] ==> r == Text(table[key])
    ensures key !in table && key in InheritedNames ==> r == InheritedMember(key)
    ensures r.InheritedMember? ==> key in InheritedNames
    ensures key !in InheritedNames && (key !in table || table[key] == []) ==> r == Text(fallback)
  {
    if key in table && table[key] != [] then Text(table[key])
    else if key !in table && key in InheritedNames then InheritedMember(key)
    else Text(fallback)
  }

  // ---------------------------------------------------------------------------
  // Characters

  /** JavaScript's WhiteSpace and LineTerminator code points: what `trim()`
      strips and what the regular-expression class `\s` matches. */
  predicate IsSpace(c: char) {
    || c == '\t' || c == '\n' || c == '\U{000B}' || c == '\U{000C}' || c == '\r' || c == ' '
    || c == '\U{00A0}' || c == '\U{1680}' || ('\U{2000}' <= c <= '\U{200A}')
    || c == '\U{2028}' || c == '\U{2029}' || c == '\U{202F}' || c == '\U{205F}'
    || c == '\U{3000}' || c == '\U{FEFF}'
  }

  /** The regular-expression class `\d`: ASCII digits only. */
  predicate IsDigit(c: char) { '0' <= c <= '9' }

  predicate AllDigits(s: string) { forall i :: 0 <= i < |s| ==> IsDigit(s[i]) }

  function DigitChar(d: nat): (c: char)
    requires d < 10
    ensures IsDigit(c)
  {
    (d + '0' as int) as char
  }

  function DigitValue(c: char): (d: nat)
    requires IsDigit(c)
    ensures d < 10
    ensures DigitChar(d) == c
  {
    c as int - '0' as int
  }

  // ---------------------------------------------------------------------------
  // Trimming and filtering

  /** `s.trimStart()`: the suffix of `s` left after its leading white space. */
  function TrimStart(s: string): (r: string)
    ensures |r| <= |s| && r == s[|s| - |r|..]
    ensures forall i :: 0 <= i < |s| - |r| ==> IsSpace(s[i])
    ensures r == [] || !IsSpace(r[0])
  {
    if s == [] || !IsSpace(s[0]) then s else TrimStart(s[1..])
  }

  /** `s.trimEnd()`: the prefix of `s` left after its trailing white space. */
  function TrimEnd(s: string): (r: string)
    ensures |r| <= |s| && r == s[..|r|]
    ensures forall i :: |r| <= i < |s| ==> IsSpace(s[i])
    ensures r == [] || !IsSpace(r[|r| - 1])
  {
    if s == [] || !IsSpace(s[|s| - 1]) then s else TrimEnd(s[..|s| - 1])
  }

  /** `s.trim()`. */
  function Trim(s: string): string {
    TrimEnd(TrimStart(s))
  }

  /** `s.replace(/\D/g, '')`: the digits of `s`, in order. */
  function DigitsOf(s: string): (r: string)
    ensures AllDigits(r)
    ensures |r| <= |s|
    ensures AllDigits(s) ==> r == s
  {
    if s == [] then []
    else if IsDigit(s[0]) then [s[0]] + DigitsOf(s[1..])
    else DigitsOf(s[1..])
  }

  predicate AllSpace(s: string) { forall i :: 0 <= i < |s| ==> IsSpace(s[i]) }

  /** Trimming removes exactly the white-space padding around a string that
      neither starts nor ends with white space. */
  lemma TrimPadded(before: string, s: string, after: string)
    requires AllSpace(before) && AllSpace(after)
    requires s == [] || (!IsSpace(s[0]) && !IsSpace(s[|s| - 1]))
    requires s != [] || after == []
    ensures Trim(before + (s + after)) == s
  {
    var t := s + after;
    assert t == [] || t[0] == s[0];
    TrimStartPadded(before, t);
    TrimEndPadded(s, after);
    TrimOfParts(before + t, t, s);
  }

  lemma TrimOfParts(x: string, t: string, s: string)
    requires TrimStart(x) == t && TrimEnd(t) == s
    ensures Trim(x) == s
  {
  }

  lemma {:induction false} TrimStartPadded(before: string, t: string)
    requires AllSpace(before) && (t == [] || !IsSpace(t[0]))
    ensures TrimStart(before + t) == t
    decreases |before|
  {
    if before != [] {
      assert (before + t)[1..] == before[1..] + t;
      TrimStartPadded(before[1..], t);
    }
  }

  lemma {:induction false} TrimEndPadded(s: string, after: string)
    requires AllSpace(after) && (s == [] || !IsSpace(s[|s| - 1]))
    requires s != [] || after == []
    ensures TrimEnd(s + after) == s
    decreases |after|
  {
    if after != [] {
      assert (s + after)[..|s + after| - 1] == s + after[..|after| - 1];
      TrimEndPadded(s, after[..|after| - 1]);
    }
  }

  /** Dropping non-digits distributes over concatenation. */
  lemma {:induction false} DigitsOfAppend(a: string, b: string)
    ensures DigitsOf(a + b) == DigitsOf(a) + DigitsOf(b)
    decreases |a|
  {
    if a != [] {
      assert (a + b)[0] == a[0] && (a + b)[1..] == a[1..] + b;
      DigitsOfAppend(a[1..], b);
      if IsDigit(a[0]) {
        assert DigitsOf(a + b) == [a[0]] + (DigitsOf(a[1..]) + DigitsOf(b));
        assert DigitsOf(a) == [a[0]] + DigitsOf(a[1..]);
      } else {
        assert DigitsOf(a + b) == DigitsOf(a[1..]) + DigitsOf(b);
      }
    } else {
      assert a + b == b;
    }
  }

  /** `s.substring(0, n)`: at most the first `n` characters. */
  function Take<T>(s: seq<T>, n: nat): (r: seq<T>)
    ensures |r| == if |s| <= n then |s| else n
    ensures r == s[..|r|]
  {
    if |s| <= n then s else s[..n]
  }

  /** `s.replace(/\s/g, '')`: `s` without any white space. */
  function WithoutSpaces(s: string): (r: string)
    ensures |r| <= |s|
    ensures forall i :: 0 <= i < |r| ==> !IsSpace(r[i])
  {
    if s == [] then []
    else if IsSpace(s[0]) then WithoutSpaces(s[1..])
    else [s[0]] + WithoutSpaces(s[1..])
  }

  // ---------------------------------------------------------------------------
  // Decimal printing and parsing

  /** `n.toString()` for a non-negative integer. */
  function NatToString(n: nat): (s: string)
    ensures |s| >= 1 && AllDigits(s)
    ensures n < 10 <==> |s| == 1
    ensures n < 100 ==> |s| <= 2
    ensures |s| > 1 ==> s[0] != '0'
  {
    if n < 10 then [DigitChar(n)] else NatToString(n / 10) + [DigitChar(n % 10)]
  }

  /** `i.toString()` for any integer. */
  function IntToString(i: int): string {
    if i < 0 then "-" + NatToString(-i) else NatToString(i)
  }

  /** The value of a string of decimal digits (0 for the empty string). */
  function ParseNat(s: string): nat
    requires AllDigits(s)
  {
    if s == [] then 0 else ParseNat(s[..|s| - 1]) * 10 + DigitValue(s[|s| - 1])
  }

  lemma {:induction false} ParseNatToString(n: nat)
    ensures ParseNat(NatToString(n)) == n
  {
    if n >= 10 {
      var s := NatToString(n);
      assert s[..|s| - 1] == NatToString(n / 10);
      ParseNatToString(n / 10);
    }
  }

  /** `s.padStart(2, '0')`. */
  function PadStart2(s: string): (r: string)
    ensures |s| >= 2 ==> r == s
    ensures |s| < 2 ==> |r| == 2 && r[2 - |s|..] == s
    ensures forall i :: 0 <= i < |r| - |s| ==> r[i] == '0'
  {
    if |s| >= 2 then s else if |s| == 1 then "0" + s else "00"
  }

  /** Two-digit rendering of a value below 100, as `padStart(2, '0')` gives it. */
  lemma PaddedTwoDigits(n: nat)
    requires n < 100
    ensures |PadStart2(NatToString(n))| == 2
    ensures AllDigits(PadStart2(NatToString(n)))
    ensures ParseNat(PadStart2(NatToString(n))) == n
  {
    var s := NatToString(n);
    ParseNatToString(n);
    if |s| == 1 {
      var p := PadStart2(s);
      assert p == "0" + s;
      assert p[..1] == "0";
      assert ParseNat(p[..1]) == 0 by { assert p[..1][..0] == []; }
    }
  }

  // ---------------------------------------------------------------------------
  // JavaScript `parseInt(s)` with no radix

  predicate IsHexDigit(c: char) {
    IsDigit(c) || ('a' <= c <= 'f') || ('A' <= c <= 'F')
  }

  function HexValue(c: char): (d: nat)
    requires IsHexDigit(c)
    ensures d < 16
  {
    if IsDigit(c) then DigitValue(c)
    else if 'a' <= c <= 'f' then c as int - 'a' as int + 10
    else c as int - 'A' as int + 10
  }

  /** Length of the longest prefix of `s` made of digits of the given radix. */
  function DigitRun(s: string, hex: bool): (k: nat)
    ensures k <= |s|
    ensures forall i :: 0 <= i < k ==> (if hex then IsHexDigit(s[i]) else IsDigit(s[i]))
    ensures k < |s| ==> !(if hex then IsHexDigit(s[k]) else IsDigit(s[k]))
  {
    if s == [] || !(if hex then IsHexDigit(s[0]) else IsDigit(s[0])) then 0
    else 1 + DigitRun(s[1..], hex)
  }

  function ValueIn(s: string, hex: bool): nat
    requires forall i :: 0 <= i < |s| ==> (if hex then IsHexDigit(s[i]) else IsDigit(s[i]))
  {
    if s == [] then 0
    else ValueIn(s[..|s| - 1], hex) * (if hex then 16 else 10)
         + (if hex then HexValue(s[|s| - 1]) else DigitValue(s[|s| - 1]))
  }

  lemma DecimalValueIsParseNat(s: string)
    requires AllDigits(s)
    ensures ValueIn(s, false) == ParseNat(s)
  {
  }

  /** The digits after the sign: radix 16 after `0x`/`0X`, else radix 10;
      `None` when no digit of the radix follows. */
  function ParseUnsigned(u: string): (r: Option<nat>)
    ensures r.Some? ==> exists i :: 0 <= i < |u| && IsHexDigit(u[i])
  {
    var hex := |u| >= 2 && u[0] == '0' && (u[1] == 'x' || u[1] == 'X');
    var body := if hex then u[2..] else u;
    var k := DigitRun(body, hex);
    if k == 0 then None
    else
      assert IsHexDigit(body[0]);
      assert u[|u| - |body|] == body[0];
      Some(ValueIn(body[..k], hex))
  }

  /** `parseInt(s)`: skips leading white space, reads an optional sign, switches to
      radix 16 after `0x`/`0X`, and reads the longest run of digits; `None` stands
      for NaN (no digit at all). */
  function ParseInt(s: string): (r: Option<int>)
    ensures r.Some? ==> exists i :: 0 <= i < |s| && IsHexDigit(s[i])
  {
    var t := TrimStart(s);
    var signed := |t| > 0 && (t[0] == '-' || t[0] == '+');
    var u := if signed then t[1..] else t;
    match ParseUnsigned(u)
    case None => None
    case Some(v) =>
      var i :| 0 <= i < |u| && IsHexDigit(u[i]);
      assert s[|s| - |u| + i] == u[i];
      var w: int := v;
      Some(if signed && t[0] == '-' then -w else w)
  }

  lemma {:induction false} ParseUnsignedDigits(digits: string)
    requires AllDigits(digits) && |digits| >= 1
    requires |digits| > 1 ==> digits[0] != '0'
    ensures ParseUnsigned(digits) == Some(ParseNat(digits))
  {
    AllDigitsRun(digits);
    assert digits[..|digits|] == digits;
    DecimalValueIsParseNat(digits);
  }

  /** `parseInt` reads back what `toString` prints. */
  lemma {:induction false} ParseIntOfIntToString(n: int)
    ensures ParseInt(IntToString(n)) == Some(n)
  {
    var m: nat := if n < 0 then -n else n;
    var digits := NatToString(m);
    ParseNatToString(m);
    ParseUnsignedDigits(digits);
    if n < 0 {
      ParseIntNegative(digits);
    } else {
      ParseIntPlain(digits);
    }
  }

  lemma ParseIntNegative(digits: string)
    requires |digits| >= 1 && AllDigits(digits)
    ensures ParseInt("-" + digits) == match ParseUnsigned(digits)
                                     case None => None
                                     case Some(v) => Some(0 - v as int)
  {
    var s := "-" + digits;
    assert TrimStart(s) == s;
    assert s[1..] == digits;
  }

  lemma ParseIntPlain(digits: string)
    requires |digits| >= 1 && AllDigits(digits)
    ensures ParseInt(digits) == match ParseUnsigned(digits)
                                case None => None
                                case Some(v) => Some(v as int)
  {
    assert !IsSpace(digits[0]);
    assert TrimStart(digits) == digits;
  }

  lemma AllDigitsRun(s: string)
    requires AllDigits(s)
    ensures DigitRun(s, false) == |s|
  {
    if s != [] {
      AllDigitsRun(s[1..]);
    }
  }

  // ---------------------------------------------------------------------------
  // Searching, replacing, splitting

  predicate StartsWith(s: string, p: string) {
    |p| <= |s| && s[..|p|] == p
  }

  predicate OccursAt(s: string, p: string, j: nat) {
    j + |p| <= |s| && s[j..j + |p|] == p
  }

  /** `s.indexOf(p, from)` for `from <= |s|`: the first occurrence at or after `from`. */
  function IndexOf(s: string, p: string, from: nat): (r: Option<nat>)
    requires from <= |s|
    ensures r.Some? ==> from <= r.value && OccursAt(s, p, r.value)
    ensures r.Some? ==> forall j :: from <= j < r.value ==> !OccursAt(s, p, j)
    ensures r.None? ==> forall j :: from <= j <= |s| ==> !OccursAt(s, p, j)
    decreases |s| - from
  {
    if OccursAt(s, p, from) then Some(from)
    else if from == |s| then None
    else IndexOf(s, p, from + 1)
  }

  /** `s.replace(p, q)` with a string pattern and a replacement free of `$`:
      only the first occurrence is replaced; without one, `s` is returned as is. */
  function ReplaceFirst(s: string, p: string, q: string): (r: string)
    ensures IndexOf(s, p, 0).None? ==> r == s
    ensures IndexOf(s, p, 0).Some? ==>
      var j := IndexOf(s, p, 0).value; r == s[..j] + q + s[j + |p|..]
  {
    match IndexOf(s, p, 0)
    case None => s
    case Some(j) => s[..j] + q + s[j + |p|..]
  }

  /** `s.split(sep)` for a one-character separator: always at least one piece. */
  function Split(s: string, sep: char): (pieces: seq<string>)
    ensures |pieces| >= 1
    ensures forall i, k :: 0 <= i < |pieces| && 0 <= k < |pieces[i]| ==> pieces[i][k] != sep
  {
    if s == [] then [[]]
    else
      var rest := Split(s[1..], sep);
      if s[0] == sep then [[]] + rest else [[s[0]] + rest[0]] + rest[1..]
  }

  /** `pieces.join(sep)`. */
  function Join(pieces: seq<string>, sep: char): string {
    if pieces == [] then []
    else if |pieces| == 1 then pieces[0]
    else pieces[0] + [sep] + Join(pieces[1..], sep)
  }

  /** A join starts with its first piece. */
  lemma JoinStarts(pieces: seq<string>, sep: char)
    requires |pieces| >= 1
    ensures |pieces[0]| <= |Join(pieces, sep)|
    ensures Join(pieces, sep)[..|pieces[0]|] == pieces[0]
  {
    if |pieces| > 1 {
      assert Join(pieces, sep) == pieces[0] + ([sep] + Join(pieces[1..], sep));
    }
  }

  predicate FreeOf(s: string, c: char) { forall k :: 0 <= k < |s| ==> s[k] != c }

  /** A join of pieces free of `c` with a separator other than `c` is free of `c`. */
  lemma {:induction false} JoinFreeOf(pieces: seq<string>, sep: char, c: char)
    requires sep != c
    requires forall i :: 0 <= i < |pieces| ==> FreeOf(pieces[i], c)
    ensures FreeOf(Join(pieces, sep), c)
  {
    if |pieces| > 1 {
      JoinFreeOf(pieces[1..], sep, c);
      var rest := Join(pieces[1..], sep);
      assert Join(pieces, sep) == pieces[0] + [sep] + rest;
      assert forall k :: 0 <= k < |pieces[0]| ==> (pieces[0] + [sep] + rest)[k] == pieces[0][k];
      assert forall k :: 0 <= k < |rest| ==> (pieces[0] + [sep] + rest)[|pieces[0]| + 1 + k] == rest[k];
    }
  }

  /** Splitting undoes joining when no piece contains the separator. */
  lemma {:induction false} SplitJoin(pieces: seq<string>, sep: char)
    requires |pieces| >= 1
    requires forall i :: 0 <= i < |pieces| ==> FreeOf(pieces[i], sep)
    ensures Split(Join(pieces, sep), sep) == pieces
  {
    if |pieces| == 1 {
      SplitFree(pieces[0], sep);
    } else {
      SplitJoin(pieces[1..], sep);
      SplitPrefix(pieces[0], sep, Join(pieces[1..], sep));
    }
  }

  lemma {:induction false} SplitFree(s: string, sep: char)
    requires FreeOf(s, sep)
    ensures Split(s, sep) == [s]
  {
    if s != [] {
      SplitFree(s[1..], sep);
      assert [s[0]] + s[1..] == s;
    }
  }

  lemma {:induction false} SplitPrefix(a: string, sep: char, b: string)
    requires FreeOf(a, sep)
    ensures Split(a + [sep] + b, sep) == [a] + Split(b, sep)
  {
    if a == [] {
      assert (a + [sep] + b)[1..] == b;
    } else {
      assert (a + [sep] + b)[0] == a[0];
      assert (a + [sep] + b)[1..] == a[1..] + [sep] + b;
      SplitPrefix(a[1..], sep, b);
      assert [a[0]] + a[1..] == a;
    }
  }
}

=== FILE: Clock.dfy ===
/** The clock rendering shared by the three time formatters of the player
    (PlayerControls.formatTime and the two `formatDuration`s): split a number of
    seconds into hours, minutes and seconds with JavaScript's `Math.floor` and
    `%`, and print `h:mm:ss` or `m:ss`. Also a reader for such strings, the
    partner the round-trip lemmas use. */
module Clock {
  import opened Base

  /** Truncation toward zero. */
  function Trunc(x: real): int {
    if x >= 0.0 then x.Floor else -((-x).Floor)
  }

  /** JavaScript's `a % b` on numbers: the remainder takes the sign of `a`. */
  function Rem(a: real, b: real): real
    requires b > 0.0
  {
    a - b * Trunc(a / b) as real
  }

  /** For a non-negative dividend the remainder lies in `[0, b)` and is what is
      left after taking out `floor(a / b)` whole multiples of `b`. */
  lemma RemNonNegative(a: real, b: real)
    requires a >= 0.0 && b > 0.0
    ensures 0.0 <= Rem(a, b) < b
    ensures Rem(a, b) == a - b * (a / b).Floor as real
  {
    ScaledFloor(a, b);
  }

  lemma ScaledFloor(a: real, b: real)
    requires a >= 0.0 && b > 0.0
    ensures b * (a / b).Floor as real <= a < b * (a / b).Floor as real + b
  {
    var q := a / b;
    BetweenMultiples(a, b, q, q.Floor as real);
  }

  lemma BetweenMultiples(a: real, b: real, q: real, f: real)
    requires b > 0.0 && b * q == a && f <= q < f + 1.0
    ensures b * f <= a < b * f + b
  {
    var d := q - f;
    assert 0.0 <= d < 1.0;
    assert b * d < b;
    assert b * q == b * f + b * d;
    assert a == b * f + b * d;
  }

  /** Hours, minutes and seconds as the three `Math.floor` expressions give them. */
  datatype Parts = Parts(h: int, m: int, s: int)

  function PartsOf(r: real): Parts {
    Parts((r / 3600.0).Floor, (Rem(r, 3600.0) / 60.0).Floor, Rem(r, 60.0).Floor)
  }

  lemma FloorUnique(y: real, k: int)
    requires k as real <= y < k as real + 1.0
    ensures y.Floor == k
  {
  }

  /** For a non-negative time the parts are a proper clock reading: minutes and
      seconds below 60, and together they are the whole seconds of the time. */
  lemma PartsOfNonNegative(r: real)
    requires r >= 0.0
    ensures var p := PartsOf(r);
            && p.h >= 0 && 0 <= p.m < 60 && 0 <= p.s < 60
            && p.h * 3600 + p.m * 60 + p.s == r.Floor
  {
    var p := PartsOf(r);
    var q := (r / 3600.0).Floor;
    assert 3600.0 * q as real <= r < 3600.0 * q as real + 3600.0 by {
      assert q as real <= r / 3600.0 < q as real + 1.0;
    }
    var rem1 := Rem(r, 3600.0);
    RemNonNegative(r, 3600.0);
    RemNonNegative(r, 60.0);
    assert rem1 == r - 3600.0 * q as real;
    var m := p.m;
    assert 60.0 * m as real <= rem1 < 60.0 * m as real + 60.0 by {
      assert m as real <= rem1 / 60.0 < m as real + 1.0;
    }
    FloorUnique(r / 60.0, 60 * q + m);
    var rem2 := Rem(r, 60.0);
    assert rem2 == rem1 - 60.0 * m as real;
    FloorUnique(r, q * 3600 + m * 60 + p.s);
  }

  /** `n.toString()`, padded to two digits with `padStart(2, '0')` when `pad`. */
  function Field(n: int, pad: bool): string {
    if pad then PadStart2(IntToString(n)) else IntToString(n)
  }

  /** The template: `h:mm:ss` when `h > 0`, else minutes (padded when
      `padMinutes`) and `ss`. */
  function Render(p: Parts, padMinutes: bool): string {
    if p.h > 0 then IntToString(p.h) + ":" + Field(p.m, true) + ":" + Field(p.s, true)
    else Field(p.m, padMinutes) + ":" + Field(p.s, true)
  }

  /** The formatters' arithmetic and template with no guard in front: NaN parts
      print as "NaN", and an infinite hour count as "Infinity". */
  function Format(x: Number, padMinutes: bool): string {
    match x
    case NaN => "NaN:NaN"
    case Infinity(positive) => if positive then "Infinity:NaN:NaN" else "NaN:NaN"
    case Finite(r) => Render(PartsOf(r), padMinutes)
  }

  // ---------------------------------------------------------------------------
  // Reading a clock string back

  /** The seconds an `m:ss` or `h:mm:ss` string of digit groups stands for. */
  function ParseClock(s: string): (r: Option<nat>)
    ensures r.Some? ==> |Split(s, ':')| in {2, 3}
  {
    var ps := Split(s, ':');
    if |ps| == 2 && AllDigits(ps[0]) && AllDigits(ps[1]) && ps[0] != [] && ps[1] != [] then
      Some(ParseNat(ps[0]) * 60 + ParseNat(ps[1]))
    else if |ps| == 3 && AllDigits(ps[0]) && AllDigits(ps[1]) && AllDigits(ps[2])
            && ps[0] != [] && ps[1] != [] && ps[2] != [] then
      Some(ParseNat(ps[0]) * 3600 + ParseNat(ps[1]) * 60 + ParseNat(ps[2]))
    else None
  }

  lemma DigitsFreeOfColon(s: string)
    requires AllDigits(s)
    ensures FreeOf(s, ':')
  {
  }

  lemma SplitTwo(a: string, b: string)
    requires AllDigits(a) && AllDigits(b)
    ensures Split(a + ":" + b, ':') == [a, b]
  {
    DigitsFreeOfColon(a);
    DigitsFreeOfColon(b);
    SplitJoin([a, b], ':');
    assert Join([a, b], ':') == a + [':'] + Join([b], ':');
  }

  lemma SplitThree(a: string, b: string, c: string)
    requires AllDigits(a) && AllDigits(b) && AllDigits(c)
    ensures Split(a + ":" + b + ":" + c, ':') == [a, b, c]
  {
    DigitsFreeOfColon(a);
    DigitsFreeOfColon(b);
    DigitsFreeOfColon(c);
    SplitJoin([a, b, c], ':');
    assert [a, b, c][1..] == [b, c];
    assert Join([b, c], ':') == b + [':'] + Join([c], ':');
    assert Join([a, b, c], ':') == a + [':'] + (b + [':'] + c);
    assert a + ":" + b + ":" + c == a + [':'] + (b + [':'] + c);
  }

  predicate ClockParts(p: Parts) { p.h >= 0 && 0 <= p.m < 60 && 0 <= p.s < 60 }

  lemma RenderWithHours(p: Parts, padMinutes: bool)
    requires ClockParts(p) && p.h > 0
    ensures Split(Render(p, padMinutes), ':') ==
              [NatToString(p.h), Field(p.m, true), Field(p.s, true)]
    ensures ParseClock(Render(p, padMinutes)) == Some(p.h * 3600 + p.m * 60 + p.s)
  {
    PaddedTwoDigits(p.m);
    PaddedTwoDigits(p.s);
    ParseNatToString(p.h);
    SplitThree(NatToString(p.h), Field(p.m, true), Field(p.s, true));
  }

  lemma RenderWithoutHours(p: Parts, padMinutes: bool)
    requires ClockParts(p) && p.h == 0
    ensures Split(Render(p, padMinutes), ':') == [Field(p.m, padMinutes), Field(p.s, true)]
    ensures ParseClock(Render(p, padMinutes)) == Some(p.m * 60 + p.s)
  {
    PaddedTwoDigits(p.m);
    PaddedTwoDigits(p.s);
    ParseNatToString(p.m);
    SplitTwo(Field(p.m, padMinutes), Field(p.s, true));
  }

  /** Formatting a non-negative time and reading it back gives its whole seconds;
      the minutes and seconds fields are two digits wide, and there is an hours
      field exactly when the time reaches an hour. */
  lemma FormatRoundTrip(r: real, padMinutes: bool)
    requires r >= 0.0
    ensures ParseClock(Format(Finite(r), padMinutes)) == Some(r.Floor)
    ensures |Split(Format(Finite(r), padMinutes), ':')| == (if r >= 3600.0 then 3 else 2)
    ensures var ps := Split(Format(Finite(r), padMinutes), ':');
            |ps[|ps| - 1]| == 2 && (|ps| == 3 || padMinutes ==> |ps[|ps| - 2]| == 2)
  {
    var p := PartsOf(r);
    PartsOfNonNegative(r);
    PaddedTwoDigits(p.m);
    PaddedTwoDigits(p.s);
    if p.h > 0 {
      assert r >= 3600.0 by { assert (r / 3600.0).Floor >= 1; }
      RenderWithHours(p, padMinutes);
    } else {
      assert r < 3600.0 by { assert (r / 3600.0).Floor <= 0; }
      RenderWithoutHours(p, padMinutes);
    }
  }
}

=== FILE: Controls.dfy ===
/** The decisions of the player's control bar (PlayerControls.js): the clock
    text, the seek target of the progress range, when the progress bars are
    updated, the volume slider and icon, the HD badge, and which audio-mode
    call the audio button makes. Only the values that drive the DOM are kept. */
module Controls {
  import opened Base
  import Clock
  import VideoPlayer
  import AudioMode

  /** `formatTime(seconds)`: "00:00" for NaN, and the clock rendering otherwise. */
  function FormatTime(x: Number): (r: string)
    ensures x.NaN? ==> r == "00:00"
    ensures !x.NaN? ==> r == Clock.Format(x, true)
  {
    if x.NaN? then "00:00" else Clock.Format(x, true)
  }

  /** A non-negative time prints as `h:mm:ss` from the first hour on and as
      `mm:ss` below it, with two-digit minutes and seconds, and reads back as its
      whole seconds. */
  lemma FormatTimeRoundTrip(r: real)
    requires r >= 0.0
    ensures Clock.ParseClock(FormatTime(Finite(r))) == Some(r.Floor)
    ensures var ps := Split(FormatTime(Finite(r)), ':');
            && |ps| == (if r >= 3600.0 then 3 else 2)
            && |ps[|ps| - 1]| == 2 && |ps[|ps| - 2]| == 2
  {
    Clock.FormatRoundTrip(r, true);
  }

  /** Non-finite inputs other than NaN run through the arithmetic unguarded. */
  lemma FormatTimeInfinite()
    ensures FormatTime(Infinity(true)) == "Infinity:NaN:NaN"
    ensures FormatTime(Infinity(false)) == "NaN:NaN"
  {
  }

  /** The clock strings at two landmarks: just under a minute, and one hour. */
  lemma FormatTimeUnderAMinute()
    ensures FormatTime(Finite(59.5)) == "00:59"
  {
    assert (59.5 / 3600.0).Floor == 0;
    assert Clock.Rem(59.5, 3600.0) == 59.5;
    assert (59.5 / 60.0).Floor == 0;
    assert Clock.Rem(59.5, 60.0) == 59.5;
    assert NatToString(59) == "59";
  }

  lemma FormatTimeOneHour()
    ensures FormatTime(Finite(3600.0)) == "1:00:00"
  {
    assert (3600.0 / 3600.0).Floor == 1;
    assert Clock.Rem(3600.0, 3600.0) == 0.0;
    assert Clock.Rem(3600.0, 60.0) == 0.0;
    assert NatToString(1) == "1";
  }

  /** The time the progress range asks for when dragged to `percent`. */
  function ProgressTime(percent: real, duration: real): real {
    (percent / 100.0) * duration
  }

  /** The seek target and the progress display are inverse: the time chosen by
      dragging to `percent` is displayed as `percent` again. */
  lemma ProgressTimeInverse(percent: real, duration: real)
    requires duration > 0.0
    ensures Percent(ProgressTime(percent, duration), duration) == Pct(percent)
  {
    var t := ProgressTime(percent, duration);
    assert t / duration == percent / 100.0;
  }

  /** Dragging within the range seeks to exactly `percent / 100 * duration`: the
      player's clamp never bites. */
  lemma ProgressSeekIsExact(s: VideoPlayer.State, v: VideoPlayer.View, percent: real)
    requires 0.0 <= percent <= 100.0 && s.duration >= 0.0
    ensures VideoPlayer.Seek(s, v, ProgressTime(percent, s.duration)).calls
              == [VideoPlayer.SetCurrentTime(percent / 100.0 * s.duration)]
  {
    var t := ProgressTime(percent, s.duration);
    assert t == (percent / 100.0) * s.duration;
    assert 0.0 <= percent / 100.0 <= 1.0;
    ScaleBelow(percent / 100.0, s.duration);
    assert 0.0 <= t <= s.duration;
    var r := VideoPlayer.Seek(s, v, t);
    assert r.calls[0].t == t;
  }

  lemma ScaleBelow(k: real, d: real)
    requires 0.0 <= k <= 1.0 && d >= 0.0
    ensures 0.0 <= k * d <= d
  {
    assert d - k * d == (1.0 - k) * d;
  }

  /** What `updateTime` writes: both clocks always, and the play-progress width
      (percent) only once the duration is known to be positive. */
  datatype TimeDisplay = TimeDisplay(current: string, total: string, progress: Option<real>)

  function UpdateTime(s: VideoPlayer.State): TimeDisplay {
    TimeDisplay(FormatTime(Finite(s.currentTime)), FormatTime(Finite(s.duration)), PlayProgress(s))
  }

  /** The play-progress width `updateTime` sets (percent), only when the duration
      is positive. */
  function PlayProgress(s: VideoPlayer.State): (r: Option<real>)
    ensures r.Some? <==> s.duration > 0.0
    ensures r.Some? ==> r.value * s.duration == s.currentTime * 100.0
  {
    if s.duration > 0.0 then Some(Percent(s.currentTime, s.duration).value) else None
  }

  /** `updateBuffered`: the buffered width (percent), only when the duration is positive. */
  function UpdateBuffered(s: VideoPlayer.State): (r: Option<real>)
    ensures r.Some? <==> s.duration > 0.0
    ensures r.Some? ==> r.value * s.duration == s.buffered * 100.0
  {
    if s.duration > 0.0 then Some(Percent(s.buffered, s.duration).value) else None
  }

  /** Before `loadedmetadata` neither bar moves, whatever the time. */
  lemma BarsStillBeforeMetadata(o: VideoPlayer.Options, t: real)
    ensures UpdateTime(VideoPlayer.Initial(o).(currentTime := t)).progress.None?
    ensures UpdateBuffered(VideoPlayer.Initial(o)).None?
  {
  }

  /** What `updateVolume` writes: the slider value, the width of the volume bar
      (percent), and whether the muted icon shows. */
  datatype VolumeDisplay = VolumeDisplay(slider: real, width: real, mutedIcon: bool)

  function UpdateVolume(s: VideoPlayer.State): (r: VolumeDisplay)
    ensures s.muted ==> r.slider == 0.0 && r.width == 0.0
    ensures !s.muted ==> r.slider == s.volume
    ensures r.width == r.slider * 100.0
    ensures r.mutedIcon <==> s.muted || s.volume == 0.0
  {
    var shown := if s.muted then 0.0 else s.volume;
    VolumeDisplay(shown, shown * 100.0, s.muted || s.volume == 0.0)
  }

  /** A `volumechange` after `setVolume(x)` on an unmuted element shows the slider
      at the clamped value, and the muted icon exactly when that value is 0. */
  lemma VolumeSliderFollowsSetVolume(s: VideoPlayer.State, v: VideoPlayer.View, el: VideoPlayer.Snapshot, x: real)
    requires !el.muted
    ensures var el' := VideoPlayer.ApplyAll(el, VideoPlayer.SetVolumeCommand(s, v, x).calls);
            var d := UpdateVolume(VideoPlayer.HandleEvent(s, v, "volumechange", el').state);
            d.slider == Clamp(x, 0.0, 1.0) && (d.mutedIcon <==> x <= 0.0)
  {
    VideoPlayer.SetVolumeThenVolumeChange(s, v, el, x);
    VideoPlayer.ApplyOne(el, VideoPlayer.SetVolume(Clamp(x, 0.0, 1.0)));
  }

  /** `updateQuality(q)`: the `hd` badge. */
  function HdBadge(quality: string): (hd: bool)
    ensures hd <==> quality == "1080p"
  {
    quality == "1080p"
  }

  /** A quality switch shows the badge exactly when it switched to 1080p. */
  lemma BadgeFollowsQualityChange(s: VideoPlayer.State, v: VideoPlayer.View, sources: seq<VideoPlayer.Source>, q: string)
    requires VideoPlayer.FindSource(sources, q).Some?
    ensures var e := VideoPlayer.SetQuality(s, v, sources, q).emitted[0];
            e.event == "qualitychange" && (HdBadge(e.payload.quality) <==> q == "1080p")
  {
  }

  // ---------------------------------------------------------------------------
  // The audio-mode button

  datatype AudioCall = EnableAudio | DisableAudio

  /** The button's choice, as written: it reads the player's `state.isAudioMode`. */
  function AudioButton(isAudioMode: bool): (c: AudioCall)
    ensures c == DisableAudio <==> isAudioMode
  {
    if isAudioMode then DisableAudio else EnableAudio
  }

  function Perform(c: AudioCall, m: AudioMode.Mode, h: AudioMode.Host): (AudioMode.Mode, AudioMode.Host) {
    if c == DisableAudio then AudioMode.Disable(m, h) else AudioMode.Enable(m, h)
  }

  /** One click as written, given the engine state the button reads. */
  function ClickAsWritten(s: VideoPlayer.State, m: AudioMode.Mode, h: AudioMode.Host): (r: (AudioMode.Mode, AudioMode.Host))
    ensures r == Perform(AudioButton(s.isAudioMode), m, h)
  {
    Perform(AudioButton(s.isAudioMode), m, h)
  }

  /** As written, the button can switch audio mode on but never off: whatever the
      engine went through, its `isAudioMode` is still false, so a second click
      calls `enable` again, which is a no-op on the active component. */
  lemma AudioButtonNeverDisables(o: VideoPlayer.Options, ops: seq<VideoPlayer.Op>, h: AudioMode.Host)
    ensures var s := VideoPlayer.Exec(VideoPlayer.Initial(o), VideoPlayer.InitialView, o.sources, ops);
            var (m1, h1) := ClickAsWritten(s, AudioMode.Inactive, h);
            var (m2, h2) := ClickAsWritten(s, m1, h1);
            m1.isActive && m2.isActive && h2.hidden
  {
    VideoPlayer.AudioModeFlagNeverSet(o, ops);
  }

  /** The button as evidently intended: decide on the audio-mode component's own
      `isActive`. */
  function AudioToggle(m: AudioMode.Mode, h: AudioMode.Host): (r: (AudioMode.Mode, AudioMode.Host))
    ensures r.0.isActive == !m.isActive
    ensures m.isActive ==> r == AudioMode.Disable(m, h)
    ensures !m.isActive ==> r == AudioMode.Enable(m, h)
  {
    Perform(if m.isActive then DisableAudio else EnableAudio, m, h)
  }

  /** With the corrected button, two clicks switch audio mode on and off again,
      the video is shown and back at the position audio playback reached. */
  lemma AudioToggleTwice(h: AudioMode.Host, dt: real)
    requires dt >= 0.0
    ensures var (m1, h1) := AudioToggle(AudioMode.Inactive, h);
            var (m2, h2) := AudioToggle(AudioMode.Elapse(m1, dt), h1);
            m1.isActive && m2 == AudioMode.Inactive && !h2.hidden && h2.currentTime == h.currentTime + dt
  {
    AudioMode.HandOffRoundTrip(h, dt);
  }
}

=== FILE: Discover.dfy ===
/** The discover page (discover.js): tab and category chips reset the paged
    feed, the request names page, limit, tab and category, categories are shown
    by their Chinese labels, and the search box and trending tags navigate to a
    search page. */
module Discover {
  import opened Base
  import QueryString
  import Paging
  import Router

  datatype Discover = Discover(tab: string, category: string, feed: Paging.Feed)

  /** The constructor's state: recommended, every category, the first page. */
  const Initial: Discover := Discover("recommended", "all", Paging.Initial)

  /** A tab: taken, and the feed reset and reloaded. */
  function SelectTab(d: Discover, tab: string): (r: (Discover, Option<int>))
    ensures r.0.tab == tab && r.0.category == d.category
    ensures r.0.feed.page == 1 && r.0.feed.hasMore
    ensures r.1.Some? <==> !d.feed.isLoading
    ensures r.1.Some? ==> r.1.value == 1
  {
    var (f, req) := Paging.Reset(d.feed);
    (d.(tab := tab, feed := f), req)
  }

  /** A category chip: taken, and the feed reset and reloaded. */
  function SelectCategory(d: Discover, category: string): (r: (Discover, Option<int>))
    ensures r.0.category == category && r.0.tab == d.tab
    ensures r.0.feed.page == 1 && r.0.feed.hasMore
    ensures r.1.Some? <==> !d.feed.isLoading
    ensures r.1.Some? ==> r.1.value == 1
  {
    var (f, req) := Paging.Reset(d.feed);
    (d.(category := category, feed := f), req)
  }

  /** The query of the request for a page: `page`, `limit` 20, the tab, and the
      category (empty for `all`). */
  function RequestParams(d: Discover, page: int): QueryString.Pairs {
    [("page", IntToString(page)), ("limit", "20"), ("tab", d.tab),
     ("category", if d.category != "all" then d.category else "")]
  }

  /** The server reads back the page number, the tab, and an empty category
      exactly for `all` (or an empty category). */
  lemma RequestReadsBack(d: Discover, page: int)
    ensures var ps := QueryString.Parse(QueryString.Serialize(RequestParams(d, page)));
            && ps.Some? && |ps.value| == 4
            && ParseInt(ps.value[0].1) == Some(page)
            && ps.value[2] == ("tab", d.tab)
            && (ps.value[3].1 == [] <==> d.category == "all" || d.category == [])
  {
    QueryString.RoundTrip(RequestParams(d, page));
    ParseIntOfIntToString(page);
  }

  const CategoryNames: map<string, string> := map[
    "romance" := "爱情", "ceo" := "总裁", "fantasy" := "玄幻", "suspense" := "悬疑",
    "comedy" := "喜剧", "action" := "动作", "historical" := "古装"]

  /** `getCategoryName(category)`: the label of a known key, else the key itself
      (an empty key included, as `'' || ''` is `''`); a name the `categories`
      literal inherits from `Object.prototype` yields that inherited member. */
  function CategoryName(category: string): (name: PropValue)
    ensures category in CategoryNames ==> name == Text(CategoryNames[category])
    ensures category !in CategoryNames && category !in InheritedNames ==> name == Text(category)
    ensures category in InheritedNames <==> name.InheritedMember?
  {
    LookupOr(CategoryNames, category, category)
  }

  /** A category is shown as itself exactly when it is neither a known key nor an
      inherited name, since no label is one of the keys; and different known keys
      get different labels. */
  lemma CategoryNameIsLabel(a: string, b: string)
    ensures CategoryName(a) == Text(a) <==> a !in CategoryNames && a !in InheritedNames
    ensures a in CategoryNames && b in CategoryNames && a != b ==> CategoryName(a) != CategoryName(b)
  {
    if a in CategoryNames {
      assert CategoryNames[a] !in CategoryNames;
    }
  }

  /** `performSearch()`: a non-blank query navigates to `/search` with `q` set to
      the trimmed query; a blank one does nothing. */
  function Search(input: string): (r: Option<(string, QueryString.Pairs)>)
    ensures r.Some? <==> Trim(input) != []
    ensures r.Some? ==> r.value == ("/search", [("q", Trim(input))])
  {
    if Trim(input) != [] then Some(("/search", [("q", Trim(input))])) else None
  }

  /** A trending tag: `/search` with the tag text, its first `#` removed. */
  function TrendingTag(text: string): (r: (string, QueryString.Pairs))
    ensures r.0 == "/search" && |r.1| == 1 && r.1[0].0 == "q"
    ensures IndexOf(text, "#", 0).None? ==> r.1[0].1 == text
  {
    ("/search", [("q", ReplaceFirst(text, "#", ""))])
  }

  lemma TagWithoutHash(tag: string)
    requires FreeOf(tag, '#')
    ensures TrendingTag("#" + tag) == ("/search", [("q", tag)])
  {
    var text := "#" + tag;
    assert OccursAt(text, "#", 0) by { assert text[0..1] == "#"; }
    assert IndexOf(text, "#", 0) == Some(0);
    assert text[..0] + "" + text[1..] == tag;
  }

  /** `/search` is not in the routes table and has one segment, so the search
      the page navigates to lands on the not-found page. */
  lemma SearchIsUnrouted(q: string)
    ensures var loc := Router.LocationOf(Router.BuildUrl("/search", [("q", q)]));
            Router.HandleRoute(loc).page == "404" && Router.Get(Router.HandleRoute(loc).params, "q") == Some(q)
  {
    var loc := Router.LocationOf(Router.BuildUrl("/search", [("q", q)]));
    SearchLocation(q);
    SearchRequest(loc, [("q", q)]);
  }

  lemma SearchLocation(q: string)
    ensures var loc := Router.LocationOf(Router.BuildUrl("/search", [("q", q)]));
            loc.pathname == "/search" && QueryString.Parse(loc.search) == Some([("q", q)])
  {
    assert FreeOf("/search", '?') && FreeOf("/search", '#');
    Router.BuildUrlRoundTrip("/search", [("q", q)]);
  }

  lemma SearchRequest(loc: Router.Location, ps: QueryString.Pairs)
    requires loc.pathname == "/search" && QueryString.Parse(loc.search) == Some(ps) && |ps| == 1 && ps[0].0 == "q"
    ensures Router.HandleRoute(loc) == Router.Request("404", "/search", ps)
  {
    assert Router.FromPairs(ps) == ps by {
      assert ps[..0] == [];
    }
    SearchNotMatched(ps);
  }

  /** No route matches `/search`, whatever the params. */
  lemma SearchNotMatched(ps: Router.Params)
    ensures Router.MatchRoute("/search", ps) == (None, ps)
  {
    SearchSegments();
    SearchNotInRoutes();
  }

  lemma SearchNotInRoutes()
    ensures Router.Lookup("/search").None?
  {
    var path := "/search";
    assert path[1] == 's';
    assert "/player"[1] == 'p' && "/profile"[1] == 'p' && "/payment"[1] == 'p';
    assert |path| == 7;
  }

  lemma SearchSegments()
    ensures |Router.Segments("/search")| == 1
  {
    var pieces: seq<string> := [[], "search"];
    assert Join(pieces, '/') == "/search";
    SplitJoin(pieces, '/');
    assert Router.NonEmpty(pieces) == Router.NonEmpty(["search"]);
    assert Router.NonEmpty(["search"]) == ["search"] + Router.NonEmpty([]);
  }
}

=== FILE: Download.dfy ===
/** The offline-download queue of Download.js: a storage admission check, a FIFO
    queue drained one item at a time, per-chunk progress, and the status machine
    pending → downloading → completed | failed. The network and the stream reader
    are inputs: the outcome of each item's fetch and save is given. IndexedDB is
    modelled as far as the code depends on it: whether `VideoDB` exists, whether
    it holds the `videos` store, and that store as a map from episode id to the
    saved chunks. */
module Download {
  import opened Base

  datatype Status = Pending | Downloading | Completed | Failed

  predicate Terminal(s: Status) { s == Completed || s == Failed }

  /** A queue entry. `url` is None when the download-link answer carried no
      `downloadUrl`; the entry is queued all the same. */
  datatype Item = Item(id: string, url: Option<string>, quality: string, progress: Ratio, status: Status)

  /** The `videos` object store: episode id to the lengths of the saved blob's chunks. */
  type Store = map<string, seq<nat>>

  /** The `VideoDB` database: not created yet; created at version 1 without the
      `videos` store, by an open that had no `onupgradeneeded` handler; or
      holding the store. Opening at the version it already has never upgrades. */
  datatype Database = NoDatabase | StoreLess | Ready(store: Store)

  /** The saved entries: none unless the store exists. */
  function StoreOf(db: Database): Store {
    if db.Ready? then db.store else map[]
  }

  /** A promise that settles with a value, or one that never settles. */
  datatype Promise<T> = Settled(value: T) | NeverSettles

  /** The downloader object, plus the items it has finished with, in order.
      `stalled` records that draining awaits a promise that never settles, so no
      line of `processDownloadQueue` runs again. */
  datatype Downloader = Downloader(
    queue: seq<Item>, isDownloading: bool, db: Database, stalled: bool, finished: seq<Item>)

  const Fresh: Downloader := Downloader([], false, NoDatabase, false, [])

  // ---------------------------------------------------------------------------
  // Admission

  /** What `navigator.storage.estimate()` reports. */
  datatype Estimate = Estimate(quota: int, usage: int)

  /** Room the check demands for one video: 500 MiB. */
  const MinRequired: int := 500 * 1024 * 1024

  /** `checkStorage()`: passes when the estimate API is absent, and otherwise only
      when strictly more than 500 MiB is free. */
  function CheckStorage(estimate: Option<Estimate>): (ok: bool)
    ensures estimate.None? ==> ok
    ensures estimate.Some? ==> (ok <==> estimate.value.quota - estimate.value.usage > 524288000)
  {
    match estimate
    case None => true
    case Some(e) => e.quota - e.usage > MinRequired
  }

  /** Exactly 500 MiB free is not enough. */
  lemma ExactlyMinimumRefused(usage: int)
    ensures !CheckStorage(Some(Estimate(usage + 524288000, usage)))
    ensures CheckStorage(Some(Estimate(usage + 524288001, usage)))
  {
  }

  /** The answer of the download-link request: a rejected fetch, or the JSON body's
      `downloadUrl` (None when the field is missing). */
  datatype LinkAnswer = LinkFailed | Link(downloadUrl: Option<string>)

  /** How `downloadEpisode` settles: out of space (alert, nothing returned), a
      rejected link request, or the queued item. */
  datatype Answer = NoSpace | LinkRejected | Queued(item: Item)

  /** `downloadEpisode(id, quality)`: admission check, link request, then the new
      item goes to the tail as pending with progress 0; draining is started only
      when it is not already running. */
  function DownloadEpisode(d: Downloader, episodeId: string, estimate: Option<Estimate>,
                           link: LinkAnswer, quality: string := "720p"): (r: (Downloader, Answer))
    ensures !CheckStorage(estimate) ==> r == (d, NoSpace)
    ensures CheckStorage(estimate) && link.LinkFailed? ==> r == (d, LinkRejected)
    ensures CheckStorage(estimate) && link.Link? ==>
              && r.1 == Queued(Item(episodeId, link.downloadUrl, quality, Pct(0.0), Pending))
              && r.0.queue == d.queue + [r.1.item]
              && r.0.isDownloading
              && r.0.db == d.db && r.0.stalled == d.stalled && r.0.finished == d.finished
    ensures r.0.queue[..|d.queue|] == d.queue
  {
    if !CheckStorage(estimate) then (d, NoSpace)
    else match link
      case LinkFailed => (d, LinkRejected)
      case Link(url) =>
        var item := Item(episodeId, url, quality, Pct(0.0), Pending);
        (d.(queue := d.queue + [item], isDownloading := true), Queued(item))
  }

  // ---------------------------------------------------------------------------
  // Per-chunk progress

  /** Total length of a list of chunks. */
  function Sum(xs: seq<nat>): nat
    decreases |xs|
  {
    if xs == [] then 0 else Sum(xs[..|xs| - 1]) + xs[|xs| - 1]
  }

  lemma {:induction false} SumMonotone(xs: seq<nat>, j: nat, k: nat)
    requires j <= k <= |xs|
    ensures Sum(xs[..j]) <= Sum(xs[..k])
    decreases k - j
  {
    if j < k {
      SumMonotone(xs, j, k - 1);
      assert xs[..k][..k - 1] == xs[..k - 1];
    }
  }

  lemma PercentMonotone(a: real, b: real, whole: real)
    requires 0.0 <= a <= b && whole > 0.0
    ensures Percent(a, whole).value <= Percent(b, whole).value
  {
    assert a / whole <= b / whole;
  }

  /** The item as the last `downloadProgress` left it after reading `chunks`. */
  function AfterChunks(item: Item, contentLength: nat, chunks: seq<nat>): (r: Item)
    ensures chunks == [] ==> r == item
    ensures r.id == item.id && r.url == item.url && r.quality == item.quality
    ensures chunks != [] ==> r.status == Downloading
  {
    if chunks == [] then item
    else item.(progress := Percent(Sum(chunks) as real, contentLength as real), status := Downloading)
  }

  /** The read loop: after every chunk the running total grows by its length,
      `progress = received / contentLength * 100`, the status is `downloading`, and
      the item is announced. A Content-Length of 0 (also what a missing header
      reads as) makes every announced progress non-finite. */
  method ReceiveChunks(item: Item, contentLength: nat, chunks: seq<nat>) returns (received: nat, updates: seq<Item>)
    ensures received == Sum(chunks)
    ensures |updates| == |chunks|
    ensures forall k :: 0 <= k < |updates| ==>
              updates[k] == item.(progress := Percent(Sum(chunks[..k + 1]) as real, contentLength as real),
                                  status := Downloading)
    ensures contentLength == 0 ==> forall k :: 0 <= k < |updates| ==> updates[k].progress == NonFinite
    ensures contentLength > 0 ==> forall j, k :: 0 <= j <= k < |updates| ==>
              updates[j].progress.Pct? && updates[k].progress.Pct? && updates[j].progress.value <= updates[k].progress.value
    ensures contentLength > 0 && chunks != [] && received == contentLength ==>
              updates[|updates| - 1].progress == Pct(100.0)
    ensures chunks != [] ==> updates[|updates| - 1] == AfterChunks(item, contentLength, chunks)
  {
    received := 0;
    updates := [];
    var i := 0;
    while i < |chunks|
      invariant 0 <= i <= |chunks|
      invariant received == Sum(chunks[..i])
      invariant |updates| == i
      invariant forall k :: 0 <= k < i ==>
                  updates[k] == item.(progress := Percent(Sum(chunks[..k + 1]) as real, contentLength as real),
                                      status := Downloading)
    {
      assert chunks[..i + 1][..i] == chunks[..i];
      received := received + chunks[i];
      updates := updates + [item.(progress := Percent(received as real, contentLength as real), status := Downloading)];
      i := i + 1;
    }
    assert chunks[..|chunks|] == chunks;
    if contentLength > 0 {
      forall j, k | 0 <= j <= k < |updates|
        ensures updates[j].progress.value <= updates[k].progress.value
      {
        SumMonotone(chunks, j + 1, k + 1);
        PercentMonotone(Sum(chunks[..j + 1]) as real, Sum(chunks[..k + 1]) as real, contentLength as real);
      }
    }
  }

  // ---------------------------------------------------------------------------
  // Draining

  /** What the network and the store do for one item: the fetch fails (or yields
      no body), or the body streams `chunks` and then either a read throws, or the
      save's transaction completes (`saved`) or errors. */
  datatype Outcome =
    | FetchFailed
    | Streamed(contentLength: nat, chunks: seq<nat>, readFailed: bool, saved: bool)

  predicate Succeeds(o: Outcome) { o.Streamed? && !o.readFailed && o.saved }

  /** The head item as it ends up once its outcome is known. */
  function Settle(item: Item, o: Outcome): (r: Item)
    ensures r.id == item.id && Terminal(r.status)
    ensures r.status == Completed <==> Succeeds(o)
  {
    match o
    case FetchFailed => item.(status := Failed)
    case Streamed(cl, chunks, readFailed, saved) =>
      AfterChunks(item, cl, chunks).(status := if !readFailed && saved then Completed else Failed)
  }

  /** `saveToIndexedDB(key, blob)`: opens `VideoDB` at version 1, and its
      `onupgradeneeded` creates the store when the open creates the database. The
      promise resolves (`Settled(true)`) when the put's transaction completes and
      rejects (`Settled(false)`) when it errors; on a database without the store,
      `db.transaction(['videos'])` throws inside `onsuccess` and the promise never
      settles. */
  function SaveToIndexedDB(db: Database, key: string, chunks: seq<nat>, committed: bool): (r: (Database, Promise<bool>))
    ensures r.1.NeverSettles? <==> db.StoreLess?
    ensures db.StoreLess? ==> r.0 == db
    ensures !db.StoreLess? ==> r.0.Ready? && r.1 == Settled(committed)
    ensures r.1 == Settled(true) ==> StoreOf(r.0) == StoreOf(db)[key := chunks]
    ensures r.1 != Settled(true) ==> StoreOf(r.0) == StoreOf(db)
  {
    if db.StoreLess? then (db, NeverSettles)
    else if committed then (Ready(StoreOf(db)[key := chunks]), Settled(true))
    else (Ready(StoreOf(db)), Settled(false))
  }

  /** The save of a fully read item hangs: the database has no store. */
  predicate Stalls(db: Database, o: Outcome) {
    db.StoreLess? && o.Streamed? && !o.readFailed
  }

  /** One run of `processDownloadQueue` up to its recursive call. A stalled
      downloader does nothing; an empty queue stops the downloader; otherwise
      only the head is processed. When its save never settles, the head stays
      in place as the read loop left it and the downloader stays busy for good.
      Otherwise the head is settled, stored under its episode id on success, and
      shifted off in either case, and draining goes on exactly when items
      remain. */
  function ProcessQueue(d: Downloader, o: Outcome): (r: Downloader)
    ensures d.stalled ==> r == d
    ensures !d.stalled && d.queue == [] ==> r == d.(isDownloading := false)
    ensures !d.stalled && d.queue != [] && Stalls(d.db, o) ==>
              r == d.(queue := [AfterChunks(d.queue[0], o.contentLength, o.chunks)] + d.queue[1..],
                      isDownloading := true, stalled := true)
    ensures !d.stalled && d.queue != [] && !Stalls(d.db, o) ==>
              && r.queue == d.queue[1..]
              && r.isDownloading == (|d.queue| > 1)
              && !r.stalled
              && r.finished == d.finished + [Settle(d.queue[0], o)]
              && StoreOf(r.db) == (if Succeeds(o) then StoreOf(d.db)[d.queue[0].id := o.chunks] else StoreOf(d.db))
    ensures !d.stalled && !d.db.StoreLess? ==> !r.stalled && !r.db.StoreLess?
    ensures !d.stalled && d.queue != [] && Succeeds(o) && !d.db.StoreLess? ==> r.db.Ready?
  {
    if d.stalled then d
    else if d.queue == [] then d.(isDownloading := false)
    else
      var head := d.queue[0];
      var rest := d.queue[1..];
      match o
      case FetchFailed => Downloader(rest, rest != [], d.db, false, d.finished + [Settle(head, o)])
      case Streamed(cl, chunks, readFailed, saved) =>
        if readFailed then Downloader(rest, rest != [], d.db, false, d.finished + [Settle(head, o)])
        else
          var (db, p) := SaveToIndexedDB(d.db, head.id, chunks, saved);
          if p.NeverSettles? then
            d.(queue := [AfterChunks(head, cl, chunks)] + rest, isDownloading := true, stalled := true)
          else Downloader(rest, rest != [], db, false, d.finished + [Settle(head, o)])
  }

  /** `processDownloadQueue` with its recursion unrolled over the given outcomes. */
  function Drain(d: Downloader, outcomes: seq<Outcome>): Downloader
    decreases |outcomes|
  {
    if outcomes == [] then d else Drain(ProcessQueue(d, outcomes[0]), outcomes[1..])
  }

  /** Between steps the downloader is busy exactly when something is queued; a
      stall happens only on a store-less database and keeps its head in the queue;
      every other queued item is still pending at 0 %. */
  ghost predicate Valid(d: Downloader) {
    && (d.isDownloading <==> d.queue != [])
    && (d.stalled ==> d.queue != [] && d.db.StoreLess?)
    && forall i :: 0 <= i < |d.queue| ==>
         (i == 0 && d.stalled) || (d.queue[i].status == Pending && d.queue[i].progress == Pct(0.0))
  }

  lemma FreshValid()
    ensures Valid(Fresh)
  {
  }

  lemma DownloadEpisodeKeepsValid(d: Downloader, episodeId: string, estimate: Option<Estimate>, link: LinkAnswer, quality: string)
    requires Valid(d)
    ensures Valid(DownloadEpisode(d, episodeId, estimate, link, quality).0)
  {
  }

  lemma ProcessQueueKeepsValid(d: Downloader, o: Outcome)
    requires Valid(d)
    ensures Valid(ProcessQueue(d, o))
  {
  }

  /** A refused admission adds nothing to the queue. */
  lemma NoSpaceQueuesNothing(d: Downloader, episodeId: string, estimate: Option<Estimate>, link: LinkAnswer)
    requires !CheckStorage(estimate)
    ensures DownloadEpisode(d, episodeId, estimate, link).0.queue == d.queue
  {
  }

  /** A failure settles the head as failed and the next item is up: one failure
      never halts the queue. */
  lemma FailureDoesNotHalt(d: Downloader, o: Outcome)
    requires |d.queue| >= 2 && !d.stalled && !Succeeds(o) && !Stalls(d.db, o)
    ensures ProcessQueue(d, o).isDownloading
    ensures ProcessQueue(d, o).queue[0] == d.queue[1]
    ensures ProcessQueue(d, o).finished[|d.finished|].status == Failed
  {
  }

  /** Draining a valid downloader whose database is usable, with one outcome per
      queued item, empties the queue, stops the downloader, and settles every item
      in FIFO order. */
  lemma {:induction false} DrainSettlesInOrder(d: Downloader, outcomes: seq<Outcome>)
    requires Valid(d) && !d.db.StoreLess? && |outcomes| == |d.queue|
    ensures var r := Drain(d, outcomes);
            && r.queue == [] && !r.isDownloading && !r.stalled
            && |r.finished| == |d.finished| + |d.queue|
            && r.finished[..|d.finished|] == d.finished
            && forall k :: 0 <= k < |d.queue| ==>
                 r.finished[|d.finished| + k].id == d.queue[k].id
                 && Terminal(r.finished[|d.finished| + k].status)
                 && (r.finished[|d.finished| + k].status == Completed <==> Succeeds(outcomes[k]))
    decreases |outcomes|
  {
    if outcomes != [] {
      var d1 := ProcessQueue(d, outcomes[0]);
      ProcessQueueKeepsValid(d, outcomes[0]);
      DrainSettlesInOrder(d1, outcomes[1..]);
      var r := Drain(d, outcomes);
      assert r == Drain(d1, outcomes[1..]);
      forall k | 0 <= k < |d.queue|
        ensures r.finished[|d.finished| + k].id == d.queue[k].id
        ensures Terminal(r.finished[|d.finished| + k].status)
        ensures r.finished[|d.finished| + k].status == Completed <==> Succeeds(outcomes[k])
      {
        if k == 0 {
          assert r.finished[..|d1.finished|] == d1.finished;
          assert r.finished[|d.finished|] == d1.finished[|d.finished|];
        } else {
          assert d1.queue[k - 1] == d.queue[k];
          assert outcomes[1..][k - 1] == outcomes[k];
          assert |d1.finished| + (k - 1) == |d.finished| + k;
        }
      }
      assert r.finished[..|d.finished|] == r.finished[..|d1.finished|][..|d.finished|];
    }
  }

  /** Draining an empty queue just stops the downloader. */
  lemma DrainEmpty(d: Downloader, o: Outcome)
    requires d.queue == [] && !d.stalled
    ensures Drain(d, [o]) == d.(isDownloading := false)
  {
  }

  /** A stalled downloader never moves again, whatever the later outcomes. */
  lemma {:induction false} StalledStaysStalled(d: Downloader, outcomes: seq<Outcome>)
    requires d.stalled
    ensures Drain(d, outcomes) == d
    decreases |outcomes|
  {
    if outcomes != [] {
      StalledStaysStalled(ProcessQueue(d, outcomes[0]), outcomes[1..]);
    }
  }

  // ---------------------------------------------------------------------------
  // Reading back

  /** `getOfflineVideo(id)`: opens `VideoDB` at version 1 with no
      `onupgradeneeded` handler. With the store present it resolves to the saved
      blob (standing for its object URL) or to null. Otherwise the open leaves a
      database without the store (creating it at version 1 when it did not
      exist), `db.transaction(['videos'])` throws inside `onsuccess`, and the
      promise never settles. */
  function GetOfflineVideo(db: Database, episodeId: string): (r: (Database, Promise<Option<seq<nat>>>))
    ensures r.1.NeverSettles? <==> !db.Ready?
    ensures !db.Ready? ==> r.0 == StoreLess
    ensures db.Ready? ==> r.0 == db && (r.1.value.None? <==> episodeId !in db.store)
    ensures db.Ready? && episodeId in db.store ==> r.1.value == Some(db.store[episodeId])
  {
    if !db.Ready? then (StoreLess, NeverSettles)
    else (db, Settled(if episodeId in db.store then Some(db.store[episodeId]) else None))
  }

  /** A completed download can be read back under its episode id, with the chunks
      that were streamed. */
  lemma CompletedIsOffline(d: Downloader, o: Outcome)
    requires d.queue != [] && !d.stalled && !d.db.StoreLess? && Succeeds(o)
    ensures GetOfflineVideo(ProcessQueue(d, o).db, d.queue[0].id).1 == Settled(Some(o.chunks))
  {
  }

  /** A failed download leaves the saved entries exactly as they were. */
  lemma FailedStoresNothing(d: Downloader, o: Outcome, episodeId: string)
    requires !Succeeds(o) && d.db.Ready?
    ensures StoreOf(ProcessQueue(d, o).db) == StoreOf(d.db)
    ensures GetOfflineVideo(ProcessQueue(d, o).db, episodeId) == GetOfflineVideo(d.db, episodeId)
  {
  }

  /** Looking a video up before any download has been saved leaves `VideoDB`
      without its store. The lookup never answers, the next fully read download
      never settles, and the downloader stays busy with that item at the head of
      its queue for good: no later item is ever fetched. */
  lemma LookupFirstStallsQueue(lookedUp: string, episodeId: string, url: string, o: Outcome, later: seq<Outcome>)
    requires o.Streamed? && !o.readFailed
    ensures GetOfflineVideo(Fresh.db, lookedUp) == (StoreLess, NeverSettles)
    ensures var db := GetOfflineVideo(Fresh.db, lookedUp).0;
            var d := DownloadEpisode(Fresh.(db := db), episodeId, None, Link(Some(url))).0;
            var stuck := Drain(d, [o] + later);
            && stuck.stalled && stuck.isDownloading && stuck.finished == []
            && |stuck.queue| == 1 && stuck.queue[0].id == episodeId
  {
    var d := DownloadEpisode(Fresh.(db := StoreLess), episodeId, None, Link(Some(url))).0;
    var d1 := ProcessQueue(d, o);
    assert ([o] + later)[1..] == later;
    StalledStaysStalled(d1, later);
  }

  /** `getOfflineVideo` with the `onupgradeneeded` handler `saveToIndexedDB`
      has: opening a database that does not exist creates it with the store, so
      the lookup answers null instead of hanging. */
  function GetOfflineVideoFixed(db: Database, episodeId: string): (r: (Database, Promise<Option<seq<nat>>>))
    ensures !db.StoreLess? ==> r.0.Ready? && StoreOf(r.0) == StoreOf(db) && r.1.Settled?
    ensures !db.StoreLess? ==> (r.1.value.None? <==> episodeId !in StoreOf(db))
    ensures !db.StoreLess? && episodeId in StoreOf(db) ==> r.1.value == Some(StoreOf(db)[episodeId])
  {
    if db.StoreLess? then (db, NeverSettles)
    else GetOfflineVideo(Ready(StoreOf(db)), episodeId)
  }

  /** The database after a run of fixed lookups. */
  function LookUpAllFixed(db: Database, ids: seq<string>): Database
    decreases |ids|
  {
    if ids == [] then db else LookUpAllFixed(GetOfflineVideoFixed(db, ids[0]).0, ids[1..])
  }

  lemma {:induction false} FixedLookupsKeepStore(db: Database, ids: seq<string>)
    requires !db.StoreLess?
    ensures !LookUpAllFixed(db, ids).StoreLess?
    ensures StoreOf(LookUpAllFixed(db, ids)) == StoreOf(db)
    decreases |ids|
  {
    if ids != [] {
      FixedLookupsKeepStore(GetOfflineVideoFixed(db, ids[0]).0, ids[1..]);
    }
  }

  /** With the fixed lookup, any number of lookups before the first download leave
      the database usable: the download settles, the downloader goes idle, and a
      completed download is then found by the lookup. */
  lemma FixedLookupKeepsQueueMoving(ids: seq<string>, episodeId: string, url: string, o: Outcome)
    ensures var db := LookUpAllFixed(NoDatabase, ids);
            var d := DownloadEpisode(Fresh.(db := db), episodeId, None, Link(Some(url))).0;
            var r := ProcessQueue(d, o);
            && !r.stalled && !r.isDownloading && r.queue == []
            && |r.finished| == 1 && (r.finished[0].status == Completed <==> Succeeds(o))
            && (Succeeds(o) ==> GetOfflineVideoFixed(r.db, episodeId).1 == Settled(Some(o.chunks)))
  {
    FixedLookupsKeepStore(NoDatabase, ids);
  }
}

=== FILE: EventBus.dfy ===
/** The player's own publish/subscribe registry: `on`, `off`, `trigger` and the
    reset done by `destroy`. Handlers are compared by identity, so a handler is
    modelled by an identifier. */
module EventBus {
  import opened Base

  type HandlerId = nat

  /** Event name to the handlers registered for it, in registration order. */
  type Registry = map<string, seq<HandlerId>>

  const Empty: Registry := map[]

  /** The handlers `trigger` would call for `event` (none when the name is unknown). */
  function Handlers(reg: Registry, event: string): seq<HandlerId> {
    if event in reg then reg[event] else []
  }

  /** `this.events[event]` finds no own list but an inherited member of
      `Object.prototype`, which has no `push`, `filter` or `forEach`: the call
      throws a TypeError. */
  predicate Inherits(reg: Registry, event: string) {
    event !in reg && event in InheritedNames
  }

  /** `on(event, h)`: appends `h` to that event's list, creating the list on first
      use; `None` when the call throws on an inherited name. */
  function On(reg: Registry, event: string, h: HandlerId): (r: Option<Registry>)
    ensures r.None? <==> Inherits(reg, event)
    ensures r.Some? ==> Handlers(r.value, event) == Handlers(reg, event) + [h]
    ensures r.Some? ==> forall e :: e != event ==> Handlers(r.value, e) == Handlers(reg, e)
    ensures r.Some? ==> r.value.Keys == reg.Keys + {event}
  {
    if Inherits(reg, event) then None
    else Some(reg[event := Handlers(reg, event) + [h]])
  }

  /** The list without any occurrence of `h`, the others kept in order (`filter`). */
  function Without(hs: seq<HandlerId>, h: HandlerId): (r: seq<HandlerId>)
    ensures h !in r
    ensures forall x :: x != h ==> (x in r <==> x in hs)
    ensures h !in hs ==> r == hs
    ensures |r| <= |hs|
  {
    if hs == [] then []
    else if hs[0] == h then Without(hs[1..], h)
    else [hs[0]] + Without(hs[1..], h)
  }

  /** `off(event, h)`: removes every registration of `h` for `event` only; a no-op
      when the event has no list, and `None` when the call throws on an
      inherited name. */
  function Off(reg: Registry, event: string, h: HandlerId): (r: Option<Registry>)
    ensures r.None? <==> Inherits(reg, event)
    ensures r.Some? ==> h !in Handlers(r.value, event)
    ensures r.Some? ==> forall x :: x != h ==> (x in Handlers(r.value, event) <==> x in Handlers(reg, event))
    ensures r.Some? ==> forall e :: e != event ==> Handlers(r.value, e) == Handlers(reg, e)
    ensures r.Some? && h !in Handlers(reg, event) ==> forall e :: Handlers(r.value, e) == Handlers(reg, e)
    ensures r.Some? ==> r.value.Keys == reg.Keys
  {
    if event in reg then Some(reg[event := Without(reg[event], h)])
    else if event in InheritedNames then None
    else Some(reg)
  }

  lemma {:induction false} WithoutAppend(a: seq<HandlerId>, b: seq<HandlerId>, h: HandlerId)
    ensures Without(a + b, h) == Without(a, h) + Without(b, h)
  {
    if a == [] {
      assert a + b == b;
    } else {
      assert (a + b)[1..] == a[1..] + b;
      WithoutAppend(a[1..], b, h);
    }
  }

  /** Registering a fresh handler and then removing it restores the observable
      registry; on an inherited name both calls throw. */
  lemma OnThenOff(reg: Registry, event: string, h: HandlerId)
    requires h !in Handlers(reg, event)
    ensures On(reg, event, h).None? <==> Inherits(reg, event)
    ensures On(reg, event, h).Some? ==>
              && Off(On(reg, event, h).value, event, h).Some?
              && forall e :: Handlers(Off(On(reg, event, h).value, event, h).value, e) == Handlers(reg, e)
  {
    var hs := Handlers(reg, event);
    WithoutAppend(hs, [h], h);
    assert Without([h], h) == [];
  }

  /** `off` is idempotent. */
  lemma OffTwice(reg: Registry, event: string, h: HandlerId)
    ensures Off(reg, event, h).Some? ==> Off(Off(reg, event, h).value, event, h) == Off(reg, event, h)
  {
    if event in reg {
      var once := Without(reg[event], h);
      var reg1 := reg[event := once];
      assert Without(once, h) == once;
      assert reg1[event := once] == reg1;
    }
  }

  /** Once `on` has created the list, the name is an own property: later `on`,
      `off` and `trigger` calls for it never throw, inherited name or not. */
  lemma OwnListNeverThrows(reg: Registry, event: string, h: HandlerId, g: HandlerId)
    requires On(reg, event, h).Some?
    ensures On(On(reg, event, h).value, event, g).Some?
    ensures Off(On(reg, event, h).value, event, g).Some?
    ensures !Trigger(On(reg, event, h).value, event, {}).escaped
  {
    var r := On(reg, event, h).value;
    assert event in r;
    assert forall i :: 0 <= i < |Handlers(r, event)| ==> Handlers(r, event)[i] !in {};
  }

  /** The result of one `trigger`: the handlers actually called, in order, and
      whether an exception escaped from one of them. */
  datatype Delivery = Delivery(called: seq<HandlerId>, escaped: bool)

  /** `forEach(cb => cb(data))` over a handler list. There is no fault isolation: the
      first handler that throws ends the loop, and the exception reaches the caller. */
  function Deliver(hs: seq<HandlerId>, throws: set<HandlerId>): (d: Delivery)
    ensures |d.called| <= |hs| && d.called == hs[..|d.called|]
    ensures d.escaped <==> exists i :: 0 <= i < |hs| && hs[i] in throws
    ensures !d.escaped ==> d.called == hs
    ensures d.escaped ==> |d.called| >= 1 && d.called[|d.called| - 1] in throws
    ensures forall i :: 0 <= i < |d.called| - 1 ==> d.called[i] !in throws
  {
    if hs == [] then Delivery([], false)
    else if hs[0] in throws then Delivery([hs[0]], true)
    else
      var rest := Deliver(hs[1..], throws);
      assert forall i :: 1 <= i < |hs| ==> hs[i] == hs[1..][i - 1];
      Delivery([hs[0]] + rest.called, rest.escaped)
  }

  /** `trigger(event, data)`: calls the handlers of `event` in registration order.
      The list is the one held when the trigger starts: `off` replaces the array
      with a filtered copy and `forEach` stops at the starting length, so neither
      an `off` nor an `on` run by a handler changes who is called in this round.
      On an inherited name nobody is called and the TypeError escapes. */
  function Trigger(reg: Registry, event: string, throws: set<HandlerId>): (d: Delivery)
    ensures Inherits(reg, event) ==> d == Delivery([], true)
    ensures !Inherits(reg, event) && (forall i :: 0 <= i < |Handlers(reg, event)| ==> Handlers(reg, event)[i] !in throws)
            ==> d == Delivery(Handlers(reg, event), false)
  {
    if Inherits(reg, event) then Delivery([], true)
    else Deliver(Handlers(reg, event), throws)
  }

  /** A throwing handler at position `i` starves every handler registered after it
      for the same event: at most the first `i + 1` handlers run. */
  lemma ThrowStopsLaterHandlers(reg: Registry, event: string, throws: set<HandlerId>, i: nat)
    requires event in reg && i < |Handlers(reg, event)|
    requires Handlers(reg, event)[i] in throws
    ensures |Trigger(reg, event, throws).called| <= i + 1
    ensures Trigger(reg, event, throws).escaped
  {
  }

  /** After `destroy`, no event reaches any handler; the emptied object still
      inherits from `Object.prototype`, so triggering such a name still throws. */
  lemma DestroyForgetsAll(event: string, throws: set<HandlerId>)
    ensures Trigger(Empty, event, throws).called == []
    ensures Trigger(Empty, event, throws).escaped <==> event in InheritedNames
  {
  }
}

=== FILE: Home.dfy ===
/** The home page's feed (home.js): category tabs and the search box reset the
    paged feed, the request names page, limit, category and search, and each
    card shows how much of the drama was watched. */
module Home {
  import opened Base
  import QueryString
  import Paging

  datatype Home = Home(category: string, query: string, feed: Paging.Feed)

  /** The constructor's state: every category, no search, the first page. */
  const Initial: Home := Home("all", "", Paging.Initial)

  /** A category tab: the category is taken and the feed reset and reloaded. */
  function SelectCategory(h: Home, category: string): (r: (Home, Option<int>))
    ensures r.0.category == category && r.0.query == h.query
    ensures r.0.feed.page == 1 && r.0.feed.hasMore
    ensures r.1.Some? <==> !h.feed.isLoading
    ensures r.1.Some? ==> r.1.value == 1
  {
    var (f, req) := Paging.Reset(h.feed);
    (h.(category := category, feed := f), req)
  }

  /** `performSearch()`: the trimmed input; the same query as before does
      nothing, any other is stored and resets and reloads the feed. */
  function Search(h: Home, input: string): (r: (Home, Option<int>))
    ensures Trim(input) == h.query ==> r == (h, None)
    ensures Trim(input) != h.query ==> r.0.query == Trim(input) && r.0.category == h.category
                                       && r.0.feed.page == 1 && r.0.feed.hasMore
                                       && (r.1.Some? <==> !h.feed.isLoading)
  {
    var query := Trim(input);
    if query == h.query then (h, None)
    else
      var (f, req) := Paging.Reset(h.feed);
      (h.(query := query, feed := f), req)
  }

  /** Typing only spaces around the current query changes nothing. */
  lemma PaddedQueryIsNoOp(h: Home, before: string, after: string)
    requires AllSpace(before) && AllSpace(after)
    requires h.query == [] || (!IsSpace(h.query[0]) && !IsSpace(h.query[|h.query| - 1]))
    requires h.query != [] || after == []
    ensures Search(h, before + (h.query + after)) == (h, None)
  {
    TrimPadded(before, h.query, after);
  }

  /** The query of the request for a page: `page`, `limit` 20, the category (empty
      for `all`) and the search. */
  function RequestParams(h: Home, page: int): QueryString.Pairs {
    [("page", IntToString(page)), ("limit", "20"),
     ("category", if h.category != "all" then h.category else ""), ("search", h.query)]
  }

  /** The server reads back the page number, the search, and an empty category
      exactly for `all`. */
  lemma RequestReadsBack(h: Home, page: int)
    ensures var ps := QueryString.Parse(QueryString.Serialize(RequestParams(h, page)));
            && ps.Some? && |ps.value| == 4
            && ParseInt(ps.value[0].1) == Some(page)
            && ps.value[3] == ("search", h.query)
            && (ps.value[2].1 == [] <==> h.category == "all" || h.category == [])
  {
    QueryString.RoundTrip(RequestParams(h, page));
    ParseIntOfIntToString(page);
  }

  /** `watchedEpisodes ? watchedEpisodes / totalEpisodes * 100 : 0`, with a
      missing count as 0. */
  function ProgressPercent(watched: real, total: real): (p: Ratio)
    ensures watched == 0.0 ==> p == Pct(0.0)
    ensures watched != 0.0 ==> p == Percent(watched, total)
  {
    if watched == 0.0 then Pct(0.0) else Percent(watched, total)
  }

  /** With a count of watched episodes between none and all of them the bar is
      within 0..100, full exactly when everything was watched; watched episodes
      of a drama with no episodes give no finite width. */
  lemma ProgressBounds(watched: real, total: real)
    ensures 0.0 <= watched <= total && total > 0.0 ==>
              && ProgressPercent(watched, total).Pct?
              && 0.0 <= ProgressPercent(watched, total).value <= 100.0
              && (ProgressPercent(watched, total).value == 100.0 <==> watched == total)
    ensures watched != 0.0 && total == 0.0 ==> ProgressPercent(watched, total) == NonFinite
  {
    if 0.0 <= watched <= total && total > 0.0 && watched != 0.0 {
      var v := ProgressPercent(watched, total).value;
      assert v * total == watched * 100.0;
      if v == 100.0 {
        assert 100.0 * total == watched * 100.0;
      }
    }
  }
}

=== FILE: Paging.dfy ===
/** The paged feed shared by the home and discover pages (home.js, discover.js):
    a page counter, a loading flag and a has-more flag, driven by filter changes,
    the infinite-scroll trigger and the responses of the loads.

    A load is split into its two halves: the synchronous start, which checks the
    guard and sets the loading flag, and the handling of the response, which
    arrives later as an event of its own. */
module Paging {
  import opened Base

  datatype Feed = Feed(page: int, isLoading: bool, hasMore: bool)

  /** The constructor's state: page 1, nothing loading, more to load. */
  const Initial: Feed := Feed(1, false, true)

  /** How a load ends: the fetch or the JSON decoding threw, the server answered
      without `success`, or it answered with its pagination. */
  datatype Response = Threw | Unsuccessful | Succeeded(page: int, pages: int)

  /** The start of `loadDramas` / `loadContent`: nothing while a load is running
      or after the last page; otherwise the current page is requested and the
      loading flag set. */
  function Load(f: Feed): (r: (Feed, Option<int>))
    ensures r.1.Some? <==> !f.isLoading && f.hasMore
    ensures r.1.Some? ==> r.1.value == f.page && r.0 == f.(isLoading := true)
    ensures r.1.None? ==> r.0 == f
  {
    if f.isLoading || !f.hasMore then (f, None) else (f.(isLoading := true), Some(f.page))
  }

  /** The end of a load: a successful answer decides whether more pages follow
      (`pagination.page < pagination.pages`), and the `finally` clears the loading
      flag whatever happened. */
  function Finish(f: Feed, resp: Response): (r: Feed)
    ensures !r.isLoading && r.page == f.page
    ensures resp.Succeeded? ==> (r.hasMore <==> resp.page < resp.pages)
    ensures !resp.Succeeded? ==> r.hasMore == f.hasMore
  {
    match resp
    case Succeeded(page, pages) => Feed(f.page, false, page < pages)
    case _ => f.(isLoading := false)
  }

  /** A new tab, category or search: back to page 1 with more to load, then a load
      (which the guard skips while an earlier load is still running). */
  function Reset(f: Feed): (r: (Feed, Option<int>))
    ensures r.0.page == 1 && r.0.hasMore
    ensures r.1.Some? <==> !f.isLoading
    ensures r.1.Some? ==> r.1.value == 1 && r.0.isLoading
    ensures r.1.None? ==> r.0.isLoading == f.isLoading
  {
    Load(f.(page := 1, hasMore := true))
  }

  /** The intersection observer: when the trigger is visible, nothing is loading
      and more pages exist, the page counter moves on and that page is loaded. */
  function Scroll(f: Feed, intersecting: bool): (r: (Feed, Option<int>))
    ensures r.1.Some? <==> intersecting && !f.isLoading && f.hasMore
    ensures r.1.Some? ==> r.1.value == f.page + 1 && r.0 == Feed(f.page + 1, true, true)
    ensures r.1.None? ==> r.0 == f
  {
    if intersecting && !f.isLoading && f.hasMore then Load(f.(page := f.page + 1)) else (f, None)
  }

  datatype Event = FilterChanged | Scrolled(intersecting: bool) | Responded(response: Response)

  function Step(f: Feed, e: Event): (Feed, Option<int>) {
    match e
    case FilterChanged => Reset(f)
    case Scrolled(intersecting) => Scroll(f, intersecting)
    case Responded(resp) => (Finish(f, resp), None)
  }

  /** The pages requested over a run of events, in order. */
  function Requests(f: Feed, evs: seq<Event>): seq<int>
    decreases |evs|
  {
    if evs == [] then []
    else
      var (f', req) := Step(f, evs[0]);
      (if req.Some? then [req.value] else []) + Requests(f', evs[1..])
  }

  /** The state after a run of events. */
  function After(f: Feed, evs: seq<Event>): Feed
    decreases |evs|
  {
    if evs == [] then f else After(Step(f, evs[0]).0, evs[1..])
  }

  function CountResponses(evs: seq<Event>): nat
    decreases |evs|
  {
    if evs == [] then 0 else (if evs[0].Responded? then 1 else 0) + CountResponses(evs[1..])
  }

  /** Every step that requests a page starts from an idle feed and leaves it
      loading, so a request is never issued while another is running. */
  lemma RequestOnlyWhenIdle(f: Feed, e: Event)
    ensures Step(f, e).1.Some? ==> !f.isLoading && Step(f, e).0.isLoading
    ensures Step(f, e).1.None? && !e.Responded? ==> Step(f, e).0.isLoading == f.isLoading
  {
  }

  /** Single flight: over any run, the requests are at most the responses, plus
      one if the feed starts idle. */
  lemma {:induction false} SingleFlight(f: Feed, evs: seq<Event>)
    ensures |Requests(f, evs)| <= CountResponses(evs) + (if f.isLoading then 0 else 1)
    decreases |evs|
  {
    if evs != [] {
      var (f', req) := Step(f, evs[0]);
      RequestOnlyWhenIdle(f, evs[0]);
      SingleFlight(f', evs[1..]);
    }
  }

  /** After the last page, scrolling alone never requests anything. */
  lemma {:induction false} NothingAfterLastPage(f: Feed, evs: seq<Event>)
    requires !f.hasMore
    requires forall i :: 0 <= i < |evs| ==> evs[i].Scrolled?
    ensures Requests(f, evs) == [] && After(f, evs) == f
    decreases |evs|
  {
    if evs != [] {
      NothingAfterLastPage(f, evs[1..]);
    }
  }

  /** A load that fails leaves the page counter moved on, so the next scroll asks
      for the page after it: the failed page is never retried. */
  lemma FailedPageSkipped(p: int)
    ensures Requests(Feed(p, false, true), [Scrolled(true), Responded(Threw), Scrolled(true)]) == [p + 1, p + 2]
  {
    var evs := [Scrolled(true), Responded(Threw), Scrolled(true)];
    assert evs[1..] == [Responded(Threw), Scrolled(true)] && evs[1..][1..] == [Scrolled(true)];
  }

  /** A filter change while a load is running resets the counter but its own load
      is skipped; once the old load answers, the next scroll asks for page 2, so
      page 1 of the new filter is never requested. If the old answer said it was
      the last page, nothing is requested at all. */
  lemma FilterDuringLoad(p: int, pages: int)
    ensures var evs := [FilterChanged, Responded(Succeeded(p, pages)), Scrolled(true)];
            Requests(Feed(p, true, true), evs) == (if p < pages then [2] else [])
  {
    var evs := [FilterChanged, Responded(Succeeded(p, pages)), Scrolled(true)];
    assert evs[1..] == [Responded(Succeeded(p, pages)), Scrolled(true)] && evs[1..][1..] == [Scrolled(true)];
    var f1 := Feed(1, true, true);
    assert Step(Feed(p, true, true), FilterChanged) == (f1, None);
    var f2 := Feed(1, false, p < pages);
    assert Step(f1, Responded(Succeeded(p, pages))) == (f2, None);
    assert Requests(f2, [Scrolled(true)]) == (if p < pages then [2] else []);
  }

  /** While the load of the current page runs, `n` rounds of an answer that
      leaves more pages followed by a visible trigger request the next `n` pages,
      in order and without gaps. */
  lemma {:induction false} ScrollingPagesThrough(f: Feed, n: nat, pages: int)
    requires !f.isLoading && f.page >= 1
    requires f.page + n < pages
    ensures Requests(f.(isLoading := true), Rounds(f.page, n, pages)) == seq(n, i => f.page + 1 + i)
    decreases n
  {
    if n > 0 {
      var evs := Rounds(f.page, n, pages);
      var g := f.(isLoading := true);
      assert evs[0] == Responded(Succeeded(f.page, pages));
      assert evs[1..][0] == Scrolled(true);
      var g2 := Feed(f.page + 1, false, true);
      ScrollingPagesThrough(g2, n - 1, pages);
      assert evs[1..][1..] == Rounds(f.page + 1, n - 1, pages);
      assert seq(n, i => f.page + 1 + i) == [f.page + 1] + seq(n - 1, i => g2.page + 1 + i);
    }
  }

  /** `n` rounds of: the running load for `page` answers, then the trigger shows. */
  function Rounds(page: int, n: nat, pages: int): (r: seq<Event>)
    ensures |r| == 2 * n
    decreases n
  {
    if n == 0 then [] else [Responded(Succeeded(page, pages)), Scrolled(true)] + Rounds(page + 1, n - 1, pages)
  }
}

=== FILE: Payment.dfy ===
/** The checkout logic of pages/payment.js: card-number and expiry input
    formatting, promo codes and the discount they give, the validation and
    crediting of `processPayment`, the form reset, and the status icons of the
    transaction history. The payment outcome (random in the page) is an input. */
module Payment {
  import opened Base

  // ---------------------------------------------------------------------------
  // Card number: `replace(/\D/g, '')`, `replace(/(.{4})/g, '$1 ')`, `trim()`,
  // `substring(0, 19)`

  /** `d.replace(/(.{4})/g, '$1 ')`: a space after every complete group of four. */
  function Spaced(d: string): string
    decreases |d|
  {
    if |d| < 4 then d else d[..4] + " " + Spaced(d[4..])
  }

  /** Groups of four separated by single spaces, nothing trailing. */
  function Grouped(d: string): string
    decreases |d|
  {
    if |d| <= 4 then d else d[..4] + " " + Grouped(d[4..])
  }

  function FormatCardNumber(input: string): string {
    Take(TrimEnd(Spaced(DigitsOf(input))), 19)
  }

  lemma {:induction false} TrimEndAppend(a: string, b: string)
    requires TrimEnd(b) != []
    ensures TrimEnd(a + b) == a + TrimEnd(b)
    decreases |b|
  {
    var ab := a + b;
    assert ab[|ab| - 1] == b[|b| - 1];
    if IsSpace(b[|b| - 1]) {
      assert ab[..|ab| - 1] == a + b[..|b| - 1];
      TrimEndAppend(a, b[..|b| - 1]);
    }
  }

  /** Trimming the spaced digits leaves them grouped. */
  lemma {:induction false} SpacedTrim(d: string)
    requires AllDigits(d)
    ensures TrimEnd(Spaced(d)) == Grouped(d)
    decreases |d|
  {
    if |d| == 4 {
      assert Spaced(d) == d + " ";
      assert (d + " ")[..4] == d;
    } else if |d| > 4 {
      SpacedTrim(d[4..]);
      GroupedShape(d[4..]);
      TrimEndAppend(d[..4] + " ", Spaced(d[4..]));
    }
  }

  /** The shape of grouped digits: a space exactly at every fifth position,
      digits elsewhere, never a trailing space, and one space per full group
      before the last. */
  lemma {:induction false} GroupedShape(d: string)
    requires AllDigits(d)
    ensures |Grouped(d)| == if d == [] then 0 else |d| + (|d| - 1) / 4
    ensures forall i :: 0 <= i < |Grouped(d)| ==> (Grouped(d)[i] == ' ' <==> i % 5 == 4)
    ensures forall i :: 0 <= i < |Grouped(d)| && i % 5 != 4 ==> IsDigit(Grouped(d)[i])
    ensures d != [] ==> Grouped(d) != [] && IsDigit(Grouped(d)[|Grouped(d)| - 1])
    decreases |d|
  {
    if |d| > 4 {
      var rest := d[4..];
      GroupedShape(rest);
      var g := Grouped(d);
      var n := |d|;
      assert (n - 1) / 4 == (n - 5) / 4 + 1;
      assert g == d[..4] + " " + Grouped(rest);
      forall i | 0 <= i < |g|
        ensures (g[i] == ' ' <==> i % 5 == 4) && (i % 5 != 4 ==> IsDigit(g[i]))
      {
        if i >= 5 {
          assert g[i] == Grouped(rest)[i - 5];
          assert (i - 5) % 5 == i % 5;
        } else if i < 4 {
          assert g[i] == d[i];
        }
      }
    }
  }

  /** Grouping a multiple of four digits and then more is grouping each part. */
  lemma {:induction false} GroupedAppend(a: string, b: string)
    requires |a| % 4 == 0 && |a| >= 4 && b != []
    ensures Grouped(a + b) == Grouped(a) + " " + Grouped(b)
    decreases |a|
  {
    var ab := a + b;
    if |a| == 4 {
      assert ab[..4] == a && ab[4..] == b;
    } else {
      assert ab[..4] == a[..4] && ab[4..] == a[4..] + b;
      GroupedAppend(a[4..], b);
    }
  }

  /** The formatted card number is the first sixteen digits of the input, grouped. */
  lemma CardIsGroupedDigits(input: string)
    ensures FormatCardNumber(input) == Grouped(Take(DigitsOf(input), 16))
  {
    var d := DigitsOf(input);
    SpacedTrim(d);
    GroupedShape(d);
    if |d| > 16 {
      var head := d[..16];
      GroupedShape(head);
      assert head + d[16..] == d;
      GroupedAppend(head, d[16..]);
      assert |Grouped(head)| == 19;
      assert Grouped(d)[..19] == Grouped(head);
    }
  }

  lemma {:induction false} DigitsOfGrouped(d: string)
    requires AllDigits(d)
    ensures DigitsOf(Grouped(d)) == d
    decreases |d|
  {
    if |d| > 4 {
      DigitsOfGrouped(d[4..]);
      DigitsOfAppend(d[..4] + " ", Grouped(d[4..]));
      DigitsOfAppend(d[..4], " ");
      assert DigitsOf(" ") == [];
      assert d[..4] + d[4..] == d;
    }
  }

  /** The card field holds digits and single spaces only, a space exactly at
      every fifth position, at most 19 characters and no trailing space. */
  lemma CardShape(input: string)
    ensures var r := FormatCardNumber(input);
            && |r| <= 19
            && (forall i :: 0 <= i < |r| ==> (r[i] == ' ' <==> i % 5 == 4))
            && (forall i :: 0 <= i < |r| && i % 5 != 4 ==> IsDigit(r[i]))
            && (r == [] || r[|r| - 1] != ' ')
  {
    CardIsGroupedDigits(input);
    GroupedShape(Take(DigitsOf(input), 16));
  }

  /** No digit is lost or invented among the first sixteen, and formatting a
      formatted number changes nothing. */
  lemma CardDigitsKept(input: string)
    ensures DigitsOf(FormatCardNumber(input)) == Take(DigitsOf(input), 16)
  {
    CardIsGroupedDigits(input);
    DigitsOfGrouped(Take(DigitsOf(input), 16));
  }

  lemma CardIdempotent(input: string)
    ensures FormatCardNumber(FormatCardNumber(input)) == FormatCardNumber(input)
  {
    var e := Take(DigitsOf(input), 16);
    CardIsGroupedDigits(input);
    CardDigitsKept(input);
    CardIsGroupedDigits(FormatCardNumber(input));
    assert Take(e, 16) == e;
  }

  // ---------------------------------------------------------------------------
  // Expiry: `MM/YY`

  /** `formatExpiry`: fewer than two digits are kept as they are; otherwise the
      first two, a slash, and at most two more. */
  function FormatExpiry(input: string): string {
    var v := DigitsOf(input);
    if |v| >= 2 then v[..2] + "/" + Take(v[2..], 2) else v
  }

  lemma ExpiryShape(input: string)
    ensures var v := DigitsOf(input);
            var r := FormatExpiry(input);
            && |r| <= 5
            && (|v| < 2 ==> r == v)
            && (|v| >= 2 ==> |r| >= 3 && r[2] == '/' && AllDigits(r[..2]) && AllDigits(r[3..]))
            && DigitsOf(r) == Take(v, 4)
  {
    var v := DigitsOf(input);
    if |v| >= 2 {
      var r := FormatExpiry(input);
      assert r[..2] == v[..2] && r[3..] == Take(v[2..], 2);
      DigitsOfAppend(v[..2] + "/", Take(v[2..], 2));
      DigitsOfAppend(v[..2], "/");
      assert DigitsOf("/") == [];
      assert Take(v, 4) == v[..2] + Take(v[2..], 2);
    }
  }

  lemma ExpiryIdempotent(input: string)
    ensures FormatExpiry(FormatExpiry(input)) == FormatExpiry(input)
  {
    ExpiryShape(input);
    var v := DigitsOf(input);
    var w := Take(v, 4);
    if |v| >= 2 {
      assert w[..2] == v[..2];
      assert Take(w[2..], 2) == Take(v[2..], 2);
    }
  }

  // ---------------------------------------------------------------------------
  // Promo codes and the discount

  const PromoCodes: map<string, int> := map["WELCOME10" := 10, "VIP20" := 20, "SAVE30" := 30, "COIN50" := 50]

  /** `toUpperCase` on one character: the ASCII letters, and the two non-ASCII
      letters whose upper case is a single ASCII letter. */
  function UpperChar(c: char): (u: char)
    ensures IsSpace(c) ==> u == c
  {
    if 'a' <= c <= 'z' then (c as int - 32) as char
    else if c == 'ı' then 'I'
    else if c == 'ſ' then 'S'
    else c
  }

  function ToUpper(s: string): (r: string)
    ensures |r| == |s| && forall i :: 0 <= i < |s| ==> r[i] == UpperChar(s[i])
  {
    seq(|s|, i requires 0 <= i < |s| => UpperChar(s[i]))
  }

  /** `input.value.trim().toUpperCase()`. */
  function NormalizeCode(input: string): string {
    ToUpper(Trim(input))
  }

  datatype PromoOutcome = EmptyCode | Applied | Invalid

  /** `applyPromoCode`: the new discount and what the user is told. An empty
      code and an unknown code leave the discount alone. */
  function ApplyPromoCode(discount: int, input: string): (r: (int, PromoOutcome))
    ensures r.1 == EmptyCode <==> NormalizeCode(input) == []
    ensures r.1 == Applied <==> NormalizeCode(input) in PromoCodes
    ensures r.1 == Applied ==> r.0 == PromoCodes[NormalizeCode(input)]
    ensures r.1 != Applied ==> r.0 == discount
  {
    var code := NormalizeCode(input);
    if code == [] then (discount, EmptyCode)
    else if code in PromoCodes then (PromoCodes[code], Applied)
    else (discount, Invalid)
  }

  lemma CodesHaveNoSpace(k: string)
    requires k in PromoCodes
    ensures k != [] && forall i :: 0 <= i < |k| ==> !IsSpace(k[i])
  {
  }

  /** Codes are recognised whatever the case of their letters and whatever white
      space surrounds them. */
  lemma PromoIgnoresCaseAndPadding(discount: int, before: string, s: string, after: string)
    requires AllSpace(before) && AllSpace(after)
    requires ToUpper(s) in PromoCodes
    ensures ApplyPromoCode(discount, before + (s + after)) == (PromoCodes[ToUpper(s)], Applied)
  {
    var k := ToUpper(s);
    CodesHaveNoSpace(k);
    assert k[0] == UpperChar(s[0]) && k[|s| - 1] == UpperChar(s[|s| - 1]);
    TrimPadded(before, s, after);
  }

  lemma BlankCodeKeepsDiscount(discount: int, input: string)
    requires AllSpace(input)
    ensures ApplyPromoCode(discount, input) == (discount, EmptyCode)
  {
    TrimPadded(input, [], []);
    assert input + ([] + []) == input;
  }

  lemma LowerCaseWelcome()
    ensures ApplyPromoCode(0, " welcome10 ") == (10, Applied)
  {
    assert " welcome10 " == " " + ("welcome10" + " ");
    assert ToUpper("welcome10") == "WELCOME10";
    PromoIgnoresCaseAndPadding(0, " ", "welcome10", " ");
  }

  /** `applyDiscount(price)`: the price less `discount` percent, or the price
      itself when there is no positive discount. */
  function ApplyDiscount(price: real, discount: int): (p: real)
    ensures discount <= 0 ==> p == price
    ensures discount > 0 ==> p * 100.0 == price * (100 - discount) as real
  {
    if discount > 0 then price * (1.0 - discount as real / 100.0) else price
  }

  /** Every promo discount lowers a positive price without making it free, and,
      prices being exact reals here, the original price can be recovered from
      the discounted one. */
  lemma PromoDiscountLowers(price: real, code: string)
    requires price > 0.0 && code in PromoCodes
    ensures 0.0 < ApplyDiscount(price, PromoCodes[code]) < price
    ensures ApplyDiscount(price, PromoCodes[code]) * 100.0 / (100 - PromoCodes[code]) as real == price
  {
    var d := PromoCodes[code];
    assert 10 <= d <= 50;
    var p := ApplyDiscount(price, d);
    assert p * 100.0 == price * (100 - d) as real;
  }

  // ---------------------------------------------------------------------------
  // Paying

  datatype Kind = Coins | Vip

  /** A selected package: `{ type, ...pkg }`. */
  datatype Package = Package(kind: Kind, name: string, price: real, coins: int, bonus: Option<int>)

  datatype TxKind = Purchase | Subscription

  datatype Transaction = Transaction(kind: TxKind, item: string, amount: real, status: string, paymentMethod: string)

  /** The page state `processPayment` reads and writes; `credited` is the total
      added to the coin balance shown. */
  datatype Page = Page(
    selected: Option<Package>,
    discount: int,
    paymentMethod: string,
    transactions: seq<Transaction>,
    credited: int,
    error: Option<string>)

  /** The form fields; None for a field missing from the page. */
  datatype Form = Form(cardNumber: Option<string>, cardName: Option<string>, expiry: Option<string>, cvv: Option<string>)

  predicate Filled(f: Option<string>) { f.Some? && f.value != [] }

  /** The validation: all four fields non-empty, the card number once its white
      space is removed. */
  predicate Complete(f: Form) {
    && Filled(if f.cardNumber.Some? then Some(WithoutSpaces(f.cardNumber.value)) else None)
    && Filled(f.cardName) && Filled(f.expiry) && Filled(f.cvv)
  }

  /** `selectedPackage.bonus || 0`. */
  function Bonus(p: Package): int {
    if p.bonus.Some? then p.bonus.value else 0
  }

  function Receipt(pkg: Package, discount: int, paymentMethod: string): (t: Transaction)
    ensures t.amount == ApplyDiscount(pkg.price, discount) && t.status == "success"
    ensures t.kind == Purchase <==> pkg.kind == Coins
  {
    Transaction(
      if pkg.kind == Coins then Purchase else Subscription,
      if pkg.kind == Coins then IntToString(pkg.coins) + "金币套餐" else pkg.name,
      ApplyDiscount(pkg.price, discount),
      "success",
      if paymentMethod == "card" then "信用卡" else paymentMethod)
  }

  /** `resetPaymentForm`: no package selected and no discount. */
  function ResetPaymentForm(p: Page): (r: Page)
    ensures r.selected.None? && r.discount == 0
    ensures r.(selected := p.selected, discount := p.discount) == p
  {
    p.(selected := None, discount := 0)
  }

  /** `processPayment` up to the form reset, with the payment outcome as input. */
  function ProcessPayment(p: Page, f: Form, succeeded: bool): (r: Page)
    ensures p.selected.None? ==> r == p.(error := Some("请先选择套餐"))
    ensures p.selected.Some? && !Complete(f) ==> r == p.(error := Some("请填写完整的支付信息"))
    ensures p.selected.Some? && Complete(f) && !succeeded ==> r == p.(error := Some("支付失败，请重试"))
  {
    if p.selected.None? then p.(error := Some("请先选择套餐"))
    else if !Complete(f) then p.(error := Some("请填写完整的支付信息"))
    else if !succeeded then p.(error := Some("支付失败，请重试"))
    else
      var pkg := p.selected.value;
      var tx := Receipt(pkg, p.discount, p.paymentMethod);
      var credit := if pkg.kind == Coins then pkg.coins + Bonus(pkg) else 0;
      ResetPaymentForm(p.(transactions := [tx] + p.transactions, credited := p.credited + credit))
  }

  predicate Paid(p: Page, f: Form, succeeded: bool) {
    p.selected.Some? && Complete(f) && succeeded
  }

  /** A payment goes through exactly when a package is selected, the form is
      complete and the charge succeeds. It then records one transaction for the
      discounted price in front of the history, credits coins and bonus for a
      coin package (nothing for a plan), and resets the form; otherwise only the
      error changes. */
  lemma PaymentEffect(p: Page, f: Form, succeeded: bool)
    ensures var r := ProcessPayment(p, f, succeeded);
            && (Paid(p, f, succeeded) <==> |r.transactions| == |p.transactions| + 1)
            && (!Paid(p, f, succeeded) ==> r.(error := p.error) == p && r.error.Some?)
            && (Paid(p, f, succeeded) ==>
                  var pkg := p.selected.value;
                  && r.transactions[1..] == p.transactions
                  && r.transactions[0].amount == ApplyDiscount(pkg.price, p.discount)
                  && r.credited == p.credited + (if pkg.kind == Coins then pkg.coins + Bonus(pkg) else 0)
                  && r.selected.None? && r.discount == 0)
  {
  }

  /** Any empty field (or a card number of white space only) blocks payment. */
  lemma BlankFieldRejected(p: Page, f: Form, succeeded: bool)
    requires p.selected.Some?
    requires f.cardName == Some([]) || f.cvv.None? || f.cardNumber == Some(" ")
    ensures ProcessPayment(p, f, succeeded).transactions == p.transactions
  {
    if f.cardNumber == Some(" ") {
      assert WithoutSpaces(" ") == [];
    }
  }

  // ---------------------------------------------------------------------------
  // What happens three seconds after a successful payment

  datatype TimerEffect = Throws | Goes(url: string) | Stays

  /** The timer as written: it reads `this.selectedPackage.type` when it fires,
      after `resetPaymentForm` has set the package to null. */
  function RedirectTimerAsWritten(p: Page): (e: TimerEffect)
    ensures p.selected.None? <==> e == Throws
  {
    match p.selected
    case None => Throws
    case Some(pkg) => if pkg.kind == Vip then Goes("/profile?tab=vip") else Stays
  }

  /** As written, after every successful payment the timer throws, so a VIP
      purchase never reaches the profile page. */
  lemma VipRedirectNeverFires(p: Page, f: Form)
    requires Paid(p, f, true)
    ensures RedirectTimerAsWritten(ProcessPayment(p, f, true)) == Throws
  {
  }

  /** The timer as evidently intended: decided on the package that was paid for. */
  function RedirectTimerFor(pkg: Package): (e: TimerEffect)
    ensures e == Goes("/profile?tab=vip") <==> pkg.kind == Vip
    ensures e != Throws
  {
    if pkg.kind == Vip then Goes("/profile?tab=vip") else Stays
  }

  /** `processPayment` with the package captured before the reset. */
  function ProcessPaymentFixed(p: Page, f: Form, succeeded: bool): (r: (Page, TimerEffect))
    ensures r.0 == ProcessPayment(p, f, succeeded)
  {
    (ProcessPayment(p, f, succeeded),
     if Paid(p, f, succeeded) then RedirectTimerFor(p.selected.value) else Stays)
  }

  /** With the package captured, a paid VIP plan leads to the profile's VIP tab,
      and a paid coin package or an unpaid attempt stays on the page. */
  lemma FixedTimerRedirectsVip(p: Page, f: Form, succeeded: bool)
    ensures var (_, e) := ProcessPaymentFixed(p, f, succeeded);
            e == Goes("/profile?tab=vip") <==> Paid(p, f, succeeded) && p.selected.value.kind == Vip
    ensures ProcessPaymentFixed(p, f, succeeded).1 != Throws
  {
  }

  // ---------------------------------------------------------------------------
  // Transaction status icons

  const StatusIcons: map<string, string> := map[
    "success" := "fa-check-circle", "pending" := "fa-clock",
    "failed" := "fa-exclamation-circle", "refunded" := "fa-undo"]

  /** `getStatusIcon(status)`: the icon of a known status and `fa-circle` for
      any other string, except a name the `icons` literal inherits from
      `Object.prototype`, which yields that inherited member instead. */
  function StatusIcon(status: string): (icon: PropValue)
    ensures status in StatusIcons ==> icon == Text(StatusIcons[status])
    ensures status !in StatusIcons && status !in InheritedNames ==> icon == Text("fa-circle")
    ensures status in InheritedNames <==> icon.InheritedMember?
  {
    LookupOr(StatusIcons, status, "fa-circle")
  }

  /** The icon tells a known status apart from every other status. */
  lemma IconIdentifiesStatus(a: string, b: string)
    requires a in StatusIcons && StatusIcon(a) == StatusIcon(b)
    ensures a == b
  {
  }
}

=== FILE: PlayerComponent.dfy ===
/** The episode logic of the stand-alone player component (components/player/
    Player.js): the drama and episode read from the query string, the episode
    shown, the sources and subtitle tracks handed to the player, the quality and
    speed menus' active entries, episode switching and the duration label.

    Episode ids are compared with `===`, so their JavaScript type matters: the id
    read from the query string is a string, the default is the number 1, and the
    ids of the episodes are whatever the drama data holds. */
module PlayerComponent {
  import opened Base
  import QueryString
  import VideoPlayer
  import Clock
  import Controls
  import PlayerPage

  /** A JavaScript episode id: a string or a number. */
  datatype Key = Str(s: string) | Num(n: int)

  /** The text `String(id)` gives, which is what a query parameter holds. */
  function KeyText(k: Key): string {
    match k
    case Str(s) => s
    case Num(n) => IntToString(n)
  }

  // ---------------------------------------------------------------------------
  // Fullscreen changes

  /** The component's `fullscreenchange` listener: the player's `isFullscreen`
      becomes whether the document now has a fullscreen element. */
  function OnFullscreenChange(s: VideoPlayer.State, hasFullscreenElement: bool): (s': VideoPlayer.State)
    ensures s'.isFullscreen == hasFullscreenElement
    ensures s'.(isFullscreen := s.isFullscreen) == s
  {
    s.(isFullscreen := hasFullscreenElement)
  }

  /** With this component hosting the player, leaving fullscreen with Esc is
      seen: the engine's flag, still set after the toggle into fullscreen and any
      other engine operations, is cleared by the document's change event, and
      the next toggle both requests fullscreen and sets the flag again, so flag
      and document agree. */
  lemma EscResyncsFullscreenFlag(s: VideoPlayer.State, v: VideoPlayer.View, sources: seq<VideoPlayer.Source>, ops: seq<VideoPlayer.Op>)
    requires forall i :: 0 <= i < |ops| ==> !ops[i].FullscreenOp?
    ensures var s1 := VideoPlayer.Exec(VideoPlayer.ToggleFullscreen(s, v, false).state, v, sources, ops);
            var s2 := OnFullscreenChange(s1, false);
            && s1.isFullscreen && !s2.isFullscreen
            && VideoPlayer.ToggleFullscreen(s2, v, false).calls == [VideoPlayer.RequestFullscreen]
            && VideoPlayer.ToggleFullscreen(s2, v, false).state.isFullscreen
  {
    VideoPlayer.EscLeavesFullscreenFlag(s, v, sources, ops);
  }

  // ---------------------------------------------------------------------------
  // Query parameters and the episode shown

  datatype UrlParams = UrlParams(dramaId: string, episodeId: Key)

  /** `parseUrlParams()`: `get('drama') || 'demo_001'` and `get('episode') || 1`;
      a present but empty value counts as missing. */
  function ParseUrlParams(search: string): (p: UrlParams)
    ensures p.dramaId != []
    ensures p.episodeId.Num? ==> p.episodeId == Num(1)
    ensures p.episodeId.Str? <==> (var v := PlayerPage.QueryParam(search, "episode"); v.Some? && v.value != [])
    ensures p.episodeId.Str? ==> PlayerPage.QueryParam(search, "episode") == Some(p.episodeId.s)
  {
    var drama := PlayerPage.QueryParam(search, "drama");
    var episode := PlayerPage.QueryParam(search, "episode");
    UrlParams(
      if drama.Some? && drama.value != [] then drama.value else "demo_001",
      if episode.Some? && episode.value != [] then Str(episode.value) else Num(1))
  }

  /** An empty query string asks for episode 1 of drama `demo_001`. */
  lemma DefaultParams()
    ensures ParseUrlParams("") == UrlParams("demo_001", Num(1))
  {
    QueryString.ParseNothing();
  }

  datatype Episode = Episode(id: Key, isVip: bool, videos: Option<seq<Video>>, videoUrl: string,
                             subtitles: Option<seq<Subtitle>>)

  /** The index of the first episode whose id is `===` to `k`. */
  function FindId(episodes: seq<Episode>, k: Key): (r: Option<nat>)
    ensures r.Some? ==> r.value < |episodes| && episodes[r.value].id == k
    ensures r.Some? ==> forall j :: 0 <= j < r.value ==> episodes[j].id != k
    ensures r.None? <==> forall j :: 0 <= j < |episodes| ==> episodes[j].id != k
    decreases |episodes|
  {
    if episodes == [] then None
    else if episodes[0].id == k then Some(0)
    else match FindId(episodes[1..], k)
      case None => None
      case Some(i) => Some(i + 1)
  }

  /** `episodes.find(e => e.id === episodeId) || episodes[0]`. */
  function CurrentEpisode(episodes: seq<Episode>, k: Key): (r: Option<Episode>)
    ensures r.None? <==> episodes == []
    ensures FindId(episodes, k).Some? ==> r == Some(episodes[FindId(episodes, k).value])
    ensures FindId(episodes, k).None? && episodes != [] ==> r == Some(episodes[0])
  {
    match FindId(episodes, k)
    case Some(i) => Some(episodes[i])
    case None => if episodes == [] then None else Some(episodes[0])
  }

  // ---------------------------------------------------------------------------
  // Sources and subtitles

  datatype Video = Video(url: string, quality: string, mimeType: Option<string>)

  /** `video.type || 'video/mp4'`. */
  function TypeOr(t: Option<string>): (r: string)
    ensures r != []
    ensures t.Some? && t.value != [] ==> r == t.value
  {
    if t.Some? && t.value != [] then t.value else "video/mp4"
  }

  function SourceOf(v: Video): VideoPlayer.Source {
    VideoPlayer.Source(v.url, v.quality, Some(TypeOr(v.mimeType)))
  }

  function SourcesOf(vs: seq<Video>): (r: seq<VideoPlayer.Source>)
    ensures |r| == |vs|
    ensures forall i :: 0 <= i < |vs| ==> r[i] == SourceOf(vs[i])
    decreases |vs|
  {
    if vs == [] then [] else [SourceOf(vs[0])] + SourcesOf(vs[1..])
  }

  /** `buildSources()`: one source per entry of `videos` when the list is there
      (an empty list is still there, and gives no source); otherwise the single
      720p source of `videoUrl`. */
  function BuildSources(e: Episode): (r: seq<VideoPlayer.Source>)
    ensures e.videos.None? ==> r == [VideoPlayer.Source(e.videoUrl, "720p", Some("video/mp4"))]
    ensures e.videos.Some? ==> |r| == |e.videos.value|
    ensures forall i :: 0 <= i < |r| ==> r[i].mimeType.Some? && r[i].mimeType.value != []
  {
    match e.videos
    case Some(vs) => SourcesOf(vs)
    case None => [VideoPlayer.Source(e.videoUrl, "720p", Some("video/mp4"))]
  }

  /** The first video with a quality. */
  function FirstVideo(vs: seq<Video>, q: string): (r: Option<Video>)
    ensures r.Some? ==> r.value in vs && r.value.quality == q
    ensures r.None? <==> forall i :: 0 <= i < |vs| ==> vs[i].quality != q
    decreases |vs|
  {
    if vs == [] then None
    else if vs[0].quality == q then Some(vs[0])
    else FirstVideo(vs[1..], q)
  }

  /** Switching the player to a quality picks the first video of that quality,
      with its own URL and type, and is a no-op exactly for a quality no video
      has. */
  lemma {:induction false} SourcesFollowVideos(vs: seq<Video>, q: string)
    ensures VideoPlayer.FindSource(SourcesOf(vs), q) ==
              match FirstVideo(vs, q) case None => None case Some(v) => Some(SourceOf(v))
    decreases |vs|
  {
    if vs != [] {
      SourcesFollowVideos(vs[1..], q);
      assert SourcesOf(vs)[1..] == SourcesOf(vs[1..]);
    }
  }

  /** A subtitle entry of the episode: `{url, language, label, default}`. */
  datatype Subtitle = Subtitle(url: string, language: string, labelText: string, isDefault: Option<bool>)

  /** A track as handed to the player: `{url, lang, label, default}`. The label is
      held as `labelText`, as in `Subtitle`, since `label` is a reserved word. */
  datatype Track = Track(url: string, lang: string, labelText: string, isDefault: bool)

  /** `sub.default || false`. */
  function TrackOf(s: Subtitle): (t: Track)
    ensures t.isDefault <==> s.isDefault == Some(true)
    ensures t.url == s.url && t.lang == s.language && t.labelText == s.labelText
  {
    Track(s.url, s.language, s.labelText, s.isDefault == Some(true))
  }

  function Tracks(subs: seq<Subtitle>): (r: seq<Track>)
    ensures |r| == |subs|
    decreases |subs|
  {
    if subs == [] then [] else [TrackOf(subs[0])] + Tracks(subs[1..])
  }

  /** `buildSubtitles()`: one track per subtitle, none without subtitles. */
  function BuildSubtitles(subs: Option<seq<Subtitle>>): (r: seq<Track>)
    ensures subs.None? ==> r == []
    ensures subs.Some? ==> |r| == |subs.value|
  {
    match subs
    case None => []
    case Some(ss) => Tracks(ss)
  }

  /** Tracks keep the subtitles' order: the tracks of two runs of subtitles are
      the tracks of the first run followed by those of the second. */
  lemma {:induction false} TracksAppend(a: seq<Subtitle>, b: seq<Subtitle>)
    ensures Tracks(a + b) == Tracks(a) + Tracks(b)
    decreases |a|
  {
    if a == [] {
      assert a + b == b;
    } else {
      TracksAppend(a[1..], b);
      assert (a + b)[1..] == a[1..] + b;
    }
  }

  /** Track `i` is subtitle `i`, and it is the default exactly when the subtitle
      says `default: true`. */
  lemma {:induction false} TrackAt(subs: seq<Subtitle>, i: nat)
    requires i < |subs|
    ensures Tracks(subs)[i] == TrackOf(subs[i])
    ensures Tracks(subs)[i].isDefault <==> subs[i].isDefault == Some(true)
    decreases i
  {
    if i > 0 {
      TrackAt(subs[1..], i - 1);
    }
  }

  // ---------------------------------------------------------------------------
  // Menus

  const Qualities: seq<string> := ["auto", "1080p", "720p", "480p", "360p"]
  const Speeds: seq<real> := [0.5, 0.75, 1.0, 1.25, 1.5, 2.0]

  /** The active flags of a menu: entry `i` is active iff it equals the current
      value. */
  function ActiveFlags<T(==)>(entries: seq<T>, current: T): (r: seq<bool>)
    ensures |r| == |entries|
    decreases |entries|
  {
    if entries == [] then [] else [entries[0] == current] + ActiveFlags(entries[1..], current)
  }

  lemma {:induction false} ActiveFlagAt<T>(entries: seq<T>, current: T, i: nat)
    requires i < |entries|
    ensures ActiveFlags(entries, current)[i] <==> entries[i] == current
    decreases i
  {
    if i > 0 {
      ActiveFlagAt(entries[1..], current, i - 1);
    }
  }

  /** Of distinct entries, exactly the one equal to the current value is active,
      and none is when the current value is not an entry. */
  lemma ExactlyOneActive<T>(entries: seq<T>, current: T)
    requires forall i, j :: 0 <= i < j < |entries| ==> entries[i] != entries[j]
    ensures current !in entries ==> forall i :: 0 <= i < |entries| ==> !ActiveFlags(entries, current)[i]
    ensures current in entries ==>
              exists i :: 0 <= i < |entries| && ActiveFlags(entries, current)[i]
                && forall j :: 0 <= j < |entries| && ActiveFlags(entries, current)[j] ==> j == i
  {
    forall i | 0 <= i < |entries| ensures ActiveFlags(entries, current)[i] <==> entries[i] == current {
      ActiveFlagAt(entries, current, i);
    }
    if current in entries {
      var i :| 0 <= i < |entries| && entries[i] == current;
      assert ActiveFlags(entries, current)[i];
    }
  }

  /** The quality menu marks exactly the current quality when it is one of the
      five entries, so a quality set from outside the list marks none. */
  lemma QualityMenuMarksCurrent(s: VideoPlayer.State)
    ensures s.currentQuality !in Qualities ==> forall i :: 0 <= i < 5 ==> !ActiveFlags(Qualities, s.currentQuality)[i]
    ensures s.currentQuality in Qualities ==>
              exists i :: 0 <= i < 5 && ActiveFlags(Qualities, s.currentQuality)[i]
                && forall j :: 0 <= j < 5 && ActiveFlags(Qualities, s.currentQuality)[j] ==> j == i
  {
    ExactlyOneActive(Qualities, s.currentQuality);
  }

  lemma SpeedMenuMarksCurrent(s: VideoPlayer.State)
    ensures s.playbackRate !in Speeds ==> forall i :: 0 <= i < 6 ==> !ActiveFlags(Speeds, s.playbackRate)[i]
    ensures s.playbackRate in Speeds ==>
              exists i :: 0 <= i < 6 && ActiveFlags(Speeds, s.playbackRate)[i]
                && forall j :: 0 <= j < 6 && ActiveFlags(Speeds, s.playbackRate)[j] ==> j == i
  {
    ExactlyOneActive(Speeds, s.playbackRate);
  }

  // ---------------------------------------------------------------------------
  // Switching episodes

  /** What `switchEpisode(id)` does: nothing for the current id; for an id no
      episode has, the `episode.isVip` read throws; a VIP episode for a non-VIP
      user prompts and leaves the URL alone; any other sets the query's `episode`
      and reloads. */
  datatype Switch = NoChange | Throws | VipPrompt | Reload(search: string)

  function SwitchEpisode(current: Key, episodes: seq<Episode>, search: string, target: Key, userIsVip: bool): (r: Switch)
    ensures r == NoChange <==> target == current
    ensures r == Throws <==> target != current && FindId(episodes, target).None?
    ensures r == VipPrompt <==> target != current && FindId(episodes, target).Some?
                                && episodes[FindId(episodes, target).value].isVip && !userIsVip
  {
    if target == current then NoChange
    else match FindId(episodes, target)
      case None => Throws
      case Some(i) =>
        if episodes[i].isVip && !userIsVip then VipPrompt
        else
          var ps := match QueryString.Parse(search) case Some(ps) => ps case None => [];
          Reload("?" + QueryString.Serialize(PlayerPage.QuerySet(ps, "episode", KeyText(target))))
  }

  /** After the reload, the page reads the id back as the string `String(id)`. */
  lemma ReloadReadsText(current: Key, episodes: seq<Episode>, search: string, target: Key, userIsVip: bool)
    requires SwitchEpisode(current, episodes, search, target, userIsVip).Reload?
    requires KeyText(target) != []
    ensures ParseUrlParams(SwitchEpisode(current, episodes, search, target, userIsVip).search).episodeId
              == Str(KeyText(target))
  {
    var ps := match QueryString.Parse(search) case Some(ps) => ps case None => [];
    QueryString.RoundTripSearch(PlayerPage.QuerySet(ps, "episode", KeyText(target)));
  }

  /** With numeric episode ids, switching to episode 2 reloads the page, the
      reloaded page reads the id as the string "2", no id is `===` to it, and the
      first episode is shown instead of the one switched to. */
  lemma NumericIdSwitchShowsFirst(episodes: seq<Episode>, search: string)
    requires |episodes| >= 2 && episodes[0].id == Num(1) && episodes[1].id == Num(2) && !episodes[1].isVip
    requires forall i :: 0 <= i < |episodes| ==> episodes[i].id.Num?
    ensures var r := SwitchEpisode(Num(1), episodes, search, Num(2), false);
            && r.Reload?
            && ParseUrlParams(r.search).episodeId == Str("2")
            && CurrentEpisode(episodes, ParseUrlParams(r.search).episodeId) == Some(episodes[0])
  {
    assert FindId(episodes, Num(2)) == Some(1);
    assert KeyText(Num(2)) == "2";
    ReloadReadsText(Num(1), episodes, search, Num(2), false);
  }

  /** The intended lookup: ids compared by their text, so the string read from
      the query finds the episode whatever the type of its id. */
  function FindIdText(episodes: seq<Episode>, text: string): (r: Option<nat>)
    ensures r.Some? ==> r.value < |episodes| && KeyText(episodes[r.value].id) == text
    ensures r.Some? ==> forall j :: 0 <= j < r.value ==> KeyText(episodes[j].id) != text
    ensures r.None? <==> forall j :: 0 <= j < |episodes| ==> KeyText(episodes[j].id) != text
    decreases |episodes|
  {
    if episodes == [] then None
    else if KeyText(episodes[0].id) == text then Some(0)
    else match FindIdText(episodes[1..], text)
      case None => None
      case Some(i) => Some(i + 1)
  }

  function CurrentEpisodeFixed(episodes: seq<Episode>, k: Key): (r: Option<Episode>)
    ensures r.None? <==> episodes == []
    ensures FindIdText(episodes, KeyText(k)).Some? ==> r == Some(episodes[FindIdText(episodes, KeyText(k)).value])
  {
    match FindIdText(episodes, KeyText(k))
    case Some(i) => Some(episodes[i])
    case None => if episodes == [] then None else Some(episodes[0])
  }

  /** With ids of distinct texts, the page reloaded by a switch shows the
      episode switched to. */
  lemma FixedSwitchShowsTarget(current: Key, episodes: seq<Episode>, search: string, target: Key, userIsVip: bool)
    requires SwitchEpisode(current, episodes, search, target, userIsVip).Reload?
    requires KeyText(target) != []
    requires forall i, j :: 0 <= i < j < |episodes| ==> KeyText(episodes[i].id) != KeyText(episodes[j].id)
    ensures var k := ParseUrlParams(SwitchEpisode(current, episodes, search, target, userIsVip).search).episodeId;
            CurrentEpisodeFixed(episodes, k) == Some(episodes[FindId(episodes, target).value])
  {
    ReloadReadsText(current, episodes, search, target, userIsVip);
    var i := FindId(episodes, target).value;
    var f := FindIdText(episodes, KeyText(target));
    assert f.Some? by { assert KeyText(episodes[i].id) == KeyText(target); }
    assert f.value == i;
  }

  // ---------------------------------------------------------------------------
  // Durations

  /** `formatDuration(seconds)`: "00:00" for a falsy value (0 or NaN), and the
      `h:mm:ss` / `mm:ss` rendering otherwise. */
  function FormatDuration(x: Number): string {
    if x == Finite(0.0) || x.NaN? then "00:00" else Clock.Format(x, true)
  }

  /** The guard changes nothing for 0, so the label agrees with the control
      bar's `formatTime` on every input. */
  lemma FormatDurationIsFormatTime(x: Number)
    ensures FormatDuration(x) == Controls.FormatTime(x)
  {
    if x == Finite(0.0) {
      assert (0.0 / 3600.0).Floor == 0;
      assert Clock.Rem(0.0, 3600.0) == 0.0;
      assert (0.0 / 60.0).Floor == 0;
      assert Clock.Rem(0.0, 60.0) == 0.0;
      assert NatToString(0) == "0";
    }
  }
}

=== FILE: PlayerPage.dfy ===
/** The episode logic of the player page (pages/player.js): which episode the
    query string asks for, which episode is shown, switching episodes through a
    reload with an updated query, the VIP lock and the next-episode prompt, the
    quality sources it hands to the player, and the duration labels. */
module PlayerPage {
  import opened Base
  import QueryString
  import Clock
  import VideoPlayer

  // ---------------------------------------------------------------------------
  // The query string, as `URLSearchParams` reads and writes it

  /** `params.get(name)`: the value of the first pair with that name. */
  function QueryGet(ps: QueryString.Pairs, name: string): (r: Option<string>)
    ensures r.None? <==> forall i :: 0 <= i < |ps| ==> ps[i].0 != name
    ensures r.Some? ==> exists i :: 0 <= i < |ps| && ps[i] == (name, r.value)
    decreases |ps|
  {
    if ps == [] then None
    else if ps[0].0 == name then Some(ps[0].1)
    else QueryGet(ps[1..], name)
  }

  /** The pairs without any named `name`. */
  function Without(ps: QueryString.Pairs, name: string): (r: QueryString.Pairs)
    ensures QueryGet(r, name).None?
    ensures forall k :: k != name ==> QueryGet(r, k) == QueryGet(ps, k)
    decreases |ps|
  {
    if ps == [] then []
    else if ps[0].0 == name then Without(ps[1..], name)
    else [ps[0]] + Without(ps[1..], name)
  }

  /** `params.set(name, value)`: the first pair with that name takes the value and
      the others go; without one, the pair is appended. */
  function QuerySet(ps: QueryString.Pairs, name: string, value: string): (r: QueryString.Pairs)
    ensures QueryGet(r, name) == Some(value)
    ensures forall k :: k != name ==> QueryGet(r, k) == QueryGet(ps, k)
    ensures QueryGet(ps, name).None? ==> r == ps + [(name, value)]
    decreases |ps|
  {
    if ps == [] then [(name, value)]
    else if ps[0].0 == name then [(name, value)] + Without(ps[1..], name)
    else [ps[0]] + QuerySet(ps[1..], name, value)
  }

  /** The value of a query parameter of `location.search`. A search whose escapes
      are not well-formed UTF-8 reads as having no parameters. */
  function QueryParam(search: string, name: string): Option<string> {
    match QueryString.Parse(search)
    case None => None
    case Some(ps) => QueryGet(ps, name)
  }

  // ---------------------------------------------------------------------------
  // Which episode

  /** `parseInt(getQueryParam('episode')) || 1`: a missing, unparsable or zero
      value means episode 1. */
  function EpisodeIdOf(search: string): (id: int)
    ensures id != 0
    ensures QueryParam(search, "episode").None? ==> id == 1
  {
    match QueryParam(search, "episode")
    case None => 1
    case Some(v) =>
      match ParseInt(v)
      case None => 1
      case Some(n) => if n == 0 then 1 else n
  }

  /** `params.id || getQueryParam('drama')`: the route's id wins when non-empty. */
  function DramaIdOf(routeId: Option<string>, search: string): (r: Option<string>)
    ensures routeId.Some? && routeId.value != [] ==> r == routeId
    ensures routeId.None? || routeId.value == [] ==> r == QueryParam(search, "drama")
  {
    if routeId.Some? && routeId.value != [] then routeId else QueryParam(search, "drama")
  }

  /** The episode number a written query parameter is read back as. */
  lemma EpisodeIdRoundTrip(ps: QueryString.Pairs, n: int)
    requires n != 0 && QueryGet(ps, "episode") == Some(IntToString(n))
    ensures EpisodeIdOf("?" + QueryString.Serialize(ps)) == n
  {
    QueryString.RoundTripSearch(ps);
    ParseIntOfIntToString(n);
  }

  /** A query without an `episode` parameter, or with `episode=0`, asks for
      episode 1. */
  lemma EpisodeIdDefaults(ps: QueryString.Pairs)
    requires QueryGet(ps, "episode").None? || QueryGet(ps, "episode") == Some("0")
    ensures EpisodeIdOf("?" + QueryString.Serialize(ps)) == 1
  {
    QueryString.RoundTripSearch(ps);
    ParseIntOfIntToString(0);
    assert IntToString(0) == "0";
  }

  /** An empty search asks for episode 1. */
  lemma EpisodeIdOfEmptySearch()
    ensures EpisodeIdOf("") == 1
  {
    QueryString.ParseNothing();
  }

  datatype Episode = Episode(number: int, title: string, duration: real, videoUrl: string, isVip: bool)

  /** The index of the first episode numbered `n`. */
  function FindNumber(episodes: seq<Episode>, n: int): (r: Option<nat>)
    ensures r.Some? ==> r.value < |episodes| && episodes[r.value].number == n
    ensures r.Some? ==> forall j :: 0 <= j < r.value ==> episodes[j].number != n
    ensures r.None? <==> forall j :: 0 <= j < |episodes| ==> episodes[j].number != n
    decreases |episodes|
  {
    if episodes == [] then None
    else if episodes[0].number == n then Some(0)
    else match FindNumber(episodes[1..], n)
      case None => None
      case Some(i) => Some(i + 1)
  }

  /** The episode shown: the first with the requested number, or the first
      episode when none has it (None only for a drama without episodes). */
  function CurrentEpisode(episodes: seq<Episode>, id: int): (r: Option<Episode>)
    ensures r.None? <==> episodes == []
    ensures FindNumber(episodes, id).Some? ==> r == Some(episodes[FindNumber(episodes, id).value])
    ensures FindNumber(episodes, id).None? && episodes != [] ==> r == Some(episodes[0])
  {
    match FindNumber(episodes, id)
    case Some(i) => Some(episodes[i])
    case None => if episodes == [] then None else Some(episodes[0])
  }

  /** The episode shown carries the requested number exactly when some episode
      does. */
  lemma ShownEpisodeMatches(episodes: seq<Episode>, id: int)
    requires episodes != []
    ensures (CurrentEpisode(episodes, id).value.number == id)
              <==> (exists j :: 0 <= j < |episodes| && episodes[j].number == id)
  {
  }

  // ---------------------------------------------------------------------------
  // Switching episodes

  datatype Switch = Stay | Reload(search: string)

  /** `switchEpisode(n)`: nothing for the current number or a number no episode
      has; otherwise the query's `episode` is set to `n`, the URL pushed and the
      page reloaded. */
  function SwitchEpisode(current: int, episodes: seq<Episode>, search: string, n: int): (r: Switch)
    ensures r == Stay <==> n == current || FindNumber(episodes, n).None?
  {
    if n == current || FindNumber(episodes, n).None? then Stay
    else
      var ps := match QueryString.Parse(search) case Some(ps) => ps case None => [];
      Reload("?" + QueryString.Serialize(QuerySet(ps, "episode", IntToString(n))))
  }

  /** After the reload the page asks for the episode switched to, and every other
      query parameter reads as before. */
  lemma SwitchReloadsTarget(current: int, episodes: seq<Episode>, search: string, n: int)
    requires SwitchEpisode(current, episodes, search, n).Reload?
    requires n != 0
    ensures var s := SwitchEpisode(current, episodes, search, n).search;
            EpisodeIdOf(s) == n
            && forall k :: k != "episode" && QueryString.Parse(search).Some? ==> QueryParam(s, k) == QueryParam(search, k)
  {
    var ps := match QueryString.Parse(search) case Some(ps) => ps case None => [];
    var ps' := QuerySet(ps, "episode", IntToString(n));
    EpisodeIdRoundTrip(ps', n);
    QueryString.RoundTripSearch(ps');
  }

  /** `episode.isVip && !this.isVIP()`. */
  predicate Locked(e: Episode, userIsVip: bool) { e.isVip && !userIsVip }

  datatype Click = VipPrompt | Switched(result: Switch)

  /** A click on an episode of the list: a locked episode prompts for VIP, any
      other switches to it. */
  function ClickEpisode(current: int, episodes: seq<Episode>, search: string, e: Episode, userIsVip: bool): (c: Click)
    ensures c == VipPrompt <==> Locked(e, userIsVip)
  {
    if Locked(e, userIsVip) then VipPrompt else Switched(SwitchEpisode(current, episodes, search, e.number))
  }

  /** What the `ended` handler offers: the episode at index `episodeId` (the next
      one when episodes are numbered from 1 in order), provided the guard
      `episodeId < episodes.length` holds, it exists and it is not locked. */
  function NextEpisodePrompt(episodes: seq<Episode>, episodeId: int, userIsVip: bool): (r: Option<Episode>)
    ensures r.Some? <==> 0 <= episodeId < |episodes| && !Locked(episodes[episodeId], userIsVip)
    ensures r.Some? ==> r.value == episodes[episodeId]
  {
    if 0 <= episodeId < |episodes| && !Locked(episodes[episodeId], userIsVip) then Some(episodes[episodeId])
    else None
  }

  predicate NumberedInOrder(episodes: seq<Episode>) {
    forall i :: 0 <= i < |episodes| ==> episodes[i].number == i + 1
  }

  /** For episodes numbered 1, 2, … the prompt offers episode `episodeId + 1`, no
      prompt follows the last episode, and accepting it reloads on that episode. */
  lemma NextEpisodeIsFollowing(episodes: seq<Episode>, episodeId: int, userIsVip: bool, search: string)
    requires NumberedInOrder(episodes) && 1 <= episodeId
    ensures episodeId >= |episodes| ==> NextEpisodePrompt(episodes, episodeId, userIsVip).None?
    ensures NextEpisodePrompt(episodes, episodeId, userIsVip).Some? ==>
              && NextEpisodePrompt(episodes, episodeId, userIsVip).value.number == episodeId + 1
              && EpisodeIdOf(SwitchEpisode(episodeId, episodes, search, episodeId + 1).search) == episodeId + 1
  {
    if NextEpisodePrompt(episodes, episodeId, userIsVip).Some? {
      assert episodes[episodeId].number == episodeId + 1;
      assert FindNumber(episodes, episodeId + 1).Some?;
      SwitchReloadsTarget(episodeId, episodes, search, episodeId + 1);
    }
  }

  // ---------------------------------------------------------------------------
  // Sources and durations

  /** `buildSources()`: the episode URL as 1080p, and the URL with its first
      `.mp4` replaced by `_720p.mp4` and `_480p.mp4` for the lower qualities. */
  function BuildSources(url: string): (r: seq<VideoPlayer.Source>)
    ensures |r| == 3 && r[0].url == url
    ensures r[0].quality == "1080p" && r[1].quality == "720p" && r[2].quality == "480p"
    ensures forall i :: 0 <= i < 3 ==> r[i].mimeType == Some("video/mp4")
  {
    [VideoPlayer.Source(url, "1080p", Some("video/mp4")),
     VideoPlayer.Source(ReplaceFirst(url, ".mp4", "_720p.mp4"), "720p", Some("video/mp4")),
     VideoPlayer.Source(ReplaceFirst(url, ".mp4", "_480p.mp4"), "480p", Some("video/mp4"))]
  }

  /** Every quality offered can be switched to, each to its own URL; any other
      quality is a no-op for the player. A URL without `.mp4` gives all three
      qualities the same file. */
  lemma SourcesServeQualities(url: string)
    ensures var r := BuildSources(url);
            && VideoPlayer.FindSource(r, "1080p") == Some(r[0])
            && VideoPlayer.FindSource(r, "720p") == Some(r[1])
            && VideoPlayer.FindSource(r, "480p") == Some(r[2])
            && VideoPlayer.FindSource(r, "360p").None?
            && VideoPlayer.FindSource(r, "auto").None?
    ensures IndexOf(url, ".mp4", 0).None? ==> forall i :: 0 <= i < 3 ==> BuildSources(url)[i].url == url
  {
    var r := BuildSources(url);
    assert r[1..] == [r[1], r[2]] && r[1..][1..] == [r[2]];
  }

  /** For a file name whose only dot starts its `.mp4` extension, the lower
      qualities are its `_720p` and `_480p` siblings. */
  lemma SourcesOfPlainName(stem: string)
    requires FreeOf(stem, '.')
    ensures BuildSources(stem + ".mp4")[1].url == stem + "_720p.mp4"
    ensures BuildSources(stem + ".mp4")[2].url == stem + "_480p.mp4"
  {
    var url := stem + ".mp4";
    assert OccursAt(url, ".mp4", |stem|) by {
      assert url[|stem|..|stem| + 4] == ".mp4";
    }
    forall j | 0 <= j < |stem| ensures !OccursAt(url, ".mp4", j) {
      assert url[j] == stem[j];
    }
    var k := IndexOf(url, ".mp4", 0);
    assert k == Some(|stem|);
    assert url[..|stem|] == stem && url[|stem| + 4..] == [];
  }

  /** `formatDuration(seconds)`: `h:mm:ss` from the first hour on, `m:ss` with
      unpadded minutes below it. */
  function FormatDuration(seconds: real): string {
    Clock.Format(Finite(seconds), false)
  }

  /** A non-negative duration reads back as its whole seconds; the seconds field
      is always two digits and the hours field appears exactly from an hour on. */
  lemma FormatDurationRoundTrip(seconds: real)
    requires seconds >= 0.0
    ensures Clock.ParseClock(FormatDuration(seconds)) == Some(seconds.Floor)
    ensures var ps := Split(FormatDuration(seconds), ':');
            |ps| == (if seconds >= 3600.0 then 3 else 2) && |ps[|ps| - 1]| == 2
  {
    Clock.FormatRoundTrip(seconds, false);
  }

  lemma FormatDurationExample()
    ensures FormatDuration(395.0) == "6:35"
  {
    assert (395.0 / 3600.0).Floor == 0;
    assert Clock.Rem(395.0, 3600.0) == 395.0;
    assert (395.0 / 60.0).Floor == 6;
    assert Clock.Rem(395.0, 60.0) == 35.0;
    assert NatToString(6) == "6";
    assert NatToString(35) == "35";
  }
}

=== FILE: QueryString.dfy ===
/** The `URLSearchParams` behaviour the router relies on: serialising a list of
    name/value pairs (`toString()`) and parsing a query string (the
    constructor), as the application/x-www-form-urlencoded rules of the WHATWG
    URL Standard (section 5) define them, over UTF-8 as the WHATWG Encoding
    Standard defines it. */
module QueryString {
  import opened Base

  type Byte = b: int | 0 <= b < 256

  // ---------------------------------------------------------------------------
  // UTF-8

  /** The UTF-8 bytes of one scalar value. */
  function Utf8Char(c: char): (bs: seq<Byte>)
    ensures 1 <= |bs| <= 4
    ensures (c as int < 0x80) <==> |bs| == 1
    ensures |bs| == 1 ==> bs[0] == c as int
    ensures |bs| > 1 ==> bs[0] >= 0xC2
  {
    var cp := c as int;
    if cp < 0x80 then [cp]
    else if cp < 0x800 then [0xC0 + cp / 64, 0x80 + cp % 64]
    else if cp < 0x10000 then [0xE0 + cp / 4096, 0x80 + (cp / 64) % 64, 0x80 + cp % 64]
    else [0xF0 + cp / 262144, 0x80 + (cp / 4096) % 64, 0x80 + (cp / 64) % 64, 0x80 + cp % 64]
  }

  function Utf8Encode(s: string): seq<Byte>
    decreases |s|
  {
    if s == [] then [] else Utf8Char(s[0]) + Utf8Encode(s[1..])
  }

  predicate Cont(b: Byte) { 0x80 <= b < 0xC0 }

  /** The scalar value at the front of `bs` and the number of bytes it takes, or
      None when the front is not a well-formed UTF-8 sequence (an unexpected
      continuation byte, a truncated sequence, an overlong form, a surrogate, or
      a value past U+10FFFF). */
  function DecodeOne(bs: seq<Byte>): (r: Option<(char, nat)>)
    requires |bs| > 0
    ensures r.Some? ==> 1 <= r.value.1 <= |bs|
  {
    var b0: int := bs[0];
    if b0 < 0x80 then Some((b0 as char, 1))
    else if 0xC2 <= b0 < 0xE0 && |bs| >= 2 && Cont(bs[1]) then
      var cp: int := (b0 - 0xC0) * 64 + (bs[1] as int - 0x80);
      Some((cp as char, 2))
    else if 0xE0 <= b0 < 0xF0 && |bs| >= 3 && Cont(bs[1]) && Cont(bs[2]) then
      var cp: int := (b0 - 0xE0) * 4096 + (bs[1] as int - 0x80) * 64 + (bs[2] as int - 0x80);
      if 0x800 <= cp && !(0xD800 <= cp < 0xE000) then Some((cp as char, 3)) else None
    else if 0xF0 <= b0 < 0xF5 && |bs| >= 4 && Cont(bs[1]) && Cont(bs[2]) && Cont(bs[3]) then
      var cp: int := (b0 - 0xF0) * 262144 + (bs[1] as int - 0x80) * 4096 + (bs[2] as int - 0x80) * 64
                     + (bs[3] as int - 0x80);
      if 0x10000 <= cp < 0x110000 then Some((cp as char, 4)) else None
    else None
  }

  /** UTF-8 decoding of a whole byte string; None when it is not well-formed. */
  function Utf8Decode(bs: seq<Byte>): Option<string>
    decreases |bs|
  {
    if bs == [] then Some([])
    else match DecodeOne(bs)
      case None => None
      case Some((c, n)) =>
        match Utf8Decode(bs[n..])
        case None => None
        case Some(rest) => Some([c] + rest)
  }

  lemma DecodeTwo(c: char, rest: seq<Byte>)
    requires 0x80 <= c as int < 0x800
    ensures DecodeOne(Utf8Char(c) + rest) == Some((c, 2))
  {
    var cp := c as int;
    var bs := Utf8Char(c) + rest;
    assert bs[0] == 0xC0 + cp / 64 && bs[1] == 0x80 + cp % 64;
    assert (cp / 64) * 64 + cp % 64 == cp;
  }

  lemma DecodeThree(c: char, rest: seq<Byte>)
    requires 0x800 <= c as int < 0x10000
    ensures DecodeOne(Utf8Char(c) + rest) == Some((c, 3))
  {
    var cp := c as int;
    var bs := Utf8Char(c) + rest;
    assert bs[0] == 0xE0 + cp / 4096 && bs[1] == 0x80 + (cp / 64) % 64 && bs[2] == 0x80 + cp % 64;
    assert (cp / 4096) * 64 + (cp / 64) % 64 == cp / 64;
    assert (cp / 64) * 64 + cp % 64 == cp;
  }

  lemma DecodeFour(c: char, rest: seq<Byte>)
    requires 0x10000 <= c as int
    ensures DecodeOne(Utf8Char(c) + rest) == Some((c, 4))
  {
    var cp := c as int;
    var bs := Utf8Char(c) + rest;
    assert bs[0] == 0xF0 + cp / 262144 && bs[1] == 0x80 + (cp / 4096) % 64;
    assert bs[2] == 0x80 + (cp / 64) % 64 && bs[3] == 0x80 + cp % 64;
    assert (cp / 262144) * 64 + (cp / 4096) % 64 == cp / 4096;
    assert (cp / 4096) * 64 + (cp / 64) % 64 == cp / 64;
    assert (cp / 64) * 64 + cp % 64 == cp;
  }

  /** The decoder reads back exactly the character the encoder wrote. */
  lemma DecodeOneOfChar(c: char, rest: seq<Byte>)
    ensures DecodeOne(Utf8Char(c) + rest) == Some((c, |Utf8Char(c)|))
  {
    var cp := c as int;
    if cp < 0x80 {
    } else if cp < 0x800 {
      DecodeTwo(c, rest);
    } else if cp < 0x10000 {
      DecodeThree(c, rest);
    } else {
      DecodeFour(c, rest);
    }
  }

  /** Decoding undoes encoding, for every string. */
  lemma {:induction false} Utf8RoundTrip(s: string)
    ensures Utf8Decode(Utf8Encode(s)) == Some(s)
    decreases |s|
  {
    if s != [] {
      var head := Utf8Char(s[0]);
      var bs := Utf8Encode(s);
      assert bs == head + Utf8Encode(s[1..]);
      DecodeOneOfChar(s[0], Utf8Encode(s[1..]));
      assert bs[|head|..] == Utf8Encode(s[1..]);
      Utf8RoundTrip(s[1..]);
      assert [s[0]] + s[1..] == s;
    }
  }

  // ---------------------------------------------------------------------------
  // Percent-encoding

  /** The bytes the urlencoded serializer leaves as they are: ASCII letters and
      digits and `*`, `-`, `.`, `_`. */
  predicate Unreserved(b: Byte) {
    (0x30 <= b <= 0x39) || (0x41 <= b <= 0x5A) || (0x61 <= b <= 0x7A)
    || b == 0x2A || b == 0x2D || b == 0x2E || b == 0x5F
  }

  function HexUpper(d: nat): (c: char)
    requires d < 16
    ensures IsHexDigit(c) && HexValue(c) == d
  {
    if d < 10 then (0x30 + d) as char else (0x41 + d - 10) as char
  }

  /** One byte as the serializer writes it: space as `+`, unreserved bytes as
      themselves, every other byte as `%` and two upper-case hex digits. */
  function EncodeByte(b: Byte): (s: string)
    ensures 1 <= |s| <= 3
    ensures forall i :: 0 <= i < |s| ==> s[i] as int < 0x80 && s[i] != '&' && s[i] != '=' && s[i] != '?'
  {
    if b == 0x20 then "+"
    else if Unreserved(b) then [b as char]
    else ['%', HexUpper(b / 16), HexUpper(b % 16)]
  }

  function EncodeBytes(bs: seq<Byte>): (s: string)
    ensures forall i :: 0 <= i < |s| ==> s[i] as int < 0x80 && s[i] != '&' && s[i] != '=' && s[i] != '?'
    decreases |bs|
  {
    if bs == [] then [] else EncodeByte(bs[0]) + EncodeBytes(bs[1..])
  }

  /** The serializer's encoding of one name or value. */
  function Encode(s: string): (r: string)
    ensures FreeOf(r, '&') && FreeOf(r, '=') && FreeOf(r, '?')
  {
    EncodeBytes(Utf8Encode(s))
  }

  /** No encoded name or value contains `#`: the serializer escapes it as `%23`. */
  lemma EncodeFreeOfHash(s: string)
    ensures FreeOf(Encode(s), '#')
  {
    EncodeBytesFreeOfHash(Utf8Encode(s));
  }

  lemma {:induction false} EncodeBytesFreeOfHash(bs: seq<Byte>)
    ensures FreeOf(EncodeBytes(bs), '#')
    decreases |bs|
  {
    if bs != [] {
      EncodeBytesFreeOfHash(bs[1..]);
      var head := EncodeByte(bs[0]);
      var rest := EncodeBytes(bs[1..]);
      assert forall k :: 0 <= k < |head| ==> head[k] != '#' by {
        if Unreserved(bs[0]) { assert bs[0] != 0x23; }
      }
      assert forall k :: 0 <= k < |rest| ==> (head + rest)[|head| + k] == rest[k];
    }
  }

  /** The bytes of a string all of whose characters are ASCII. */
  function AsciiBytes(s: string): (bs: seq<Byte>)
    requires forall i :: 0 <= i < |s| ==> s[i] as int < 0x80
    ensures |bs| == |s| && forall i :: 0 <= i < |s| ==> bs[i] == s[i] as int
  {
    seq(|s|, i requires 0 <= i < |s| => s[i] as int)
  }

  lemma {:induction false} Utf8OfAscii(s: string)
    requires forall i :: 0 <= i < |s| ==> s[i] as int < 0x80
    ensures Utf8Encode(s) == AsciiBytes(s)
    decreases |s|
  {
    if s != [] {
      Utf8OfAscii(s[1..]);
    }
  }

  /** The percent-decoder, with `+` read as a space in the same pass. The two
      steps of the standard (replace `+`, then percent-decode) commute, since `+`
      is never a hex digit. A `%` not followed by two hex digits stays as it is. */
  function PercentDecode(bs: seq<Byte>): seq<Byte>
    decreases |bs|
  {
    if bs == [] then []
    else if bs[0] == 0x2B then [0x20] + PercentDecode(bs[1..])
    else if bs[0] == 0x25 && |bs| >= 3 && IsHexDigit(bs[1] as char) && IsHexDigit(bs[2] as char) then
      [HexValue(bs[1] as char) * 16 + HexValue(bs[2] as char)] + PercentDecode(bs[3..])
    else [bs[0]] + PercentDecode(bs[1..])
  }

  lemma DecodeEncodedByte(b: Byte, rest: seq<Byte>)
    ensures PercentDecode(AsciiBytes(EncodeByte(b)) + rest) == [b] + PercentDecode(rest)
  {
    var e := AsciiBytes(EncodeByte(b)) + rest;
    if b == 0x20 {
      assert e[0] == 0x2B && e[1..] == rest;
    } else if Unreserved(b) {
      assert e[0] == b && e[1..] == rest;
    } else {
      assert e[0] == 0x25 && e[3..] == rest;
      assert e[1] as char == HexUpper(b / 16) && e[2] as char == HexUpper(b % 16);
    }
  }

  lemma {:induction false} AsciiBytesAppend(a: string, b: string)
    requires forall i :: 0 <= i < |a| ==> a[i] as int < 0x80
    requires forall i :: 0 <= i < |b| ==> b[i] as int < 0x80
    ensures AsciiBytes(a + b) == AsciiBytes(a) + AsciiBytes(b)
  {
  }

  lemma {:induction false} DecodeEncodedBytes(bs: seq<Byte>)
    ensures PercentDecode(AsciiBytes(EncodeBytes(bs))) == bs
    decreases |bs|
  {
    if bs != [] {
      AsciiBytesAppend(EncodeByte(bs[0]), EncodeBytes(bs[1..]));
      DecodeEncodedByte(bs[0], AsciiBytes(EncodeBytes(bs[1..])));
      DecodeEncodedBytes(bs[1..]);
      assert [bs[0]] + bs[1..] == bs;
    }
  }

  /** How the parser decodes one name or value: UTF-8 encode the string, decode
      `+` and percent-escapes, UTF-8 decode the bytes. */
  function DecodeComponent(s: string): Option<string> {
    Utf8Decode(PercentDecode(Utf8Encode(s)))
  }

  /** Decoding undoes the serializer's encoding, for every string. */
  lemma ComponentRoundTrip(s: string)
    ensures DecodeComponent(Encode(s)) == Some(s)
  {
    var e := Encode(s);
    Utf8OfAscii(e);
    DecodeEncodedBytes(Utf8Encode(s));
    Utf8RoundTrip(s);
  }

  // ---------------------------------------------------------------------------
  // Whole query strings

  type Pairs = seq<(string, string)>

  function PairText(p: (string, string)): (r: string)
    ensures FreeOf(r, '&') && r != [] && r[0] != '?'
  {
    Encode(p.0) + "=" + Encode(p.1)
  }

  function PairTexts(ps: Pairs): (r: seq<string>)
    ensures |r| == |ps| && forall i :: 0 <= i < |r| ==> r[i] == PairText(ps[i])
  {
    seq(|ps|, i requires 0 <= i < |ps| => PairText(ps[i]))
  }

  /** `new URLSearchParams(pairs).toString()`: encoded `name=value` pieces joined by `&`. */
  function Serialize(ps: Pairs): (r: string)
    ensures ps == [] <==> r == []
  {
    if ps == [] then [] else Join(PairTexts(ps), '&')
  }

  /** A serialised query never contains `#`, so it cannot start a fragment. */
  lemma SerializeFreeOfHash(ps: Pairs)
    ensures FreeOf(Serialize(ps), '#')
  {
    if ps != [] {
      var texts := PairTexts(ps);
      forall i | 0 <= i < |texts|
        ensures FreeOf(texts[i], '#')
      {
        var p := ps[i];
        EncodeFreeOfHash(p.0);
        EncodeFreeOfHash(p.1);
        assert texts[i] == Encode(p.0) + "=" + Encode(p.1);
      }
      JoinFreeOf(texts, '&', '#');
    }
  }

  /** The position of the first `c` in `s`. */
  function FirstIndex(s: string, c: char): (r: Option<nat>)
    ensures r.Some? ==> r.value < |s| && s[r.value] == c && FreeOf(s[..r.value], c)
    ensures r.None? ==> FreeOf(s, c)
    decreases |s|
  {
    if s == [] then None
    else if s[0] == c then Some(0)
    else match FirstIndex(s[1..], c)
      case None => None
      case Some(i) =>
        assert s[..i + 1] == [s[0]] + s[1..][..i];
        Some(i + 1)
  }

  /** A piece split at its first `=`; without one, the whole piece is the name
      and the value is empty. */
  function NameValue(piece: string): (string, string) {
    match FirstIndex(piece, '=')
    case None => (piece, [])
    case Some(i) => (piece[..i], piece[i + 1..])
  }

  function ParsePieces(pieces: seq<string>): Option<Pairs>
    decreases |pieces|
  {
    if pieces == [] then Some([])
    else if pieces[0] == [] then ParsePieces(pieces[1..])
    else
      var (n, v) := NameValue(pieces[0]);
      match (DecodeComponent(n), DecodeComponent(v), ParsePieces(pieces[1..]))
      case (Some(n'), Some(v'), Some(rest)) => Some([(n', v')] + rest)
      case _ => None
  }

  /** `new URLSearchParams(query)`: one leading `?` is dropped, the rest is split
      on `&`, empty pieces are skipped. None stands for a query whose escapes
      decode to bytes that are not well-formed UTF-8. */
  function Parse(query: string): Option<Pairs> {
    var q := if |query| > 0 && query[0] == '?' then query[1..] else query;
    ParsePieces(Split(q, '&'))
  }

  lemma NameValueOfPair(p: (string, string))
    ensures NameValue(PairText(p)) == (Encode(p.0), Encode(p.1))
  {
    var a := Encode(p.0);
    var t := PairText(p);
    assert t[|a|] == '=';
    assert t[..|a|] == a;
    assert t[|a| + 1..] == Encode(p.1);
  }

  lemma {:induction false} ParsePairTexts(ps: Pairs)
    ensures ParsePieces(PairTexts(ps)) == Some(ps)
    decreases |ps|
  {
    if ps != [] {
      var texts := PairTexts(ps);
      NameValueOfPair(ps[0]);
      ComponentRoundTrip(ps[0].0);
      ComponentRoundTrip(ps[0].1);
      assert texts[1..] == PairTexts(ps[1..]);
      ParsePairTexts(ps[1..]);
      assert [ps[0]] + ps[1..] == ps;
    }
  }

  lemma ParseNothing()
    ensures Parse([]) == Some([])
  {
    assert Split([], '&') == [[]];
    assert ParsePieces([[]]) == ParsePieces([]);
  }

  /** Parsing what the serializer wrote gives back the same pairs, in the same
      order. */
  lemma RoundTrip(ps: Pairs)
    ensures Parse(Serialize(ps)) == Some(ps)
  {
    if ps == [] {
      ParseNothing();
    } else {
      var q := Serialize(ps);
      SplitJoin(PairTexts(ps), '&');
      assert Split(q, '&') == PairTexts(ps);
      JoinStarts(PairTexts(ps), '&');
      assert q[0] == PairTexts(ps)[0][0];
      ParsePairTexts(ps);
    }
  }

  /** The same with the leading `?` a location's `search` carries. */
  lemma RoundTripSearch(ps: Pairs)
    ensures Parse("?" + Serialize(ps)) == Some(ps)
  {
    RoundTrip(ps);
    var q := Serialize(ps);
    assert ("?" + q)[1..] == q;
  }
}

=== FILE: Router.dfy ===
/** The single-page router of router.js: path normalisation, exact-then-dynamic
    route matching with `id` extraction, URL building for `navigate` and
    `replace`, the page title, the link filter, and the navigation highlight.
    The browser's location, history, page fetch and hooks are inputs. */
module Router {
  import opened Base
  import QueryString

  /** The routes table, path to page name. */
  const Routes: map<string, string> := map[
    "/" := "home", "/home" := "home", "/player" := "player", "/profile" := "profile",
    "/payment" := "payment", "/login" := "login", "/discover" := "discover", "/404" := "notfound"]

  /** The page name an exact path maps to (`this.routes[path]`). */
  function Lookup(path: string): (r: Option<string>)
    ensures r.Some? <==> path in Routes
    ensures r.Some? ==> r.value == Routes[path] && r.value != []
  {
    if path in Routes then Some(Routes[path]) else None
  }

  /** The root-path rule of `handleRoute`: `/` and `/index.html` are both the root. */
  function Normalize(path: string): (r: string)
    ensures path == "/" || path == "/index.html" ==> r == "/"
    ensures path != "/" && path != "/index.html" ==> r == path
  {
    if path == "/" || path == "/index.html" then "/" else path
  }

  lemma IndexIsHome()
    ensures Lookup(Normalize("/index.html")) == Some("home")
    ensures Lookup(Normalize("/")) == Some("home")
  {
  }

  // ---------------------------------------------------------------------------
  // Route parameters

  /** `this.params`: an object from names to strings, read by name; the order
      of its keys is not observed. */
  type Params = seq<(string, string)>

  function Get(ps: Params, key: string): (r: Option<string>)
    ensures r.None? <==> forall i :: 0 <= i < |ps| ==> ps[i].0 != key
    decreases |ps|
  {
    if ps == [] then None
    else if ps[0].0 == key then Some(ps[0].1)
    else Get(ps[1..], key)
  }

  predicate DistinctKeys(ps: Params) {
    forall i, j :: 0 <= i < j < |ps| ==> ps[i].0 != ps[j].0
  }

  /** `params[key] = value`: overwrites in place, or appends a new key. */
  function Set(ps: Params, key: string, value: string): (r: Params)
    ensures Get(r, key) == Some(value)
    ensures forall k :: k != key ==> Get(r, k) == Get(ps, k)
    ensures Get(ps, key).None? ==> r == ps + [(key, value)]
    decreases |ps|
  {
    if ps == [] then [(key, value)]
    else if ps[0].0 == key then [(key, value)] + ps[1..]
    else [ps[0]] + Set(ps[1..], key, value)
  }

  /** The value the last pair named `key` carries. */
  function LastValue(pairs: QueryString.Pairs, key: string): Option<string>
    decreases |pairs|
  {
    if pairs == [] then None
    else if pairs[|pairs| - 1].0 == key then Some(pairs[|pairs| - 1].1)
    else LastValue(pairs[..|pairs| - 1], key)
  }

  /** The loop of `handleRoute` that copies the parsed pairs into a fresh object:
      a repeated name keeps its first position and its last value. */
  function FromPairs(pairs: QueryString.Pairs): (r: Params)
    ensures forall k :: Get(r, k) == LastValue(pairs, k)
    decreases |pairs|
  {
    if pairs == [] then []
    else Set(FromPairs(pairs[..|pairs| - 1]), pairs[|pairs| - 1].0, pairs[|pairs| - 1].1)
  }

  /** With distinct names the object holds exactly the pairs, in order. */
  lemma {:induction false} FromDistinctPairs(pairs: QueryString.Pairs)
    requires DistinctKeys(pairs)
    ensures FromPairs(pairs) == pairs
    decreases |pairs|
  {
    if pairs != [] {
      var init := pairs[..|pairs| - 1];
      assert DistinctKeys(init);
      FromDistinctPairs(init);
      var last := pairs[|pairs| - 1];
      assert forall i :: 0 <= i < |init| ==> init[i].0 != last.0 by {
        forall i | 0 <= i < |init| ensures init[i].0 != last.0 {
          assert init[i] == pairs[i];
        }
      }
      assert Get(init, last.0).None?;
      assert init + [last] == pairs;
    }
  }

  // ---------------------------------------------------------------------------
  // Matching

  /** `path.split('/').filter(p => p)`: the non-empty segments. */
  function Segments(path: string): (r: seq<string>)
    ensures forall i :: 0 <= i < |r| ==> r[i] != [] && FreeOf(r[i], '/')
  {
    NonEmpty(Split(path, '/'))
  }

  function NonEmpty(xs: seq<string>): (r: seq<string>)
    ensures forall i :: 0 <= i < |r| ==> r[i] != [] && r[i] in xs
    ensures forall i :: 0 <= i < |xs| && xs[i] != [] ==> xs[i] in r
    decreases |xs|
  {
    if xs == [] then []
    else if xs[0] == [] then NonEmpty(xs[1..])
    else [xs[0]] + NonEmpty(xs[1..])
  }

  /** `matchRoute(path)`: an exact entry wins; otherwise a path of at least two
      segments whose first segment is a route gives that route's page and
      records the second segment as `id`; otherwise null. Params only change in
      the dynamic case. */
  function MatchRoute(path: string, ps: Params): (r: (Option<string>, Params))
    ensures Lookup(path).Some? ==> r == (Lookup(path), ps)
    ensures Lookup(path).None? && |Segments(path)| >= 2 && Lookup("/" + Segments(path)[0]).Some? ==>
              r == (Lookup("/" + Segments(path)[0]), Set(ps, "id", Segments(path)[1]))
    ensures r.0.None? ==> r.1 == ps
    ensures r.0.Some? ==> r.0.value in Routes.Values
  {
    if Lookup(path).Some? then (Lookup(path), ps)
    else
      var parts := Segments(path);
      if |parts| >= 2 && Lookup("/" + parts[0]).Some? then
        (Lookup("/" + parts[0]), Set(ps, "id", parts[1]))
      else (None, ps)
  }

  lemma SegmentsOfTwo(a: string, b: string)
    requires a != [] && b != [] && FreeOf(a, '/') && FreeOf(b, '/')
    ensures Segments("/" + a + "/" + b) == [a, b]
  {
    var pieces: seq<string> := [[], a, b];
    assert Join([b], '/') == b;
    assert pieces[1..] == [a, b] && [a, b][1..] == [b];
    assert Join([a, b], '/') == a + ['/'] + b;
    assert Join(pieces, '/') == [] + ['/'] + (a + ['/'] + b);
    assert "/" + a + "/" + b == Join(pieces, '/');
    SplitJoin(pieces, '/');
    assert NonEmpty(pieces) == NonEmpty([a, b]);
    assert NonEmpty([b]) == [b] + NonEmpty([]);
  }

  /** `/route/id` for a routed first segment gives that route's page with `id`
      set; for example `/player/123` gives `player` with id `123`. */
  lemma DynamicRoute(route: string, id: string, ps: Params)
    requires route != [] && id != [] && FreeOf(route, '/') && FreeOf(id, '/')
    requires Lookup("/" + route).Some? && Lookup("/" + route + "/" + id).None?
    ensures MatchRoute("/" + route + "/" + id, ps) == (Lookup("/" + route), Set(ps, "id", id))
    ensures Get(MatchRoute("/" + route + "/" + id, ps).1, "id") == Some(id)
  {
    SegmentsOfTwo(route, id);
  }

  lemma PlayerWithId()
    ensures MatchRoute("/player/123", []) == (Some("player"), [("id", "123")])
  {
    assert "/player/123" == "/" + "player" + "/" + "123";
    assert |"/player/123"| == 11;
    assert "/player/123" !in Routes;
    var route, id := "player", "123";
    assert "/" + route + "/" + id == "/player/123";
    assert Lookup("/" + route + "/" + id).None?;
    assert "/" + route == "/player";
    assert Lookup("/" + route).Some?;
    assert FreeOf("player", '/') && FreeOf("123", '/');
    DynamicRoute(route, id, []);
  }

  // ---------------------------------------------------------------------------
  // Locations and URLs

  /** `location.pathname` and `location.search` (empty, or `?` and the query). */
  datatype Location = Location(pathname: string, search: string)

  /** The location a same-origin absolute URL designates: the fragment from the
      first `#` on is dropped, then the path runs up to the first `?` and the
      rest is the search string. */
  function LocationOf(url: string): (l: Location)
    ensures FreeOf(url, '?') && FreeOf(url, '#') ==> l == Location(url, "")
  {
    var beforeHash := match QueryString.FirstIndex(url, '#') case None => url case Some(h) => url[..h];
    match QueryString.FirstIndex(beforeHash, '?')
    case None => Location(beforeHash, "")
    case Some(i) =>
      var query := beforeHash[i + 1..];
      Location(beforeHash[..i], if query == [] then "" else "?" + query)
  }

  /** A fragment never reaches the router: the location of `url#frag` is the
      location of `url`. */
  lemma FragmentIgnored(url: string, frag: string)
    requires FreeOf(url, '#')
    ensures LocationOf(url + "#" + frag) == LocationOf(url)
  {
    var full := url + "#" + frag;
    assert full[|url|] == '#';
    assert full[..|url|] == url;
    assert forall k :: 0 <= k < |url| ==> full[k] == url[k];
    FirstIndexAt(full, '#', |url|);
  }

  /** The first `c` sits at `i` when `s[i]` is `c` and nothing before it is. */
  lemma {:induction false} FirstIndexAt(s: string, c: char, i: nat)
    requires i < |s| && s[i] == c && FreeOf(s[..i], c)
    ensures QueryString.FirstIndex(s, c) == Some(i)
    decreases i
  {
    if i > 0 {
      assert s[0] == s[..i][0];
      assert s[1..][..i - 1] == s[..i][1..];
      FirstIndexAt(s[1..], c, i - 1);
    }
  }

  /** The URL `navigate` and `replace` build: the path alone when there are no
      params, otherwise `path?` and the serialised params. */
  function BuildUrl(path: string, params: QueryString.Pairs): (url: string)
    ensures params == [] ==> url == path
    ensures params != [] ==> url == path + "?" + QueryString.Serialize(params)
  {
    if params == [] then path else path + "?" + QueryString.Serialize(params)
  }

  lemma FirstQuestion(path: string, q: string)
    requires FreeOf(path, '?')
    ensures QueryString.FirstIndex(path + "?" + q, '?') == Some(|path|)
  {
    var url := path + "?" + q;
    assert url[|path|] == '?';
  }

  /** Navigating to a path free of `?` and `#` with params lands on that path,
      and reading the search string back gives exactly those params. */
  lemma BuildUrlRoundTrip(path: string, params: QueryString.Pairs)
    requires FreeOf(path, '?') && FreeOf(path, '#')
    ensures LocationOf(BuildUrl(path, params)).pathname == path
    ensures QueryString.Parse(LocationOf(BuildUrl(path, params)).search) == Some(params)
  {
    if params == [] {
      QueryString.ParseNothing();
    } else {
      var q := QueryString.Serialize(params);
      var url := path + "?" + q;
      QueryString.SerializeFreeOfHash(params);
      assert FreeOf(url, '#');
      FirstQuestion(path, q);
      assert url[|path| + 1..] == q;
      assert url[..|path|] == path;
      QueryString.RoundTripSearch(params);
    }
  }

  /** A path carrying a fragment swallows the params `navigate` appends: they
      land in the fragment, and the search string the router reads is empty. */
  lemma HashInPathDropsParams(path: string, frag: string, params: QueryString.Pairs)
    requires FreeOf(path, '?') && FreeOf(path, '#')
    ensures LocationOf(BuildUrl(path + "#" + frag, params)) == Location(path, "")
  {
    if params == [] {
      FragmentIgnored(path, frag);
    } else {
      var rest := frag + "?" + QueryString.Serialize(params);
      assert BuildUrl(path + "#" + frag, params) == path + "#" + rest;
      FragmentIgnored(path, rest);
    }
  }

  // ---------------------------------------------------------------------------
  // Handling a route

  /** What `handleRoute` decides before loading: the page (or `404`) and the
      params, fresh from the search string plus any dynamic `id`. A search whose
      escapes are not well-formed UTF-8 yields no params here. */
  datatype Request = Request(page: string, path: string, params: Params)

  function HandleRoute(loc: Location): (r: Request)
    ensures r.path == Normalize(loc.pathname)
  {
    var base := match QueryString.Parse(loc.search) case Some(ps) => FromPairs(ps) case None => [];
    var path := Normalize(loc.pathname);
    var (page, params) := MatchRoute(path, base);
    Request(if page.Some? then page.value else "404", path, params)
  }

  /** The title table of `updateTitle`. Page names come from the route table,
      so the table is never asked for a name it inherits. */
  const Titles: map<string, string> := map[
    "home" := "Global Shorts - 首页",
    "player" := "Global Shorts - 播放器",
    "profile" := "Global Shorts - 个人中心",
    "payment" := "Global Shorts - 充值中心",
    "login" := "Global Shorts - 登录",
    "discover" := "Global Shorts - 发现",
    "notfound" := "Global Shorts - 页面未找到"]

  /** `updateTitle(page)`. */
  function Title(page: string): (t: string)
    ensures page !in {"home", "player", "profile", "payment", "login", "discover", "notfound"} ==> t == "Global Shorts"
    ensures page == "home" ==> t == "Global Shorts - 首页"
    ensures page == "player" ==> t == "Global Shorts - 播放器"
    ensures page == "profile" ==> t == "Global Shorts - 个人中心"
    ensures page == "payment" ==> t == "Global Shorts - 充值中心"
    ensures page == "login" ==> t == "Global Shorts - 登录"
    ensures page == "discover" ==> t == "Global Shorts - 发现"
    ensures page == "notfound" ==> t == "Global Shorts - 页面未找到"
  {
    if page in Titles then Titles[page] else "Global Shorts"
  }

  /** An unmatched path loads the page named `404`, which has no title entry:
      only a visit to `/404` itself gets the not-found title. */
  lemma UnmatchedGetsPlainTitle(loc: Location)
    requires MatchRoute(Normalize(loc.pathname), HandleRoute(loc).params).0.None?
    ensures HandleRoute(loc).page == "404"
    ensures Title(HandleRoute(loc).page) == "Global Shorts"
  {
  }

  /** The router's own state. */
  datatype Router = Router(
    location: Location,
    params: Params,
    currentPage: Option<string>,
    title: string,
    history: seq<string>,
    errorShown: bool)

  /** How far `loadPage` gets once past the before-hook: the page HTML fetch
      fails; the previous page's `destroy()` throws once the new HTML and title
      are in; or the load goes through. A missing page script, a failed import
      and a throwing page constructor are all caught inside `loadPageScript` with
      a warning, so those loads go through as well. */
  datatype LoadOutcome = FetchFailed | OldPageDestroyThrew | Loaded

  /** `loadPage(page)` given the before-hook's verdict and the outcome of the
      fetches. A veto stops before anything changes; a failure shows the error
      toast and leaves the current page; the title is set once the HTML is in,
      and the current page once the old page is torn down. */
  function LoadPage(r: Router, req: Request, allowed: bool, outcome: LoadOutcome): (r': Router)
    ensures r'.params == req.params && r'.location == r.location && r'.history == r.history
    ensures !allowed ==> r' == r.(params := req.params)
    ensures allowed && outcome != Loaded ==> r'.currentPage == r.currentPage && r'.errorShown
    ensures allowed && outcome == FetchFailed ==> r'.title == r.title
    ensures allowed && outcome != FetchFailed ==> r'.title == Title(req.page)
    ensures allowed && outcome == Loaded ==> r'.currentPage == Some(req.page) && r'.errorShown == r.errorShown
  {
    var r1 := r.(params := req.params);
    if !allowed then r1
    else match outcome
      case FetchFailed => r1.(errorShown := true)
      case OldPageDestroyThrew => r1.(title := Title(req.page), errorShown := true)
      case Loaded => r1.(currentPage := Some(req.page), title := Title(req.page))
  }

  /** A load leaves no trace but its params when vetoed, so a vetoed load followed
      by an allowed one is the allowed one alone; a successful load of the page
      already shown changes nothing; and a failure only differs from success in
      keeping the page and showing the toast. */
  lemma LoadPageComposes(r: Router, vetoed: Request, req: Request, o1: LoadOutcome, o2: LoadOutcome)
    ensures LoadPage(LoadPage(r, vetoed, false, o1), req, true, o2) == LoadPage(r, req, true, o2)
    ensures var once := LoadPage(r, req, true, Loaded);
            LoadPage(once, req, true, Loaded) == once
    ensures LoadPage(r, req, true, OldPageDestroyThrew)
            == LoadPage(r, req, true, Loaded).(currentPage := r.currentPage, errorShown := true)
  {
  }

  /** `navigate(path, params)`: pushes the built URL and routes it. */
  function Navigate(r: Router, path: string, params: QueryString.Pairs): (res: (Router, Request))
    ensures res.0.history == r.history + [BuildUrl(path, params)]
    ensures res.0.location == LocationOf(BuildUrl(path, params))
    ensures res.1 == HandleRoute(res.0.location) && res.0.params == res.1.params
  {
    var url := BuildUrl(path, params);
    var loc := LocationOf(url);
    var req := HandleRoute(loc);
    (r.(location := loc, history := r.history + [url], params := req.params), req)
  }

  /** `replace(path, params)`: the same, overwriting the current history entry. */
  function Replace(r: Router, path: string, params: QueryString.Pairs): (res: (Router, Request))
    ensures |res.0.history| == (if r.history == [] then 1 else |r.history|)
    ensures res.0.history[|res.0.history| - 1] == BuildUrl(path, params)
    ensures res.0.history[..|res.0.history| - 1] == (if r.history == [] then [] else r.history[..|r.history| - 1])
    ensures res.0.location == LocationOf(BuildUrl(path, params))
    ensures res.1 == HandleRoute(res.0.location)
  {
    var url := BuildUrl(path, params);
    var loc := LocationOf(url);
    var req := HandleRoute(loc);
    var history := if r.history == [] then [url] else r.history[..|r.history| - 1] + [url];
    (r.(location := loc, history := history, params := req.params), req)
  }

  /** `navigate` and `replace` reach the same location and request; they differ
      only in the history. */
  lemma NavigateReplaceAgree(r: Router, path: string, params: QueryString.Pairs)
    ensures Navigate(r, path, params).1 == Replace(r, path, params).1
    ensures Navigate(r, path, params).0.(history := []) == Replace(r, path, params).0.(history := [])
  {
  }

  /** The link filter: links without an href, external (`http…`) links and
      anchors (`#…`) are left to the browser; every other link is routed. */
  function ShouldRoute(href: Option<string>): (b: bool)
    ensures b <==> href.Some? && href.value != [] && !StartsWith(href.value, "http") && !StartsWith(href.value, "#")
  {
    href.Some? && href.value != [] && !StartsWith(href.value, "http") && !StartsWith(href.value, "#")
  }

  lemma LinkFilterExamples()
    ensures !ShouldRoute(Some("https://example.com"))
    ensures !ShouldRoute(Some("#top"))
    ensures ShouldRoute(Some("/player?id=1"))
    ensures !ShouldRoute(Some(""))
  {
    assert "https://example.com"[..4] == "http";
    assert "#top"[..1] == "#";
    assert "/player?id=1"[..1] == "/";
    assert "/player?id=1"[..4][0] != "http"[0];
  }

  lemma PrefixDecides(p: string, rest: string, q: string)
    requires |q| <= |p|
    ensures StartsWith(p + rest, q) <==> StartsWith(p, q)
  {
    assert (p + rest)[..|q|] == p[..|q|];
  }

  /** The filter sorts hrefs by their first characters only, case-sensitively:
      every `http…` href (including a relative `httpdocs/…`) and every anchor is
      left to the browser, while local paths, protocol-relative `//host/…`,
      `mailto:`, `javascript:` and upper-case `HTTP…` links are all routed in the
      app; a link without an href is left alone. */
  lemma LinkClasses(rest: string)
    ensures !ShouldRoute(Some("http" + rest))
    ensures !ShouldRoute(Some("#" + rest))
    ensures !ShouldRoute(None)
    ensures ShouldRoute(Some("/" + rest))
    ensures ShouldRoute(Some("//" + rest))
    ensures ShouldRoute(Some("mailto:" + rest))
    ensures ShouldRoute(Some("javascript:" + rest))
    ensures ShouldRoute(Some("HTTP" + rest))
  {
    PrefixDecides("http", rest, "http");
    PrefixDecides("#", rest, "#");
    assert StartsWith("/" + rest, "#") <==> StartsWith("/", "#") by { PrefixDecides("/", rest, "#"); }
    assert !StartsWith("/" + rest, "http") by {
      if |"/" + rest| >= 4 { assert ("/" + rest)[0] != "http"[0]; }
    }
    PrefixDecides("//", rest, "#");
    assert !StartsWith("//" + rest, "http") by {
      if |"//" + rest| >= 4 { assert ("//" + rest)[0] != "http"[0]; }
    }
    PrefixDecides("mailto:", rest, "http");
    PrefixDecides("mailto:", rest, "#");
    PrefixDecides("javascript:", rest, "http");
    PrefixDecides("javascript:", rest, "#");
    PrefixDecides("HTTP", rest, "http");
    PrefixDecides("HTTP", rest, "#");
  }

  /** `updateActiveNav()`: `querySelector` marks only the first item whose
      `data-page` is the current page. */
  function ActiveNav(items: seq<string>, current: Option<string>): (r: seq<bool>)
    ensures |r| == |items|
    ensures forall i :: 0 <= i < |r| ==> (r[i] <==> current == Some(items[i]) && forall j :: 0 <= j < i ==> items[j] != items[i])
    decreases |items|
  {
    if items == [] then []
    else
      var rest := ActiveNav(items[1..], current);
      if current == Some(items[0]) then
        [true] + seq(|rest|, i requires 0 <= i < |rest| => false)
      else [false] + rest
  }
}

=== FILE: VideoPlayer.dfy ===
/** The playback engine of VideoPlayer.js: its state record, the mapping from
    native media events to state updates, the error-code taxonomy, and the
    command surface. Commands act on the media element (they assign its
    properties or call its methods); the state record follows only when the
    element reports back through an event. The element itself is therefore
    an input: a `Snapshot` of what it reports when an event fires. */
module VideoPlayer {
  import opened Base
  import EventBus

  datatype MediaError = MediaError(code: int)

  /** `this.state`. */
  datatype State = State(
    isPlaying: bool,
    currentTime: real,
    duration: real,
    volume: real,
    muted: bool,
    playbackRate: real,
    currentQuality: string,
    currentSubtitle: Option<string>,
    buffered: real,
    isFullscreen: bool,
    isPiP: bool,
    isAudioMode: bool,
    isLoading: bool,
    error: Option<MediaError>)

  datatype Source = Source(url: string, quality: string, mimeType: Option<string>)

  /** The constructor options the state and the commands depend on. */
  datatype Options = Options(
    muted: bool,
    defaultPlaybackRate: real,
    defaultQuality: string,
    defaultSubtitle: Option<string>,
    sources: seq<Source>)

  /** The defaults the constructor merges the caller's options over. */
  const DefaultOptions: Options := Options(false, 1.0, "auto", None, [])

  /** The state built by the constructor: nothing known yet, loading. */
  function Initial(o: Options): State {
    State(false, 0.0, 0.0, 1.0, o.muted, o.defaultPlaybackRate, o.defaultQuality,
          o.defaultSubtitle, 0.0, false, false, false, true, None)
  }

  /** What the native element reports at the moment one of its events fires. */
  datatype Snapshot = Snapshot(
    paused: bool,
    currentTime: real,
    duration: real,
    volume: real,
    muted: bool,
    playbackRate: real,
    bufferedEnds: seq<real>,
    error: Option<MediaError>)

  /** The DOM decisions the engine takes: spinner, big play button, the
      container's `playing` class, and the error overlay with its text. */
  datatype View = View(
    spinner: bool,
    bigPlayHidden: bool,
    playingClass: bool,
    errorShown: bool,
    errorText: string)

  const InitialView: View := View(false, false, false, false, "")

  datatype Payload =
    | StateSnapshot(state: State)
    | ErrorInfo(error: Option<MediaError>, message: string)
    | QualityName(quality: string)

  /** One `this.trigger(event, data)`. */
  datatype Emission = Emission(event: string, payload: Payload)

  /** Property assignments and method calls on the media element and the page. */
  datatype Call =
    | SetCurrentTime(t: real)
    | SetVolume(v: real)
    | SetMuted(m: bool)
    | SetRate(r: real)
    | SetSrc(url: string)
    | Load
    | Play
    | Pause
    | RequestFullscreen
    | ExitFullscreen
    | RequestPictureInPicture
    | ExitPictureInPicture

  /** The effect of one engine operation. */
  datatype Reaction = Reaction(state: State, view: View, calls: seq<Call>, emitted: seq<Emission>)

  /** The element events the constructor forwards to `handleEvent`. */
  const ForwardedEvents: seq<string> := [
    "loadstart", "loadedmetadata", "loadeddata", "canplay", "canplaythrough", "play",
    "playing", "pause", "ended", "waiting", "stalled", "seeking", "seeked", "timeupdate",
    "volumechange", "ratechange", "durationchange", "progress"]

  /** The names `handleEvent`'s switch acts on; every other name only re-triggers. */
  const MappedEvents: set<string> := {
    "loadedmetadata", "timeupdate", "progress", "waiting", "canplay", "playing", "play",
    "pause", "volumechange", "ratechange"}

  // ---------------------------------------------------------------------------
  // Native events

  /** `handleEvent(name)`: the update table of the switch, then `trigger(name, state)`
      with the updated state as payload, for mapped and unmapped names alike. */
  function HandleEvent(s: State, v: View, name: string, el: Snapshot): (r: Reaction)
    ensures r.emitted == [Emission(name, StateSnapshot(r.state))]
    ensures r.calls == []
    ensures name == "loadedmetadata" ==> r.state == s.(duration := el.duration, isLoading := false)
    ensures name == "timeupdate" ==> r.state == s.(currentTime := el.currentTime)
    ensures name == "progress" && |el.bufferedEnds| > 0 ==>
              r.state == s.(buffered := el.bufferedEnds[|el.bufferedEnds| - 1])
    ensures name == "progress" && |el.bufferedEnds| == 0 ==> r.state == s
    ensures name == "play" ==> r.state == s.(isPlaying := true)
    ensures name == "pause" ==> r.state == s.(isPlaying := false)
    ensures name == "volumechange" ==> r.state == s.(volume := el.volume, muted := el.muted)
    ensures name == "ratechange" ==> r.state == s.(playbackRate := el.playbackRate)
    ensures name !in MappedEvents ==> r.state == s && r.view == v
    ensures name == "waiting" ==> r.view == v.(spinner := true) && r.state == s
    ensures name == "canplay" || name == "playing" ==> r.view == v.(spinner := false) && r.state == s
    ensures r.state.currentQuality == s.currentQuality && r.state.isAudioMode == s.isAudioMode
    ensures r.state.error == s.error
  {
    var (s', v') :=
      if name == "loadedmetadata" then (s.(duration := el.duration, isLoading := false), v)
      else if name == "timeupdate" then (s.(currentTime := el.currentTime), v)
      else if name == "progress" then
        (if |el.bufferedEnds| > 0 then s.(buffered := el.bufferedEnds[|el.bufferedEnds| - 1]) else s, v)
      else if name == "waiting" then (s, v.(spinner := true))
      else if name == "canplay" || name == "playing" then (s, v.(spinner := false))
      else if name == "play" then (s.(isPlaying := true), v.(bigPlayHidden := true, playingClass := true))
      else if name == "pause" then (s.(isPlaying := false), v.(bigPlayHidden := false, playingClass := false))
      else if name == "volumechange" then (s.(volume := el.volume, muted := el.muted), v)
      else if name == "ratechange" then (s.(playbackRate := el.playbackRate), v)
      else (s, v);
    Reaction(s', v', [], [Emission(name, StateSnapshot(s'))])
  }

  const DefaultErrorMessage: string := "视频加载失败"

  /** The message `handleError` shows for an element error (null when absent). */
  function ErrorMessage(e: Option<MediaError>): (m: string)
    ensures (e.Some? && 1 <= e.value.code <= 4) <==> m != DefaultErrorMessage
  {
    if e.None? then DefaultErrorMessage
    else if e.value.code == 1 then "视频加载被中止"
    else if e.value.code == 2 then "网络错误导致视频下载失败"
    else if e.value.code == 3 then "视频解码失败"
    else if e.value.code == 4 then "视频格式不支持"
    else DefaultErrorMessage
  }

  /** The four native codes (aborted, network, decode, unsupported format) get
      four different messages. */
  lemma ErrorMessagesDistinct(a: int, b: int)
    requires 1 <= a <= 4 && 1 <= b <= 4 && a != b
    ensures ErrorMessage(Some(MediaError(a))) != ErrorMessage(Some(MediaError(b)))
  {
  }

  /** `handleError()`: records the element's error (possibly null), stops loading,
      shows the overlay and triggers `error` with the error and its message. */
  function HandleError(s: State, v: View, err: Option<MediaError>): (r: Reaction)
    ensures r.state.error == err && !r.state.isLoading
    ensures r.state.(error := s.error, isLoading := s.isLoading) == s
    ensures r.view.errorShown && r.view.errorText == ErrorMessage(err)
    ensures r.emitted == [Emission("error", ErrorInfo(err, ErrorMessage(err)))]
    ensures r.calls == []
  {
    var m := ErrorMessage(err);
    Reaction(s.(error := err, isLoading := false), v.(errorShown := true, errorText := m), [], [Emission("error", ErrorInfo(err, m))])
  }

  // ---------------------------------------------------------------------------
  // Commands

  /** `play()`: asks the element to play; `isPlaying` changes only on its `play` event. */
  function PlayCommand(s: State, v: View): (r: Reaction)
    ensures r.state == s && r.calls == [Play] && r.emitted == []
  {
    Reaction(s, v, [Play], [])
  }

  /** A rejected `play()` promise runs `handleError`, which reads the element's
      error rather than the rejection reason. */
  function PlayRejected(s: State, v: View, el: Snapshot): (r: Reaction)
    ensures r.state.error == el.error && !r.state.isLoading
    ensures r.emitted == [Emission("error", ErrorInfo(el.error, ErrorMessage(el.error)))]
  {
    HandleError(s, v, el.error)
  }

  function PauseCommand(s: State, v: View): (r: Reaction)
    ensures r.state == s && r.calls == [Pause] && r.emitted == []
  {
    Reaction(s, v, [Pause], [])
  }

  /** `togglePlay()`: decided by the element's `paused` flag, not by the state. */
  function TogglePlay(s: State, v: View, elementPaused: bool): (r: Reaction)
    ensures r.state == s
    ensures elementPaused <==> r.calls == [Play]
    ensures !elementPaused <==> r.calls == [Pause]
  {
    if elementPaused then PlayCommand(s, v) else PauseCommand(s, v)
  }

  /** `seek(t)`: moves the element to `max(0, min(t, state.duration))`. */
  function Seek(s: State, v: View, t: real): (r: Reaction)
    ensures r.state == s && r.view == v && r.emitted == []
    ensures |r.calls| == 1 && r.calls[0].SetCurrentTime?
    ensures s.duration >= 0.0 ==> 0.0 <= r.calls[0].t <= s.duration
    ensures 0.0 <= t <= s.duration ==> r.calls[0].t == t
    ensures t < 0.0 ==> r.calls[0].t == 0.0
    ensures t > s.duration >= 0.0 ==> r.calls[0].t == s.duration
  {
    Reaction(s, v, [SetCurrentTime(Max(0.0, Min(t, s.duration)))], [])
  }

  /** Before `loadedmetadata` the duration is still 0, so every seek lands at 0. */
  lemma SeekBeforeMetadata(o: Options, v: View, t: real)
    ensures Seek(Initial(o), v, t).calls == [SetCurrentTime(0.0)]
  {
  }

  /** `setVolume(x)`: assigns `max(0, min(1, x))` to the element. */
  function SetVolumeCommand(s: State, v: View, x: real): (r: Reaction)
    ensures r.state == s && r.emitted == []
    ensures |r.calls| == 1 && r.calls[0].SetVolume?
    ensures 0.0 <= r.calls[0].v <= 1.0
    ensures 0.0 <= x <= 1.0 ==> r.calls[0].v == x
    ensures x < 0.0 ==> r.calls[0].v == 0.0
    ensures x > 1.0 ==> r.calls[0].v == 1.0
  {
    Reaction(s, v, [SetVolume(Clamp(x, 0.0, 1.0))], [])
  }

  /** `toggleMute()`: flips the element's own `muted` flag and nothing else. */
  function ToggleMute(s: State, v: View, elementMuted: bool): (r: Reaction)
    ensures r.state == s && r.view == v && r.emitted == []
    ensures r.calls == [SetMuted(!elementMuted)]
  {
    Reaction(s, v, [SetMuted(!elementMuted)], [])
  }

  /** `setPlaybackRate(rate)`: assigned as given, with no range check. */
  function SetPlaybackRate(s: State, v: View, rate: real): (r: Reaction)
    ensures r.state == s && r.calls == [SetRate(rate)]
  {
    Reaction(s, v, [SetRate(rate)], [])
  }

  /** `sources.find(s => s.quality === q)`. */
  function FindSource(sources: seq<Source>, q: string): (r: Option<Source>)
    ensures r.Some? ==> r.value in sources && r.value.quality == q
    ensures r.None? <==> forall i :: 0 <= i < |sources| ==> sources[i].quality != q
    ensures r.Some? ==> exists i :: 0 <= i < |sources| && sources[i] == r.value
                          && forall j :: 0 <= j < i ==> sources[j].quality != q
  {
    if sources == [] then None
    else if sources[0].quality == q then Some(sources[0])
    else
      var r := FindSource(sources[1..], q);
      assert forall i :: 1 <= i < |sources| ==> sources[i] == sources[1..][i - 1];
      if r.Some? then
        var i :| 0 <= i < |sources[1..]| && sources[1..][i] == r.value
                 && forall j :: 0 <= j < i ==> sources[1..][j].quality != q;
        assert sources[i + 1] == r.value;
        r
      else r
  }

  /** `setQuality(q)`: with no source of quality `q`, nothing at all happens. With
      one, the first such source is loaded, `play()` is re-issued only when the
      state says playing, and `qualitychange` is triggered with `q`. The position
      is not restored and an earlier reload is not cancelled. */
  function SetQuality(s: State, v: View, sources: seq<Source>, q: string): (r: Reaction)
    ensures FindSource(sources, q).None? ==> r == Reaction(s, v, [], [])
    ensures FindSource(sources, q).Some? ==>
              && r.state == s.(currentQuality := q)
              && r.calls == [SetSrc(FindSource(sources, q).value.url), Load]
                            + (if s.isPlaying then [Play] else [])
              && r.emitted == [Emission("qualitychange", QualityName(q))]
    ensures forall i :: 0 <= i < |r.calls| ==> !r.calls[i].SetCurrentTime?
    ensures r.state.isPlaying == s.isPlaying
  {
    match FindSource(sources, q)
    case None => Reaction(s, v, [], [])
    case Some(src) =>
      Reaction(s.(currentQuality := q), v,
               [SetSrc(src.url), Load] + (if s.isPlaying then [Play] else []),
               [Emission("qualitychange", QualityName(q))])
  }

  /** `toggleFullscreen()`: decided by whether an element is already fullscreen;
      the flag is set optimistically. */
  function ToggleFullscreen(s: State, v: View, fullscreenActive: bool): (r: Reaction)
    ensures r.state == s.(isFullscreen := !fullscreenActive)
    ensures r.calls == (if fullscreenActive then [ExitFullscreen] else [RequestFullscreen])
  {
    if !fullscreenActive then Reaction(s.(isFullscreen := true), v, [RequestFullscreen], [])
    else Reaction(s.(isFullscreen := false), v, [ExitFullscreen], [])
  }

  /** `togglePictureInPicture()`: the flag changes only once the platform request
      succeeded; a failure is caught and leaves the state as it was. */
  function TogglePictureInPicture(s: State, v: View, pipActive: bool, succeeded: bool): (r: Reaction)
    ensures succeeded ==> r.state == s.(isPiP := !pipActive)
    ensures !succeeded ==> r.state == s
    ensures r.calls == (if pipActive then [ExitPictureInPicture] else [RequestPictureInPicture])
  {
    var call := if pipActive then ExitPictureInPicture else RequestPictureInPicture;
    Reaction(if succeeded then s.(isPiP := !pipActive) else s, v, [call], [])
  }

  /** `destroy()`: pauses the element and forgets every registered handler. */
  function Destroy(s: State, v: View, reg: EventBus.Registry): (r: (Reaction, EventBus.Registry))
    ensures r.0.calls == [Pause]
    ensures forall e :: EventBus.Handlers(r.1, e) == []
  {
    (Reaction(s, v, [Pause], []), EventBus.Empty)
  }

  // ---------------------------------------------------------------------------
  // The element, for composing commands with the events that follow them

  /** How the element takes a call: property assignments stick; `play()` and
      `pause()` clear and set `paused`; `load()` restarts paused at position 0
      with nothing buffered, as the HTML media element load algorithm
      prescribes. Fullscreen and picture-in-picture calls go to the document. */
  function Apply(el: Snapshot, c: Call): Snapshot {
    match c
    case SetCurrentTime(t) => el.(currentTime := t)
    case SetVolume(x) => el.(volume := x)
    case SetMuted(m) => el.(muted := m)
    case SetRate(x) => el.(playbackRate := x)
    case Load => el.(paused := true, currentTime := 0.0, bufferedEnds := [])
    case Play => el.(paused := false)
    case Pause => el.(paused := true)
    case _ => el
  }

  function ApplyAll(el: Snapshot, cs: seq<Call>): Snapshot
    decreases |cs|
  {
    if cs == [] then el else ApplyAll(Apply(el, cs[0]), cs[1..])
  }

  lemma ApplyOne(el: Snapshot, c: Call)
    ensures ApplyAll(el, [c]) == Apply(el, c)
  {
    assert [c][1..] == [];
  }

  /** A seek followed by the element's `timeupdate` leaves the clamped time in the state. */
  lemma SeekThenTimeUpdate(s: State, v: View, el: Snapshot, t: real)
    requires s.duration >= 0.0
    ensures var el' := ApplyAll(el, Seek(s, v, t).calls);
            var s' := HandleEvent(s, v, "timeupdate", el').state;
            s'.currentTime == Clamp(t, 0.0, s.duration)
  {
    ApplyOne(el, Seek(s, v, t).calls[0]);
  }

  /** `setVolume` followed by the element's `volumechange` stores the clamped volume. */
  lemma SetVolumeThenVolumeChange(s: State, v: View, el: Snapshot, x: real)
    ensures var el' := ApplyAll(el, SetVolumeCommand(s, v, x).calls);
            HandleEvent(s, v, "volumechange", el').state.volume == Clamp(x, 0.0, 1.0)
  {
    ApplyOne(el, SetVolume(Clamp(x, 0.0, 1.0)));
  }

  /** Two `toggleMute` calls give the element back its own `muted` flag. */
  lemma ToggleMuteTwice(s: State, v: View, el: Snapshot)
    ensures var el1 := ApplyAll(el, ToggleMute(s, v, el.muted).calls);
            ApplyAll(el1, ToggleMute(s, v, el1.muted).calls) == el
  {
    ApplyOne(el, SetMuted(!el.muted));
    var el1 := el.(muted := !el.muted);
    ApplyOne(el1, SetMuted(!el1.muted));
  }

  /** `setPlaybackRate` followed by the element's `ratechange` stores the rate
      exactly as given. */
  lemma SetPlaybackRateThenRateChange(s: State, v: View, el: Snapshot, rate: real)
    ensures var el' := ApplyAll(el, SetPlaybackRate(s, v, rate).calls);
            HandleEvent(s, v, "ratechange", el').state.playbackRate == rate
  {
    ApplyOne(el, SetRate(rate));
  }

  /** The state agrees with the element on whether it is playing. */
  predicate InSync(s: State, el: Snapshot) {
    s.isPlaying == !el.paused
  }

  /** A command's effect once the element has answered: it takes the calls, fires
      `play` or `pause` when its `paused` flag flipped, and the engine handles that
      event. */
  function AfterCommand(r: Reaction, el: Snapshot): (State, Snapshot) {
    var el' := ApplyAll(el, r.calls);
    if el.paused && !el'.paused then (HandleEvent(r.state, r.view, "play", el').state, el')
    else if !el.paused && el'.paused then (HandleEvent(r.state, r.view, "pause", el').state, el')
    else (r.state, el')
  }

  /** `play`, `pause` and `togglePlay` leave `isPlaying` to the element's events,
      and those events bring it to what was asked: playing after `play`, paused
      after `pause`, the opposite of before after `togglePlay`, with the state and
      the element agreeing afterwards. */
  lemma PlayPauseReachState(s: State, v: View, el: Snapshot)
    requires InSync(s, el)
    ensures var (s', el') := AfterCommand(PlayCommand(s, v), el);
            s'.isPlaying && InSync(s', el')
    ensures var (s', el') := AfterCommand(PauseCommand(s, v), el);
            !s'.isPlaying && InSync(s', el')
    ensures var (s', el') := AfterCommand(TogglePlay(s, v, el.paused), el);
            s'.isPlaying == !s.isPlaying && InSync(s', el')
  {
    ApplyOne(el, Play);
    ApplyOne(el, Pause);
  }

  /** Two `togglePlay` calls give the element back its own state. */
  lemma TogglePlayTwice(s: State, v: View, el: Snapshot)
    ensures var el1 := ApplyAll(el, TogglePlay(s, v, el.paused).calls);
            el1.paused == !el.paused && ApplyAll(el1, TogglePlay(s, v, el1.paused).calls) == el
  {
    ApplyOne(el, Play);
    ApplyOne(el, Pause);
    var el1 := el.(paused := !el.paused);
    ApplyOne(el1, Play);
    ApplyOne(el1, Pause);
  }

  /** Two successful picture-in-picture toggles, the second seeing the window the
      first opened or closed, restore the flag; a failed toggle changes nothing, so
      it followed by a success is that success alone. */
  lemma PictureInPictureRoundTrip(s: State, v: View, active: bool)
    ensures var s1 := TogglePictureInPicture(s, v, active, true).state;
            TogglePictureInPicture(s1, v, !active, true).state == s.(isPiP := active)
    ensures s.isPiP == active ==>
              TogglePictureInPicture(TogglePictureInPicture(s, v, active, true).state, v, !active, true).state == s
    ensures TogglePictureInPicture(TogglePictureInPicture(s, v, active, false).state, v, active, true)
            == TogglePictureInPicture(s, v, active, true)
  {
  }

  /** A successful quality switch restarts the element at 0: the next `timeupdate`
      puts 0 in the state, whatever the position was before. */
  lemma QualitySwitchLosesPosition(s: State, v: View, sources: seq<Source>, q: string, el: Snapshot)
    requires FindSource(sources, q).Some?
    ensures var el' := ApplyAll(el, SetQuality(s, v, sources, q).calls);
            HandleEvent(s, v, "timeupdate", el').state.currentTime == 0.0
  {
    var src := FindSource(sources, q).value;
    var cs := SetQuality(s, v, sources, q).calls;
    assert cs[0] == SetSrc(src.url) && cs[1] == Load;
    var el2 := el.(paused := true, currentTime := 0.0, bufferedEnds := []);
    assert ApplyAll(el, cs) == ApplyAll(el, cs[1..]);
    assert ApplyAll(el, cs[1..]) == ApplyAll(el2, cs[2..]) by {
      assert cs[1..][0] == Load && cs[1..][1..] == cs[2..];
    }
    if s.isPlaying {
      assert cs[2..] == [Play];
      ApplyOne(el2, Play);
    } else {
      assert cs[2..] == [];
    }
  }

  // ---------------------------------------------------------------------------
  // Sequences of events

  /** The state and view after the element fired `events` in order. */
  function Run(s: State, v: View, events: seq<(string, Snapshot)>): (State, View)
    decreases |events|
  {
    if events == [] then (s, v)
    else
      var p := Run(s, v, events[..|events| - 1]);
      var r := HandleEvent(p.0, p.1, events[|events| - 1].0, events[|events| - 1].1);
      (r.state, r.view)
  }

  /** Reference definition: the `isPlaying` value the last `play`/`pause` event
      implies, or `initial` when there was none. */
  function LastPlayPause(events: seq<(string, Snapshot)>, initial: bool): bool
    decreases |events|
  {
    if events == [] then initial
    else
      var last := events[|events| - 1].0;
      if last == "play" then true
      else if last == "pause" then false
      else LastPlayPause(events[..|events| - 1], initial)
  }

  /** `isPlaying` is exactly what the last `play`/`pause` event said. */
  lemma {:induction false} PlayingFollowsLastPlayPause(s: State, v: View, events: seq<(string, Snapshot)>)
    ensures Run(s, v, events).0.isPlaying == LastPlayPause(events, s.isPlaying)
    decreases |events|
  {
    if events != [] {
      PlayingFollowsLastPlayPause(s, v, events[..|events| - 1]);
    }
  }

  /** Among the element events forwarded to `handleEvent`, only `loadedmetadata`
      clears `isLoading`: `waiting`, `canplay` and `playing` move the spinner but
      never touch the flag. The element's `error` event and a rejected `play()`
      go to `handleError`, which clears it too (see `LoadingClearedOnlyBy`). */
  lemma {:induction false} LoadingUntilMetadata(s: State, v: View, events: seq<(string, Snapshot)>)
    requires forall i :: 0 <= i < |events| ==> events[i].0 != "loadedmetadata"
    ensures Run(s, v, events).0.isLoading == s.isLoading
    decreases |events|
  {
    if events != [] {
      var prefix := events[..|events| - 1];
      assert forall i :: 0 <= i < |prefix| ==> prefix[i] == events[i];
      LoadingUntilMetadata(s, v, prefix);
    }
  }

  // ---------------------------------------------------------------------------
  // Everything the engine does, for state-wide invariants

  datatype Op =
    | ElementEvent(name: string, el: Snapshot)
    | ElementError(el: Snapshot)
    | PlayOp
    | PlayRejectedOp(el: Snapshot)
    | PauseOp
    | TogglePlayOp(elementPaused: bool)
    | SeekOp(t: real)
    | VolumeOp(x: real)
    | MuteOp(elementMuted: bool)
    | RateOp(rate: real)
    | QualityOp(q: string)
    | FullscreenOp(active: bool)
    | PictureInPictureOp(active: bool, succeeded: bool)

  /** The operations that end loading: the metadata event and the two routes
      into `handleError`. */
  predicate ClearsLoading(op: Op) {
    (op.ElementEvent? && op.name == "loadedmetadata") || op.ElementError? || op.PlayRejectedOp?
  }

  function Step(s: State, v: View, sources: seq<Source>, op: Op): (r: Reaction)
    ensures r.state.isAudioMode == s.isAudioMode
    ensures r.state.isLoading == (s.isLoading && !ClearsLoading(op))
    ensures r.state.isFullscreen == (if op.FullscreenOp? then !op.active else s.isFullscreen)
  {
    match op
    case ElementEvent(name, el) => HandleEvent(s, v, name, el)
    case ElementError(el) => HandleError(s, v, el.error)
    case PlayOp => PlayCommand(s, v)
    case PlayRejectedOp(el) => PlayRejected(s, v, el)
    case PauseOp => PauseCommand(s, v)
    case TogglePlayOp(p) => TogglePlay(s, v, p)
    case SeekOp(t) => Seek(s, v, t)
    case VolumeOp(x) => SetVolumeCommand(s, v, x)
    case MuteOp(m) => ToggleMute(s, v, m)
    case RateOp(rate) => SetPlaybackRate(s, v, rate)
    case QualityOp(q) => SetQuality(s, v, sources, q)
    case FullscreenOp(a) => ToggleFullscreen(s, v, a)
    case PictureInPictureOp(a, ok) => TogglePictureInPicture(s, v, a, ok)
  }

  function Exec(s: State, v: View, sources: seq<Source>, ops: seq<Op>): State
    decreases |ops|
  {
    if ops == [] then s
    else
      var r := Step(s, v, sources, ops[0]);
      Exec(r.state, r.view, sources, ops[1..])
  }

  /** No engine operation ever sets `isAudioMode`: it keeps its initial `false`
      whatever happens, including while the audio-mode component is active. */
  lemma {:induction false} AudioModeFlagNeverSet(o: Options, ops: seq<Op>)
    ensures !Exec(Initial(o), InitialView, o.sources, ops).isAudioMode
  {
    ExecKeepsAudioMode(Initial(o), InitialView, o.sources, ops);
  }

  lemma {:induction false} ExecKeepsAudioMode(s: State, v: View, sources: seq<Source>, ops: seq<Op>)
    ensures Exec(s, v, sources, ops).isAudioMode == s.isAudioMode
    decreases |ops|
  {
    if ops != [] {
      var r := Step(s, v, sources, ops[0]);
      ExecKeepsAudioMode(r.state, r.view, sources, ops[1..]);
    }
  }

  /** Over any run of engine operations, the player is still loading exactly
      when it was loading at the start and none of the operations was the
      metadata event, an element error or a rejected `play()`. */
  lemma {:induction false} LoadingClearedOnlyBy(s: State, v: View, sources: seq<Source>, ops: seq<Op>)
    ensures Exec(s, v, sources, ops).isLoading
            <==> s.isLoading && forall i :: 0 <= i < |ops| ==> !ClearsLoading(ops[i])
    decreases |ops|
  {
    if ops != [] {
      var r := Step(s, v, sources, ops[0]);
      LoadingClearedOnlyBy(r.state, r.view, sources, ops[1..]);
      assert forall i :: 1 <= i < |ops| ==> ops[i] == ops[1..][i - 1];
    }
  }

  /** Reference definition: the fullscreen flag the last `toggleFullscreen`
      implies (the opposite of what the document reported at that call), or
      `initial` when there was none. */
  function LastFullscreenToggle(ops: seq<Op>, initial: bool): bool
    decreases |ops|
  {
    if ops == [] then initial
    else LastFullscreenToggle(ops[1..], if ops[0].FullscreenOp? then !ops[0].active else initial)
  }

  /** Within the engine, `isFullscreen` follows its own toggles only: nothing in
      the player watches the document's fullscreen changes, so after any run of
      engine operations the flag is what the last toggle set. A host that listens
      for `fullscreenchange` (see `PlayerComponent.OnFullscreenChange`) can still
      overwrite it. */
  lemma {:induction false} FullscreenFollowsLastToggle(s: State, v: View, sources: seq<Source>, ops: seq<Op>)
    ensures Exec(s, v, sources, ops).isFullscreen == LastFullscreenToggle(ops, s.isFullscreen)
    decreases |ops|
  {
    if ops != [] {
      var r := Step(s, v, sources, ops[0]);
      FullscreenFollowsLastToggle(r.state, r.view, sources, ops[1..]);
    }
  }

  /** Entering fullscreen, then leaving it with Esc while only engine operations
      follow: the engine's flag stays set, and the next toggle, seeing no
      fullscreen element, requests fullscreen again instead of exiting. */
  lemma {:induction false} EscLeavesFullscreenFlag(s: State, v: View, sources: seq<Source>, ops: seq<Op>)
    requires forall i :: 0 <= i < |ops| ==> !ops[i].FullscreenOp?
    ensures var s1 := Exec(ToggleFullscreen(s, v, false).state, v, sources, ops);
            s1.isFullscreen && ToggleFullscreen(s1, v, false).calls == [RequestFullscreen]
            && ToggleFullscreen(s1, v, false).state.isFullscreen
  {
    var s0 := ToggleFullscreen(s, v, false).state;
    FullscreenFollowsLastToggle(s0, v, sources, ops);
    NoToggleKeepsFlag(ops, true);
  }

  lemma {:induction false} NoToggleKeepsFlag(ops: seq<Op>, initial: bool)
    requires forall i :: 0 <= i < |ops| ==> !ops[i].FullscreenOp?
    ensures LastFullscreenToggle(ops, initial) == initial
    decreases |ops|
  {
    if ops != [] {
      NoToggleKeepsFlag(ops[1..], initial);
    }
  }
}

=== FILE: WatchHistory.dfy ===
/** The watch-progress throttle both player pages install on `timeupdate`
    (pages/player.js and components/player/Player.js): the position is saved
    whenever it is at least 30 seconds past the last saved position, which
    starts at 0. */
module WatchHistory {
  /** The minimum distance, in seconds, between two saved positions. */
  const Interval: real := 30.0

  /** One `timeupdate` at position `t`: the new last-saved position, and whether
      `t` is saved. */
  function Tick(last: real, t: real): (r: (real, bool))
    ensures r.1 <==> t - last >= Interval
    ensures r.1 ==> r.0 == t
    ensures !r.1 ==> r.0 == last
  {
    if t - last >= Interval then (t, true) else (last, false)
  }

  /** The positions saved over a run of `timeupdate`s, in order. */
  function Saved(last: real, times: seq<real>): seq<real>
    decreases |times|
  {
    if times == [] then []
    else
      var (last', saved) := Tick(last, times[0]);
      (if saved then [times[0]] else []) + Saved(last', times[1..])
  }

  /** The last-saved position after a run of `timeupdate`s. */
  function LastSaved(last: real, times: seq<real>): real
    decreases |times|
  {
    if times == [] then last else LastSaved(Tick(last, times[0]).0, times[1..])
  }

  /** Saved positions are positions that occurred, each at least 30 seconds past
      the one saved before it (the first, past the starting point), and the last
      of them is the last-saved position. */
  lemma {:induction false} SavedSpaced(last: real, times: seq<real>)
    ensures var r := Saved(last, times);
            && (forall i :: 0 <= i < |r| ==> r[i] in times)
            && (|r| > 0 ==> r[0] - last >= Interval)
            && (forall i :: 0 < i < |r| ==> r[i] - r[i - 1] >= Interval)
            && (|r| > 0 ==> LastSaved(last, times) == r[|r| - 1])
            && (|r| == 0 ==> LastSaved(last, times) == last)
    decreases |times|
  {
    if times != [] {
      var (last', saved) := Tick(last, times[0]);
      SavedSpaced(last', times[1..]);
      var rest := Saved(last', times[1..]);
      var r := Saved(last, times);
      assert r == (if saved then [times[0]] else []) + rest;
      forall i | 0 <= i < |r| ensures r[i] in times {
        if saved && i == 0 {
        } else {
          var j := if saved then i - 1 else i;
          assert r[i] == rest[j];
          assert rest[j] in times[1..];
        }
      }
      if saved {
        forall i | 0 < i < |r| ensures r[i] - r[i - 1] >= Interval {
          if i == 1 {
            assert r[1] == rest[0];
          } else {
            assert r[i] == rest[i - 1] && r[i - 1] == rest[i - 2];
          }
        }
      }
    }
  }

  /** After any `timeupdate`, the last-saved position is less than 30 seconds
      behind it: the throttle never lets the record fall further behind. */
  lemma {:induction false} NeverFarBehind(last: real, times: seq<real>)
    requires times != []
    ensures LastSaved(last, times) > times[|times| - 1] - Interval
    decreases |times|
  {
    var last' := Tick(last, times[0]).0;
    if |times| > 1 {
      NeverFarBehind(last', times[1..]);
      assert times[1..][|times[1..]| - 1] == times[|times| - 1];
    }
  }

  /** After a seek back behind the last-saved position nothing is saved until
      the playback is 30 seconds past that position again. */
  lemma SeekBackSavesNothing(last: real, times: seq<real>)
    requires forall i :: 0 <= i < |times| ==> times[i] < last + Interval
    ensures Saved(last, times) == []
  {
    SavedSpaced(last, times);
  }
}
